=== FILE: README.md ===
# Evolutionary timetable scheduler — Dafny model

This project models the engine of a school timetable scheduler. The engine
lives in `modules/scheduler.py`. It builds weekly schedules of sessions, where
a session is a room, a group, a subject, a teacher and a time slot (day and
period 1..6). It works as a small evolutionary algorithm:

- **Seeding.** Repeated randomised first-fit generation attempts
  (`_generate_initial_population`, `_try_generate_valid_schedule`,
  `_all_combinations_helper`).
- **Breeding.** Each generation picks parents, applies the identity crossover
  and a one-session mutation (`_crossover`, `_mutate`). A child is admitted only
  if the hard-constraint checker accepts it (`_check_hard_constraints`).
- **Selection.** The GREEDY strategy keeps the best `population_size` schedules
  of parents plus children. The ranking is by fitness (`_get_score`,
  `_calculate_windows_number`).
- **Tracking.** The best schedule ever seen is tracked, together with a count
  of generations that did not improve it.

Every operation is a pure function or a method over immutable values.
Randomness is passed in as oracle data:

- `Generator.Shuffle` holds the four shuffled candidate lists of one session
  to place.
- `Variation.Mutation` holds the draws of one `_mutate` call.
- `Evolution.BreedDraw` holds the parent picks and mutation draws of one
  breeding iteration.

Indices drawn from a list are reduced modulo its length. A draw from an
empty list is Python's `IndexError`.

Modules, in dependency order:

| file | module | contents |
|---|---|---|
| entities.dfy | `Entities` | days, periods, slots, subjects, rooms, teachers, groups, sessions; `Option`, `Result`, faults |
| constraints.dfy | `Constraints` | clash predicate, the checker, the generator's interference test and their duality |
| windows.dfy | `Windows` | idle periods ("windows") per day and per week |
| fitness.dfy | `Fitness` | seat shortfall, penalty, score `1/(1+penalty)` and its order |
| generator.dfy | `Generator` | requirement plan, candidate product, first-fit placement, schedule generation with the loop variable at line 177 kept apart (see Findings) |
| aliasing.dfy | `Aliasing` | schedule generation as the code stands, with object identities, and what it does to the checker and the score |
| seeding.dfy | `Seeding` | the seeding loop over generation attempts |
| variation.dfy | `Variation` | crossover, mutation, and mutation as the code stands |
| selection.dfy | `Selection` | stable sort, the GREEDY cut |
| evolution.dfy | `Evolution` | breeding loop, next population, best-ever tracking, `run` |

The end-to-end result is `Evolution.Run`. It models `run` with the two
defects listed under Findings corrected: the generator's rebinding of
`session` and the mutation's writes to read-only properties. With those
corrections, every schedule it returns is free of double bookings. It also
holds exactly the sessions the groups' requirements ask for, each with a
capable roster teacher and a roster room. As the code stands, every
mutation other than a skip raises `AttributeError`
(`Variation.MutateAsWritten`), and a seed may list one session object twice
(`Aliasing.TryGenerateAsWritten`).

Behaviours of the code that the model keeps:

- SWAP overwrites: both drawn sessions end with the first one's slot. The
  indices are drawn with replacement, so both picks may be the same session.
  The two slots are never exchanged (`Variation.SwapAsWritten`,
  `Variation.SwapIsNotExchange`).
- A generation collects between `population_size` and `population_size + 1`
  children, because the loop at line 40 tests the count only before each pair
  is added (`Evolution.Breed`).
- Breeding and filtering run one after the other in a single process.
- `_check_hard_constraints` skips a pair when `s1 is s2`, that is by object
  identity. A list carries, for each position, the position where its object
  was first listed (`Constraints.Tagged`), and the checker skips pairs with
  equal tags (`Constraints.ValidById`). When no object is listed twice this
  is the positional property `Constraints.Valid`
  (`Constraints.ValidByIdDistinct`). The generator as the code stands can list
  one object twice (`Aliasing`). The corrected generator, crossover and
  mutation never do, so the rest of the model tags each position with
  itself.

## Model

| member | source | states |
|---|---|---|
| Constraints.CheckHardConstraints | modules/scheduler.py:66-77 | the checker answers true exactly when no two sessions that are distinct objects share day and period and also a group name, room identifier or teacher name; one object listed twice is never compared with itself; schedules of zero or one session pass |
| Constraints.ValidByIdDistinct | modules/scheduler.py:66-77 | when no object is listed twice, the checker's identity test and the positional test accept the same lists |
| Constraints.RepeatedNotValid | modules/scheduler.py:66-77 | a list holding one object at two positions is not admissible, since that session clashes with itself |
| Constraints.ValidDistinct | modules/scheduler.py:66-77 | an admissible list lists no object twice |
| Constraints.RepeatedPasses | modules/scheduler.py:68-69 | one session object listed twice passes the checker, though the list is not admissible |
| Constraints.InterferesIffConflict | modules/scheduler.py:175-183 | the generator's interference test (`Constraints.Interferes`) fires exactly when the candidate clashes, in the checker's sense, with some placed session |
| Constraints.ValidAppend | modules/scheduler.py:174-191 | appending a session keeps a schedule admissible exactly when the schedule was admissible and the session does not interfere with it |
| Constraints.ValidTail | modules/scheduler.py:66-77 | dropping the first session of an admissible schedule leaves it admissible, and the first session clashes with none of the rest |
| Entities.TeacherCandidates | modules/scheduler.py:152 | the candidates are exactly the roster teachers whose teachable subjects include the subject's name |
| Windows.TimesOnMember | modules/scheduler.py:119 | a period is listed for a day exactly when some slot lies on that day at that period |
| Windows.DayWindowsCountsGaps | modules/scheduler.py:119-123 | on a day with two or more distinct slots, the day's term counts the idle periods strictly between the first and last class |
| Windows.GapsCount | modules/scheduler.py:121-123 | for distinct periods, (max - min) - count + 1 is the number of periods missing from the span |
| Windows.DayWindowsNonNegative | modules/scheduler.py:119-123 | each day's term is non-negative when no slot repeats |
| Windows.WindowsNonNegative | modules/scheduler.py:110-124 | the weekly window count is non-negative when no slot repeats |
| Windows.WindowsOneDay | modules/scheduler.py:112-123 | when all slots fall on one day, the weekly count is that day's term |
| Windows.WindowsOneGap | modules/scheduler.py:119-123 | periods 1 and 3 on one day leave one window |
| Windows.WindowsContiguous | modules/scheduler.py:119-123 | periods 1, 2 and 3 on one day leave none |
| Windows.WindowsLoneClass | modules/scheduler.py:120 | a single class leaves no window |
| Windows.WindowsDuplicate | modules/scheduler.py:119-123 | a slot listed twice gives -1 |
| Windows.SumDaysCountsIdle | modules/scheduler.py:113-123 | for distinct slots, the per-day terms summed over any list of days count the idle periods of those days, a day without classes counting none |
| Windows.WindowsNumberCountsIdle | modules/scheduler.py:110-124 | for distinct slots, the weekly window count (`Windows.WindowsNumber`) is the number of idle periods between the first and last class of each day, summed over the five days |
| Fitness.Names | modules/scheduler.py:82-86 | the names collected are distinct and are exactly the group (or teacher) names occurring in the schedule |
| Fitness.SlotsOfMember | modules/scheduler.py:88-92 | a slot is collected for a name exactly when a session of that name sits in that slot |
| Fitness.ValidSlotsDistinct | modules/scheduler.py:88-100 | in an admissible schedule no group and no teacher holds a slot twice |
| Fitness.SeatsLacking | modules/scheduler.py:103-105 | the seat shortfall is non-negative and zero exactly when every room seats its group |
| Fitness.SeatsExample | modules/scheduler.py:105 | a group of 30 in a room for 25 lacks 5 seats; in a room for 30 it lacks none |
| Fitness.PenaltyTermsNonNegative | modules/scheduler.py:87-105 | on an admissible schedule group windows, teacher windows and seats lacking are each non-negative |
| Fitness.Score | modules/scheduler.py:107 | when the penalty is non-negative the score lies in (0, 1] and is 1 exactly when the penalty is 0 |
| Fitness.ScoreBounds | modules/scheduler.py:80-107 | an admissible schedule scores in (0, 1], and scores 1 exactly when it has no group windows, no teacher windows and no seat shortfall |
| Fitness.SumWindowsCountsIdle | modules/scheduler.py:87-100 | on an admissible schedule, the window counts summed over a list of group (or teacher) names are the idle periods of those names' weeks |
| Fitness.PenaltyCountsIdle | modules/scheduler.py:80-107 | on an admissible schedule, the group windows and the teacher windows (`Fitness.GroupWindows`, `Fitness.TeacherWindows`) count the idle periods of every group's and every teacher's week, and the penalty (`Fitness.Penalty`) is those two counts plus the seats rooms lack |
| Fitness.ScoreOrder | modules/scheduler.py:107 | for non-negative penalties, a lower score means a higher penalty and equal scores mean equal penalties |
| Generator.PlanCount | modules/scheduler.py:148-150 | the generation order (`Generator.Plan`) holds each (group, subject) instance as often as the groups' requirements demand |
| Generator.FollowsCount | modules/scheduler.py:148-152 | a schedule following the generation order has as many sessions of each (group, subject) as the order has instances |
| Generator.ConformsMeetsDemand | modules/scheduler.py:148-152 | a generated schedule holds, for every group and subject, exactly the demanded number of sessions |
| Generator.ConformsMeetsRequirement | modules/scheduler.py:148-152 | for a listed group and a requirement (n, subject) with unique subjects, a generated schedule holds exactly n such sessions |
| Generator.Product | modules/scheduler.py:194-202 | the product of two lists holds exactly the pairs of their members |
| Generator.ProductLength | modules/scheduler.py:194-202 | the product has one entry per pair |
| Generator.ProductOrder | modules/scheduler.py:194-202 | the product runs through the first list in order, the second list inside it: entry i·m + j is (xs[i], ys[j]) |
| Generator.AllCombinations | modules/scheduler.py:174 | the candidate tuples are exactly the teacher × room × day × period combinations of the four lists |
| Generator.FirstFree | modules/scheduler.py:174-187 | corrected generator: the scan yields a session that interferes with nothing placed, and yields none exactly when every candidate interferes |
| Generator.FirstFreeIsFirst | modules/scheduler.py:174-187 | the session taken is built from the first candidate that does not interfere |
| Generator.ShuffleMembers | modules/scheduler.py:152-172 | the shuffled lists hold exactly the capable teachers, the roster rooms, every day and every period |
| Generator.FirstFitNoneIff | modules/scheduler.py:173-189 | corrected generator: placing an instance (`Generator.FirstFit`) fails exactly when every capable teacher, roster room, day and period interferes; a placed session is of the instance's group and subject, with a roster room and a capable roster teacher |
| Generator.Extend | modules/scheduler.py:148-190 | corrected generator: generation keeps the sessions placed so far as a prefix, adds one session per instance, and keeps an admissible schedule admissible |
| Generator.ExtendChain | modules/scheduler.py:173-190 | corrected generator: each session of a generated schedule is the first fit against the sessions placed before it |
| Generator.TryGenerate | modules/scheduler.py:141-192 | corrected generator: a returned schedule passes the checker and conforms to the requirements with capable teachers and roster rooms |
| Generator.ExtendFailsIffStuck | modules/scheduler.py:188-189 | corrected generator: generation returns nothing exactly when some instance cannot be placed after the prefix built so far |
| Generator.GenerateFailsIffBlocked | modules/scheduler.py:173-190 | corrected generator: the generator returns None exactly when, for some instance, every capable teacher, room, day and period interferes with the sessions already placed |
| Generator.PlanCovers | modules/scheduler.py:148-150 | every requirement with a positive count yields an instance in the generation order |
| Aliasing.FirstClash | modules/scheduler.py:177-183 | the interference loop breaks at the first placed session that clashes with the candidate, and runs through when none does |
| Aliasing.Scan | modules/scheduler.py:173-187 | the candidate loop ends with the corrected scan's new session when some candidate is free, and otherwise with the placed session that the last candidate clashed with first |
| Aliasing.Place | modules/scheduler.py:173-189 | as written, placing an instance yields nothing only for an empty candidate product; otherwise a new free session, or a placed session that clashes with the last candidate |
| Aliasing.AppendKeeps | modules/scheduler.py:186-190 | an append keeps the identity tags coherent and keeps the list acceptable to the checker |
| Aliasing.ExtendAsWrittenKeeps | modules/scheduler.py:148-191 | generation as written keeps identity tags coherent and never lists two clashing sessions that are distinct objects |
| Aliasing.ExtendAsWrittenNoneIff | modules/scheduler.py:173-189 | generation as written fails exactly when some instance has an empty candidate list |
| Aliasing.ExtendAsWrittenAgrees | modules/scheduler.py:148-190 | where the corrected generation succeeds, generation as written builds the same sessions, each a new object |
| Aliasing.ExtendAsWrittenDistinct | modules/scheduler.py:148-190 | where generation as written lists no object twice, the corrected generation succeeds with the same sessions |
| Aliasing.ExtendAsWrittenValidIff | modules/scheduler.py:148-190 | a list built as written is admissible exactly when the corrected generation builds the same schedule |
| Aliasing.ExtendAsWrittenExample | modules/scheduler.py:173-190 | two instances offered one candidate: as written the first session is listed twice, the checker accepts the list, the room is double-booked, and the corrected generation fails |
| Aliasing.TryGenerateAsWritten | modules/scheduler.py:141-192 | as written, a returned list has one session per instance, coherent identity tags, and passes the checker, so the assertion at line 191 never fails |
| Aliasing.CandidatesEmpty | modules/scheduler.py:152-174 | an instance's candidate product is empty exactly when no roster teacher can teach its subject or there is no room |
| Aliasing.GenerateAsWrittenNoneIff | modules/scheduler.py:173-189 | as written, the generator returns None exactly when some instance has no capable teacher or there is no room, never because an instance is blocked |
| Aliasing.GenerateAsWrittenValidIff | modules/scheduler.py:141-192 | a list the generator returns as written is admissible exactly when the corrected generator returns that same schedule |
| Aliasing.GenerateAsWrittenAgrees | modules/scheduler.py:141-192 | where the corrected generator succeeds, the generator as written returns the same schedule with no object listed twice |
| Aliasing.GenerateAsWrittenWhenBlocked | modules/scheduler.py:173-191 | where the corrected generator is blocked and every candidate product is non-empty, the generator as written returns a list that passes the checker and is not admissible |
| Aliasing.DistinctSlotsBound | modules/scheduler.py:153-166 | with five days of six periods, a list whose slots are pairwise distinct has at most 30 sessions |
| Aliasing.OneRoomBound | modules/scheduler.py:175-187 | an admissible list whose sessions all take one room has at most 30 sessions |
| Aliasing.OneRoomBlocks | modules/scheduler.py:148-189 | with a single room and more than 30 instances, the corrected generator returns None for every fitting shuffle |
| Aliasing.CrowdedPlan | modules/scheduler.py:148-150 | groups A (30 math) and B (1 math) give a plan of 31 math instances |
| Aliasing.CrowdedPlaceable | modules/scheduler.py:152-167 | in that example every instance has a capable teacher and a room |
| Aliasing.CrowdedShuffles | modules/scheduler.py:152-171 | in that example the unshuffled teacher, room, day and period lists are fitting shuffles |
| Aliasing.ReachableAlias | modules/scheduler.py:141-192 | in that example, for every fitting shuffle, the corrected generator returns None, every instance has candidates, and the generator as written returns a list that passes its checker and is not admissible |
| Aliasing.WindowsRepeated | modules/scheduler.py:110-124 | one slot listed twice counts as -1 window |
| Aliasing.RepeatedPenalty | modules/scheduler.py:80-107 | one session listed twice, in a room that seats its group, gives penalty -2 and score -1.0 |
| Aliasing.RepeatedRoleWindows | modules/scheduler.py:87-100 | one session listed twice gives its group, and its teacher, a window count of -1 |
| Generator.NoTeacherFails | modules/scheduler.py:152-189 | when a required subject has no capable teacher, generation returns None |
| Seeding.SuccessesAdmissible | modules/scheduler.py:136-138 | corrected generator: only generator results are kept, so every kept schedule is admissible and conforms |
| Seeding.GenerateInitialPopulation | modules/scheduler.py:126-139 | corrected generator: the seeds are the successful attempts in order, at most population-size many, within 100 × population-size attempts, all admissible and conforming; the budget is spent when fewer are found; the result is empty exactly when the size is not positive or the whole budget fails |
| Seeding.SuccessesMembers | modules/scheduler.py:136-138 | a schedule is a seed exactly when one of the attempts made returned it |
| Seeding.SuccessesEmpty | modules/scheduler.py:136-138 | no seed at all exactly when every attempt made failed |
| Seeding.SuccessesPrefix | modules/scheduler.py:134-138 | the seeds after fewer attempts are a prefix of those after more |
| Seeding.NoTeacherNoSeeds | modules/scheduler.py:134-138 | with a required subject nobody can teach, seeding finds nothing |
| Variation.Crossover | modules/scheduler.py:205-209 | both children are the parents, unchanged |
| Variation.Mutate | modules/scheduler.py:211-257 | a skip returns the schedule; otherwise mutation fails with IndexError exactly when it draws from an empty session list or an empty teacher list; a result has the same length and keeps every session's group, subject and room |
| Variation.ChangeTimeSlotTouchesOne | modules/scheduler.py:227-245 | CHANGE_TIME_SLOT gives the drawn session the drawn slot and changes nothing else |
| Variation.ChangeTeacherTouchesOne | modules/scheduler.py:246-249 | CHANGE_TEACHER gives the drawn session a roster teacher able to teach its subject and changes nothing else |
| Variation.SwapAsWritten | modules/scheduler.py:250-253 | SWAP leaves the first drawn session as it was and gives the second the first one's slot; other sessions are unchanged |
| Variation.SwapIsNotExchange | modules/scheduler.py:250-253 | when the two slots differ, the first session does not receive the second one's slot |
| Variation.SwapSharedBreaksValidity | modules/scheduler.py:250-253 | SWAP on two distinct sessions sharing a group, room or teacher always yields a double booking |
| Variation.KeptCounts | modules/scheduler.py:219-257 | keeping group and subject position by position keeps every (group, subject) count |
| Variation.MutateKeepsCounts | modules/scheduler.py:219-257 | a mutated child holds as many sessions of each (group, subject) as its parent |
| Variation.MutateKeepsConforms | modules/scheduler.py:219-257 | mutating a conforming schedule gives a conforming schedule |
| Variation.ConformingMutateFails | modules/scheduler.py:226-251 | on a conforming schedule, mutation fails exactly when it is not a skip and the schedule is empty |
| Variation.MutateAsWritten | modules/scheduler.py:216-253 | as the code stands, mutation succeeds only on a skip |
| Variation.MutateAsWrittenRaises | modules/entities/session.py:23-41 | every change the corrected operator makes is an AttributeError in the code as written, and the two agree on skips and failed draws |
| Variation.MutateAsWrittenExample | modules/scheduler.py:228-229 | on one session, a CHANGE_TIME_SLOT raises AttributeError as written, while the corrected operator returns the session with the new slot |
| Selection.Insert | modules/scheduler.py:48 | insertion keeps the elements and adds the new one |
| Selection.SortBy | modules/scheduler.py:48 | sorting permutes the pool |
| Selection.InsertSorted | modules/scheduler.py:48 | inserting into an ascending sequence keeps it ascending |
| Selection.SortBySorted | modules/scheduler.py:48 | the sorted pool is in ascending key order |
| Selection.SortByStable | modules/scheduler.py:48 | schedules with equal keys keep their pool order, as Python's stable sort does |
| Selection.SortSortedIsIdentity | modules/scheduler.py:55 | sorting an already sorted population changes nothing |
| Selection.Take | modules/scheduler.py:48 | the cut is a prefix of length min(n, length) for n ≥ 0 and length + n (at least 0) for negative n |
| Selection.Greedy | modules/scheduler.py:47-48 | GREEDY keeps a prefix of the sorted pool of population size, or the whole pool when smaller |
| Selection.GreedySelects | modules/scheduler.py:47-48 | the kept schedules come from the pool and are in ascending penalty order |
| Selection.TakeKeepsBest | modules/scheduler.py:48 | cutting a sorted sequence drops nothing with a smaller key than something kept |
| Selection.GreedyKeepsBest | modules/scheduler.py:47-48 | no schedule dropped by GREEDY has a lower penalty than one kept |
| Selection.GreedyByScore | modules/scheduler.py:48 | on an admissible pool the kept schedules are in non-increasing score order |
| Evolution.BredFit | modules/scheduler.py:41-46 | an admitted child of fit parents is fit |
| Evolution.FitDrawFails | modules/scheduler.py:43-46 | fit parents fail a mutation draw only when no group requires anything |
| Evolution.BreedFrom | modules/scheduler.py:39-46 | with mutation corrected, the breeding loop run over the draws from a cursor yields between population-size and population-size + 1 children, each admissible and a mutation of a parent, or fails with IndexError (empty population or failing draw) or with DrawsExhausted, and that only once every draw is taken; the cursor never moves backwards nor past the end |
| Evolution.BreedStep | modules/scheduler.py:40-46 | an iteration whose two mutations succeed appends the admitted children, in order, and the loop carries on from the next draw |
| Evolution.Breed | modules/scheduler.py:39-46 | the breeding loop returns exactly the outcome and the cursor of `Evolution.BreedFrom` from its start draw, so it fails with DrawsExhausted only when every draw is taken; between population-size and population-size + 1 children, each admissible and a mutation of a parent; IndexError only for an empty population or a failing draw |
| Evolution.NextPopulation | modules/scheduler.py:47-55 | the next population holds the GREEDY selection |
| Evolution.NextPopulationKeeps | modules/scheduler.py:47-55 | the re-sort changes nothing, the population has population size (or the whole pool), and every member is fit |
| Evolution.NextPopulationSorted | modules/scheduler.py:55 | the next population is in ascending penalty order |
| Evolution.NextPopulationHeadBest | modules/scheduler.py:47-56 | the first member of the next population has the least penalty in the pool |
| Evolution.Track | modules/scheduler.py:56-59 | the best score never decreases and is at least the top's; the counter stays exactly when the best score rises, and otherwise goes up by one; on a tie the earlier best is kept |
| Evolution.TrackByPenalty | modules/scheduler.py:56-59 | on admissible schedules the best is replaced by the top exactly when the top's penalty is lower, and is otherwise kept; the counter stays exactly then |
| Evolution.ReportedAppend | modules/scheduler.py:56-62 | a line that follows the last one by the tracking rule extends a well-formed report |
| Evolution.ReportedMonotone | modules/scheduler.py:56-62 | across the printed lines the best score and the counter never decrease |
| Evolution.ReportedCounts | modules/scheduler.py:56-62 | the last counter is the first plus the number of lines that did not raise the score |
| Evolution.Seed | modules/scheduler.py:33-34 | corrected generator: the seeded population is non-empty, at most population-size and fit; it is the successful attempts, in order, among the first `used` attempts, with `used` at most the attempts given; the assertion fails exactly when the size is not positive or every attempt failed |
| Evolution.HeadFit | modules/scheduler.py:35 | corrected generator: the first seed is fit and has a defined score |
| Evolution.Generation | modules/scheduler.py:38-59 | one generation breeds between population-size and population-size + 1 children, each admissible and a mutation of a member of the population; the next population is the GREEDY population of the population and those children, fit, ascending and of exactly the population size; best and counter are the tracking step applied to its top, so the best stays fit and the report line obeys the tracking rule; the outcome and the cursor after are those of `Evolution.BreedFrom` from the given cursor |
| Evolution.ChainAppend | modules/scheduler.py:38-55 | one more generation whose population is the GREEDY population of the last one and of a brood extends the chain of generations and of broods |
| Evolution.SizedAppend | modules/scheduler.py:47-55 | one more population of the population size, fit, keeps every population of the run so |
| Evolution.DrawnAppend | modules/scheduler.py:38-46 | one more generation whose brood is the breeding from where the last generation stopped extends the record of draws taken |
| Evolution.CourseAppend | modules/scheduler.py:38-62 | one more generation extends the record of the run, and the tracking over the longer run is one tracking step after the tracking over the shorter one |
| Evolution.Follow | modules/scheduler.py:56-62 | tracking over the run's populations yields one line per generation; the last line holds the final counter and the score of the final best; the lines follow the tracking rule; the best never scores below the seed |
| Evolution.FollowAbove | modules/scheduler.py:56-59 | the tracked best scores at least as well as the top of every generation |
| Evolution.FollowBelow | modules/scheduler.py:56-59 | in penalties, the tracked best is no worse than the seed and than the top of every generation |
| Evolution.FollowStep | modules/scheduler.py:56-62 | tracking over one more population is one tracking step on its top after the tracking over the rest |
| Evolution.Advance | modules/scheduler.py:38-62 | one pass of the generation loop records its brood, its population and its report line; the new population is the last one of the run, of the population size and fit; best, counter and report are the tracking over the whole run; the generation breeds from the draw where the last one stopped, and a failure is the failure of that breeding |
| Evolution.Evolve | modules/scheduler.py:35-63 | the loop records, generation by generation, the brood of each population and the GREEDY population that follows; the returned best, the counter and the report lines are the tracking over those populations, starting from the first seed, so the result is fit and no worse in penalty than the first seed or the top of any generation; one report line per generation, the last holding the returned schedule's score; generation after generation the breeding takes the draws in order from the first, and a failure is the failure of the breeding that follows the last recorded generation, DrawsExhausted only once every draw is taken |
| Evolution.Run | modules/scheduler.py:27-63 | with generation and mutation corrected, `run` seeds from the successful attempts and then evolves as `Evolution.Evolve` states, returning a fit schedule no worse in penalty than the first seed; it stops with AssertionError exactly when seeding finds nothing, with IndexError only when no group requires anything, and otherwise with DrawsExhausted only once the breeding after the last recorded generation has taken every draw; the generations take the draws in order from the first; the printed lines follow the tracking rule |

## Left out

- `modules/filesystem/utils.py`: CSV loading through pandas is file I/O and a foreign library.
- The RAIN strategy (modules/scheduler.py:49-51) is left out. It slices with a float index, which raises a TypeError. Its `random.choices` call without `k` draws a single schedule. No coherent contract exists for it. The `NotImplementedError` branch (52-53) cannot be reached with GREEDY.
- Probabilities are not modelled: the 0.3 skip chance and the uniformity of every choice. Each draw is an oracle input.
- Floating point is not modelled. Scores are exact reals, and sorting uses the integer penalty. The two orders agree on admissible schedules (`Fitness.ScoreOrder`).
- Fitness.Score: requires a penalty other than -1 and does not model the ZeroDivisionError at modules/scheduler.py:107. A penalty below zero needs a group or teacher holding one slot twice. The corrected generator and mutation never produce such a schedule (`Fitness.PenaltyTermsNonNegative`). As the code stands, a seed listing one session twice can have a negative penalty: -2 gives score -1.0 (`Aliasing.RepeatedPenalty`), and a penalty of exactly -1 would raise ZeroDivisionError.
- Evolution.Run: models `run` with both findings corrected. As the code stands, the first mutation that is not a skip and draws successfully raises AttributeError (`Variation.MutateAsWritten`), so `run` either fails there or returns one of the seeds. Seeds may also list one session object twice (`Aliasing.GenerateAsWrittenWhenBlocked`). The model does not compose these into an as-written `run`.
- Evolution.Breed: models breeding with mutation corrected. As the code stands it raises AttributeError at the first non-skip mutation whose draws succeed.
- Generator.TryGenerate: models the generator with the loop variable at line 177 kept apart from `session`. The code as it stands is `Aliasing.TryGenerateAsWritten`, which agrees with it wherever it succeeds (`Aliasing.GenerateAsWrittenAgrees`).
- The console output at modules/scheduler.py:61-62 is modelled as `Report` lines of counter and best score. The message text is not modelled.
- Termination of the breeding loop (modules/scheduler.py:40) is unbounded in the code. Its draws come from a finite stream, and running out is `DrawsExhausted`. That fault is an artefact of the model, not a behaviour of the code.
- Seeding.GenerateInitialPopulation: models seeding over the corrected generator. As the code stands, a seed may list one session object twice (`Aliasing.ReachableAlias`).
- The entity modules for time slots, groups, rooms, teachers and schedules are not part of this model. They appear only through the fields the engine reads.
- Python generators and `copy.deepcopy` are not modelled. Values are immutable, so a deep copy is the value itself. Object identity is modelled only where a list can hold one object twice, in the generator as written.
- Selection.GreedyByScore: the score order is stated for admissible pools only, where every score is defined.

## Findings

| source | as written | input that shows it | evidently intended | confidence | as-written member | corrected member |
|---|---|---|---|---|---|---|
| modules/scheduler.py:229, 249, 252-253 with modules/entities/session.py:23-41 | `_mutate` assigns `session.time_slot` and `session.teacher`, but `Session` exposes these as read-only properties without setters, so every non-skip mutation raises `AttributeError` once its draws succeed | a one-session schedule with a CHANGE_TIME_SLOT draw | replace that one field of the drawn session in the copy | not executed | Variation.MutateAsWritten (Variation.MutateAsWrittenRaises, Variation.MutateAsWrittenExample) | Variation.Mutate |
| modules/scheduler.py:173-190 | the interference loop at line 177 reuses the name `session`, so when every candidate interferes `session` still names the placed session the last candidate clashed with; the `None` test at line 188 does not fire and that object is appended again; the checker skips it because `s1 is s2`, so the assertion at line 191 passes | groups A (size 10, requiring 30 math) and B (size 10, requiring 1 math), one room of capacity 30, one math teacher: the 31st instance finds all 30 slots taken and an A session is appended a second time | return `None` when no candidate is free | not executed | Aliasing.TryGenerateAsWritten (Aliasing.ReachableAlias, Aliasing.GenerateAsWrittenWhenBlocked, Aliasing.ExtendAsWrittenExample, Constraints.RepeatedPasses) | Generator.TryGenerate (Generator.Extend, Generator.GenerateFailsIffBlocked) |

=== FILE: aliasing.dfy ===
/** The generator as the code stands.  The interference loop at line 177 of
    the scheduler uses the name `session` for its loop variable, so it
    rebinds the variable that line 173 set to `None`.  When every candidate
    interferes, `session` is left naming the placed session that the last
    candidate clashed with; the test for `None` does not fire, and that
    object is appended a second time.  `None` comes back only when the
    candidate product is empty.  Lists here carry object identities
    (`Constraints.Tagged`), so that the checker's `s1 is s2` can be told
    apart from equality of positions. */
module Aliasing {
  import opened Entities
  import opened Constraints
  import opened Windows
  import opened Fitness
  import opened Generator

  /** The interference loop for one candidate: the position at which it
      breaks, which is the first placed session the candidate clashes with. */
  function FirstClash(placed: Schedule, x: Session): (r: Option<nat>)
    ensures r.Some? ==> r.value < |placed| && Conflict(placed[r.value], x)
    ensures r.Some? ==> forall j :: 0 <= j < r.value ==> !Conflict(placed[j], x)
    ensures r.None? <==> !Interferes(placed, x)
    decreases |placed|
  {
    InterferesIffConflict(placed, x);
    if |placed| == 0 then None
    else if Conflict(placed[0], x) then Some(0)
    else
      assert forall j :: 1 <= j < |placed| ==> placed[j] == placed[1..][j - 1];
      match FirstClash(placed[1..], x)
      case None => None
      case Some(k) => Some(k + 1)
  }

  /** What the variable `session` names when the candidate loop ends: a new
      session built from a candidate, or the placed session at position `k`. */
  datatype Pick = Fresh(x: Session) | Again(k: nat)

  /** The candidate loop with its variable `session`, which names `bound`
      before `cands[0]` is tried.  A candidate that interferes leaves the
      variable naming the placed session it clashed with; the first one that
      does not ends the loop with a new session. */
  function Scan(placed: Schedule, inst: Instance, cands: seq<Candidate>, bound: Option<Pick>): (r: Option<Pick>)
    ensures |cands| == 0 ==> r == bound
    ensures FirstFree(placed, inst, cands).Some? ==> r == Some(Fresh(FirstFree(placed, inst, cands).value))
    ensures FirstFree(placed, inst, cands).None? && |cands| > 0 ==>
      r.Some? && r.value.Again? && FirstClash(placed, MakeSession(inst, cands[|cands| - 1])) == Some(r.value.k)
    decreases |cands|
  {
    if |cands| == 0 then bound
    else
      var x := MakeSession(inst, cands[0]);
      match FirstClash(placed, x)
      case None => Some(Fresh(x))
      case Some(k) =>
        assert |cands| > 1 ==> cands[|cands| - 1] == cands[1..][|cands[1..]| - 1];
        Scan(placed, inst, cands[1..], Some(Again(k)))
  }

  /** Placing one instance as written: nothing only when there is no
      candidate at all; the corrected scan's session when it finds one; and
      otherwise a placed session that clashes with the last candidate. */
  function Place(placed: Schedule, inst: Instance, cands: seq<Candidate>): (r: Option<Pick>)
    ensures r.None? <==> |cands| == 0
    ensures FirstFree(placed, inst, cands).Some? ==> r == Some(Fresh(FirstFree(placed, inst, cands).value))
    ensures r.Some? && r.value.Again? ==>
      && FirstFree(placed, inst, cands).None?
      && r.value.k < |placed|
      && Conflict(placed[r.value.k], MakeSession(inst, cands[|cands| - 1]))
  {
    Scan(placed, inst, cands, None)
  }

  /** `schedule.sessions.append(session)`: a new session is a new object,
      tagged with its position; a placed session keeps its identity. */
  function Append(placed: Schedule, ids: seq<nat>, p: Pick): (r: (Schedule, seq<nat>))
    requires |ids| == |placed| && (p.Again? ==> p.k < |placed|)
    ensures |r.0| == |r.1| == |placed| + 1
    ensures r.0[..|placed|] == placed && r.1[..|placed|] == ids
  {
    match p
    case Fresh(x) => (placed + [x], ids + [|placed|])
    case Again(k) => (placed + [placed[k]], ids + [ids[k]])
  }

  /** Appending keeps the identities coherent, and keeps the checker's
      verdict: a new session interferes with nothing placed, and a repeated
      one is the same object as a placed session. */
  lemma AppendKeeps(placed: Schedule, ids: seq<nat>, inst: Instance, cands: seq<Candidate>)
    requires |ids| == |placed| && Place(placed, inst, cands).Some?
    ensures var t := Append(placed, ids, Place(placed, inst, cands).value);
      Tagged(placed, ids) ==> Tagged(t.0, t.1) && (ValidById(placed, ids) ==> ValidById(t.0, t.1))
  {
    match Place(placed, inst, cands).value
    case Fresh(x) => AppendFreshKeeps(placed, ids, x);
    case Again(k) => AppendAgainKeeps(placed, ids, k);
  }

  lemma AppendFreshKeeps(placed: Schedule, ids: seq<nat>, x: Session)
    requires |ids| == |placed| && !Interferes(placed, x)
    ensures Tagged(placed, ids) ==> Tagged(placed + [x], ids + [|placed|])
    ensures Tagged(placed, ids) && ValidById(placed, ids) ==> ValidById(placed + [x], ids + [|placed|])
  {
    var s, t := placed + [x], ids + [|placed|];
    var n := |placed|;
    InterferesIffConflict(placed, x);
    if Tagged(placed, ids) {
      forall k | 0 <= k < |s|
        ensures t[k] <= k && s[t[k]] == s[k]
      {
        if k < n {
          assert t[k] == ids[k] && s[k] == placed[k] && s[ids[k]] == placed[ids[k]];
        }
      }
      if ValidById(placed, ids) {
        forall i, j | 0 <= i < |s| && 0 <= j < |s| && t[i] != t[j]
          ensures !Conflict(s[i], s[j])
        {
          if i < n && j < n {
            assert s[i] == placed[i] && s[j] == placed[j] && t[i] == ids[i] && t[j] == ids[j];
          } else if i < n {
            assert s[i] == placed[i] && s[j] == x;
          } else if j < n {
            assert s[j] == placed[j] && s[i] == x;
          }
        }
      }
    }
  }

  lemma AppendAgainKeeps(placed: Schedule, ids: seq<nat>, k: nat)
    requires |ids| == |placed| && k < |placed|
    ensures Tagged(placed, ids) ==> Tagged(placed + [placed[k]], ids + [ids[k]])
    ensures Tagged(placed, ids) && ValidById(placed, ids) ==> ValidById(placed + [placed[k]], ids + [ids[k]])
  {
    var s, t := placed + [placed[k]], ids + [ids[k]];
    var n := |placed|;
    if Tagged(placed, ids) {
      forall m | 0 <= m < |s|
        ensures t[m] <= m && s[t[m]] == s[m]
      {
        if m < n {
          assert t[m] == ids[m] && s[m] == placed[m] && s[ids[m]] == placed[ids[m]];
        } else {
          assert t[m] == ids[k] && s[m] == placed[k] && s[ids[k]] == placed[ids[k]];
        }
      }
      if ValidById(placed, ids) {
        forall i, j | 0 <= i < |s| && 0 <= j < |s| && t[i] != t[j]
          ensures !Conflict(s[i], s[j])
        {
          var a := if i < n then i else k;
          var b := if j < n then j else k;
          assert s[i] == placed[a] && s[j] == placed[b] && t[i] == ids[a] && t[j] == ids[b];
        }
      }
    }
  }

  /** Lines 148-190 as written, from the list `placed` with identities `ids`:
      each instance in turn is placed by the rebinding scan. */
  function ExtendAsWritten(placed: Schedule, ids: seq<nat>, plan: seq<Instance>, cs: seq<seq<Candidate>>)
    : (r: Option<(Schedule, seq<nat>)>)
    requires |ids| == |placed| && |cs| >= |plan|
    ensures r.Some? ==> |r.value.0| == |r.value.1| == |placed| + |plan|
    ensures r.Some? ==> r.value.0[..|placed|] == placed && r.value.1[..|placed|] == ids
    decreases |plan|
  {
    if |plan| == 0 then Some((placed, ids))
    else
      match Place(placed, plan[0], cs[0])
      case None => None
      case Some(p) =>
        var t := Append(placed, ids, p);
        var r := ExtendAsWritten(t.0, t.1, plan[1..], cs[1..]);
        if r.Some? then
          var u := r.value;
          assert u.0[..|placed| + 1] == t.0 && u.1[..|placed| + 1] == t.1;
          assert u.0[..|placed|] == u.0[..|placed| + 1][..|placed|];
          assert u.1[..|placed|] == u.1[..|placed| + 1][..|placed|];
          r
        else r
  }

  /** Generation as written keeps the identities coherent and never lists
      two clashing sessions that are distinct objects. */
  lemma {:induction false} ExtendAsWrittenKeeps(placed: Schedule, ids: seq<nat>, plan: seq<Instance>, cs: seq<seq<Candidate>>)
    requires |ids| == |placed| && |cs| >= |plan| && ExtendAsWritten(placed, ids, plan, cs).Some?
    requires Tagged(placed, ids)
    ensures var r := ExtendAsWritten(placed, ids, plan, cs).value;
      Tagged(r.0, r.1) && (ValidById(placed, ids) ==> ValidById(r.0, r.1))
    decreases |plan|
  {
    if |plan| > 0 {
      var t := Append(placed, ids, Place(placed, plan[0], cs[0]).value);
      AppendKeeps(placed, ids, plan[0], cs[0]);
      ExtendAsWrittenKeeps(t.0, t.1, plan[1..], cs[1..]);
    }
  }

  /** Generation as written fails only where some instance has no candidate
      at all. */
  lemma {:induction false} ExtendAsWrittenNoneIff(placed: Schedule, ids: seq<nat>, plan: seq<Instance>, cs: seq<seq<Candidate>>)
    requires |ids| == |placed| && |cs| >= |plan|
    ensures ExtendAsWritten(placed, ids, plan, cs).None? <==> exists k :: 0 <= k < |plan| && cs[k] == []
    decreases |plan|
  {
    if |plan| > 0 && cs[0] != [] {
      var t := Append(placed, ids, Place(placed, plan[0], cs[0]).value);
      ExtendAsWrittenNoneIff(t.0, t.1, plan[1..], cs[1..]);
      assert forall k :: 1 <= k < |plan| ==> cs[k] == cs[1..][k - 1];
    }
  }

  /** Where the corrected generation succeeds, generation as written builds
      the same schedule, each session an object of its own. */
  lemma {:induction false} ExtendAsWrittenAgrees(placed: Schedule, ids: seq<nat>, plan: seq<Instance>, cs: seq<seq<Candidate>>)
    requires |cs| >= |plan| && Extend(placed, plan, cs).Some?
    requires ids == Positions(|placed|)
    ensures var r := ExtendAsWritten(placed, ids, plan, cs);
      r.Some? && r.value.0 == Extend(placed, plan, cs).value && r.value.1 == Positions(|placed| + |plan|)
    decreases |plan|
  {
    if |plan| > 0 {
      var x := AgreeStep(placed, ids, plan, cs);
      ExtendAsWrittenAgrees(placed + [x], ids + [|placed|], plan[1..], cs[1..]);
    }
  }

  /** One step of both generations when the corrected scan finds `x`. */
  lemma AgreeStep(placed: Schedule, ids: seq<nat>, plan: seq<Instance>, cs: seq<seq<Candidate>>) returns (x: Session)
    requires |cs| >= |plan| > 0 && Extend(placed, plan, cs).Some?
    requires ids == Positions(|placed|)
    ensures Extend(placed, plan, cs) == Extend(placed + [x], plan[1..], cs[1..])
    ensures ExtendAsWritten(placed, ids, plan, cs)
      == ExtendAsWritten(placed + [x], ids + [|placed|], plan[1..], cs[1..])
    ensures ids + [|placed|] == Positions(|placed + [x]|)
    ensures |placed + [x]| + |plan[1..]| == |placed| + |plan|
  {
    x := FirstFree(placed, plan[0], cs[0]).value;
    assert Place(placed, plan[0], cs[0]) == Some(Fresh(x));
  }

  /** Where generation as written lists no object twice, the corrected
      generation succeeds with the same schedule. */
  lemma {:induction false} ExtendAsWrittenDistinct(placed: Schedule, plan: seq<Instance>, cs: seq<seq<Candidate>>)
    requires |cs| >= |plan| && ExtendAsWritten(placed, Positions(|placed|), plan, cs).Some?
    ensures var r := ExtendAsWritten(placed, Positions(|placed|), plan, cs).value;
      Distinct(r.1) ==> Extend(placed, plan, cs) == Some(r.0)
    decreases |plan|
  {
    if |plan| > 0 {
      var r := ExtendAsWritten(placed, Positions(|placed|), plan, cs).value;
      var n := |placed|;
      var p := Place(placed, plan[0], cs[0]).value;
      var t := Append(placed, Positions(n), p);
      assert r.1[..n + 1] == t.1;
      match p
      case Fresh(x) =>
        assert t.1 == Positions(n + 1);
        ExtendAsWrittenDistinct(placed + [x], plan[1..], cs[1..]);
      case Again(k) =>
        assert r.1[k] == t.1[k] == k == t.1[n] == r.1[n];
    }
  }

  /** Two instances offered one and the same candidate: the second clashes
      with the first (same room, same slot), so as written the first session
      object is listed twice.  The list passes the checker and double-books
      the room, while the corrected construction reports failure. */
  lemma ExtendAsWrittenExample(a: Instance, b: Instance, c: Candidate)
    ensures var x := MakeSession(a, c);
      && ExtendAsWritten([], [], [a, b], [[c], [c]]) == Some(([x, x], [0, 0]))
      && ValidById([x, x], [0, 0]) && !Valid([x, x])
      && Extend([], [a, b], [[c], [c]]).None?
  {
    var x := MakeSession(a, c);
    assert Conflict(x, MakeSession(b, c));
    assert Place([], a, [c]) == Some(Fresh(x));
    assert FirstClash([x], MakeSession(b, c)) == Some(0);
    assert Place([x], b, [c]) == Some(Again(0));
    assert [x] + [x] == [x, x] && [0] + [0] == [0, 0];
    assert Append([x], [0], Again(0)) == ([x, x], [0, 0]);
    assert [b][1..] == [] && [[c]][1..] == [];
    assert ExtendAsWritten([x, x], [0, 0], [], []) == Some(([x, x], [0, 0]));
    assert Append([], [], Fresh(x)) == ([x], [0]);
    assert [a, b][1..] == [b] && [[c], [c]][1..] == [[c]];
    assert ExtendAsWritten([x], [0], [b], [[c]]) == Some(([x, x], [0, 0]));
    assert FirstFree([x], b, [c]).None?;
    RepeatedPasses(x);
  }

  /** `_try_generate_valid_schedule` as written, with its assertion at line
      191: the schedule and the identity of each of its sessions. */
  function TryGenerateAsWritten(groups: seq<Group>, rooms: seq<Room>, teachers: seq<Teacher>, shs: seq<Shuffle>)
    : (r: Result<Option<(Schedule, seq<nat>)>>)
    requires ShufflesFit(shs, Plan(groups), rooms, teachers)
    ensures r.Ok?
    ensures r.Ok? && r.value.Some? ==>
      var s := r.value.value;
      |s.0| == |Plan(groups)| && Tagged(s.0, s.1) && ValidById(s.0, s.1)
  {
    var plan := Plan(groups);
    var cs := CandidateLists(shs, |plan|);
    match ExtendAsWritten([], [], plan, cs)
    case None => Ok(None)
    case Some(s) =>
      ExtendAsWrittenKeeps([], [], plan, cs);
      if ValidById(s.0, s.1) then Ok(Some(s)) else Err(AssertionError)
  }

  /** With fitting shuffles, an instance has no candidate exactly when no
      roster teacher can teach its subject or there is no room. */
  lemma CandidatesEmpty(sh: Shuffle, subject: Subject, rooms: seq<Room>, teachers: seq<Teacher>)
    requires ShuffleFits(sh, subject, rooms, teachers)
    ensures Candidates(sh) == [] <==> TeacherCandidates(teachers, subject) == [] || rooms == []
  {
    assert |sh.teachers| == |multiset(sh.teachers)| == |TeacherCandidates(teachers, subject)|;
    assert |sh.rooms| == |multiset(sh.rooms)| == |rooms|;
    assert |sh.days| == |multiset(sh.days)| == 5;
    assert |sh.times| == |multiset(sh.times)| == 6;
    ProductLength(sh.days, sh.times);
    ProductLength(sh.rooms, Product(sh.days, sh.times));
    ProductLength(sh.teachers, Product(sh.rooms, Product(sh.days, sh.times)));
    NonZeroProduct(|sh.teachers|, |sh.rooms|);
  }

  lemma NonZeroProduct(a: nat, b: nat)
    ensures a * (b * 30) == 0 <==> a == 0 || b == 0
  {
    var c := b * 30;
    if a > 0 && b > 0 {
      MulPositive(a, c);
    }
  }

  lemma MulPositive(a: int, c: int)
    requires a > 0 && c > 0
    ensures a * c > 0
  {
  }

  /** Some instance of the plan has no capable roster teacher, or there is no room. */
  predicate Unplaceable(groups: seq<Group>, rooms: seq<Room>, teachers: seq<Teacher>) {
    exists k :: 0 <= k < |Plan(groups)| && (TeacherCandidates(teachers, Plan(groups)[k].subject) == [] || rooms == [])
  }

  /** As written, the generator returns `None` exactly when some instance has
      an empty candidate product, never because an instance is blocked. */
  lemma GenerateAsWrittenNoneIff(groups: seq<Group>, rooms: seq<Room>, teachers: seq<Teacher>, shs: seq<Shuffle>)
    requires ShufflesFit(shs, Plan(groups), rooms, teachers)
    ensures TryGenerateAsWritten(groups, rooms, teachers, shs) == Ok(None) <==> Unplaceable(groups, rooms, teachers)
  {
    var plan := Plan(groups);
    var cs := CandidateLists(shs, |plan|);
    ExtendAsWrittenNoneIff([], [], plan, cs);
    EmptyCandidateLists(plan, shs, rooms, teachers);
    TryGenerateAsWrittenIsExtend(groups, rooms, teachers, shs);
    if Unplaceable(groups, rooms, teachers) {
      var k :| 0 <= k < |plan| && (TeacherCandidates(teachers, plan[k].subject) == [] || rooms == []);
      assert cs[k] == [];
    }
    if ExtendAsWritten([], [], plan, cs).None? {
      var k :| 0 <= k < |plan| && cs[k] == [];
      assert TeacherCandidates(teachers, plan[k].subject) == [] || rooms == [];
    }
  }

  /** The assertion passes, so the generator as written returns what its
      construction builds. */
  lemma TryGenerateAsWrittenIsExtend(groups: seq<Group>, rooms: seq<Room>, teachers: seq<Teacher>, shs: seq<Shuffle>)
    requires ShufflesFit(shs, Plan(groups), rooms, teachers)
    ensures TryGenerateAsWritten(groups, rooms, teachers, shs).value ==
      ExtendAsWritten([], [], Plan(groups), CandidateLists(shs, |Plan(groups)|))
  {
    var plan := Plan(groups);
    var cs := CandidateLists(shs, |plan|);
    var e := ExtendAsWritten([], [], plan, cs);
    if e.Some? {
      assert Tagged([], []) && ValidById([], []);
      ExtendAsWrittenKeeps([], [], plan, cs);
      assert ValidById(e.value.0, e.value.1);
    }
  }

  lemma EmptyCandidateLists(plan: seq<Instance>, shs: seq<Shuffle>, rooms: seq<Room>, teachers: seq<Teacher>)
    requires ShufflesFit(shs, plan, rooms, teachers)
    ensures forall k :: 0 <= k < |plan| ==>
      (CandidateLists(shs, |plan|)[k] == [] <==> TeacherCandidates(teachers, plan[k].subject) == [] || rooms == [])
  {
    forall k | 0 <= k < |plan|
      ensures CandidateLists(shs, |plan|)[k] == [] <==> TeacherCandidates(teachers, plan[k].subject) == [] || rooms == []
    {
      CandidateListsAt(shs, |plan|, k);
      CandidatesEmpty(shs[k], plan[k].subject, rooms, teachers);
    }
  }

  /** As written, the generator returns a list that is admissible exactly
      when the corrected generator returns that same schedule; every other
      list it returns passes its own checker but holds a double booking. */
  lemma GenerateAsWrittenValidIff(groups: seq<Group>, rooms: seq<Room>, teachers: seq<Teacher>, shs: seq<Shuffle>)
    requires ShufflesFit(shs, Plan(groups), rooms, teachers)
    requires TryGenerateAsWritten(groups, rooms, teachers, shs).value.Some?
    ensures var s := TryGenerateAsWritten(groups, rooms, teachers, shs).value.value.0;
      Valid(s) <==> TryGenerate(groups, rooms, teachers, shs) == Some(s)
  {
    TryGenerateAsWrittenIsExtend(groups, rooms, teachers, shs);
    TryGenerateIsExtend(groups, rooms, teachers, shs);
    ExtendAsWrittenValidIff(Plan(groups), CandidateLists(shs, |Plan(groups)|));
  }

  /** Built from scratch as written, a list is admissible exactly when the
      corrected construction builds that same schedule. */
  lemma ExtendAsWrittenValidIff(plan: seq<Instance>, cs: seq<seq<Candidate>>)
    requires |cs| >= |plan| && ExtendAsWritten([], [], plan, cs).Some?
    ensures var s := ExtendAsWritten([], [], plan, cs).value.0;
      Valid(s) <==> Extend([], plan, cs) == Some(s)
  {
    var r := ExtendAsWritten([], [], plan, cs).value;
    assert Positions(0) == [];
    ExtendAsWrittenDistinct([], plan, cs);
    ExtendAsWrittenKeeps([], [], plan, cs);
    if Valid(r.0) {
      ValidDistinct(r.0, r.1);
    }
  }

  /** Where the corrected generator succeeds, the generator as written
      returns the same schedule, with no object listed twice. */
  lemma GenerateAsWrittenAgrees(groups: seq<Group>, rooms: seq<Room>, teachers: seq<Teacher>, shs: seq<Shuffle>)
    requires ShufflesFit(shs, Plan(groups), rooms, teachers)
    requires TryGenerate(groups, rooms, teachers, shs).Some?
    ensures var s := TryGenerate(groups, rooms, teachers, shs).value;
      TryGenerateAsWritten(groups, rooms, teachers, shs) == Ok(Some((s, Positions(|s|))))
  {
    var plan := Plan(groups);
    var cs := CandidateLists(shs, |plan|);
    TryGenerateIsExtend(groups, rooms, teachers, shs);
    TryGenerateAsWrittenIsExtend(groups, rooms, teachers, shs);
    ExtendAsWrittenFromScratch(plan, cs);
  }

  /** Built from scratch, the corrected schedule is what generation as
      written builds, with no object listed twice. */
  lemma ExtendAsWrittenFromScratch(plan: seq<Instance>, cs: seq<seq<Candidate>>)
    requires |cs| >= |plan| && Extend([], plan, cs).Some?
    ensures var s := Extend([], plan, cs).value;
      ExtendAsWritten([], [], plan, cs) == Some((s, Positions(|s|)))
  {
    assert Positions(0) == [];
    ExtendAsWrittenAgrees([], [], plan, cs);
  }

  /** Where the corrected generator gets blocked but the candidate products
      are not empty, the generator as written still returns a list: it
      passes the checker and is not admissible. */
  lemma GenerateAsWrittenWhenBlocked(groups: seq<Group>, rooms: seq<Room>, teachers: seq<Teacher>, shs: seq<Shuffle>)
    requires ShufflesFit(shs, Plan(groups), rooms, teachers)
    requires TryGenerate(groups, rooms, teachers, shs).None? && !Unplaceable(groups, rooms, teachers)
    ensures TryGenerateAsWritten(groups, rooms, teachers, shs).value.Some?
    ensures var s := TryGenerateAsWritten(groups, rooms, teachers, shs).value.value;
      ValidById(s.0, s.1) && !Valid(s.0)
  {
    GenerateAsWrittenNoneIff(groups, rooms, teachers, shs);
    GenerateAsWrittenValidIff(groups, rooms, teachers, shs);
  }

  /** A slot as a number below 30: the day's place in the week times six,
      plus the period less one. */
  function SlotCode(t: TimeSlot): (c: int)
    ensures 0 <= c < 30
  {
    var d := match t.day
      case Monday => 0
      case Tuesday => 1
      case Wednesday => 2
      case Thursday => 3
      case Friday => 4;
    d * 6 + t.time - 1
  }

  lemma SlotCodeInjective(a: TimeSlot, b: TimeSlot)
    requires SlotCode(a) == SlotCode(b)
    ensures a == b
  {
  }

  /** At most `n` distinct numbers lie in [0, n). */
  lemma {:induction false} DistinctBelow(xs: seq<int>, n: nat)
    requires Distinct(xs) && forall k :: 0 <= k < |xs| ==> 0 <= xs[k] < n
    ensures |xs| <= n
    decreases |xs|
  {
    if |xs| > 0 {
      assert 0 <= xs[0] < n;
      var last := xs[|xs| - 1];
      // Drop the last number and rename `n - 1`, if it occurs, to it.
      var ys := seq(|xs| - 1, k requires 0 <= k < |xs| - 1 => if xs[k] == n - 1 then last else xs[k]);
      forall i, j | 0 <= i < j < |ys|
        ensures ys[i] != ys[j]
      {
        assert xs[i] != xs[j] && xs[i] != last && xs[j] != last;
      }
      forall k | 0 <= k < |ys|
        ensures 0 <= ys[k] < n - 1
      {
        assert xs[k] != last;
      }
      DistinctBelow(ys, n - 1);
    }
  }

  /** Five days of six periods: a list whose slots are pairwise distinct has
      at most 30 entries. */
  lemma DistinctSlotsBound(s: Schedule)
    requires forall i, j :: 0 <= i < j < |s| ==> s[i].timeSlot != s[j].timeSlot
    ensures |s| <= 30
  {
    var codes := seq(|s|, k requires 0 <= k < |s| => SlotCode(s[k].timeSlot));
    forall i, j | 0 <= i < j < |codes|
      ensures codes[i] != codes[j]
    {
      if codes[i] == codes[j] {
        SlotCodeInjective(s[i].timeSlot, s[j].timeSlot);
      }
    }
    DistinctBelow(codes, 30);
  }

  /** With a single room, the corrected generator cannot place more than 30
      sessions: every session takes that room, so no two share a slot. */
  lemma OneRoomBlocks(groups: seq<Group>, room: Room, teachers: seq<Teacher>, shs: seq<Shuffle>)
    requires ShufflesFit(shs, Plan(groups), [room], teachers)
    requires |Plan(groups)| > 30
    ensures TryGenerate(groups, [room], teachers, shs).None?
  {
    var r := TryGenerate(groups, [room], teachers, shs);
    if r.Some? {
      ConformsOneRoom(r.value, groups, room, teachers);
      OneRoomBound(r.value, room);
    }
  }

  lemma ConformsOneRoom(s: Schedule, groups: seq<Group>, room: Room, teachers: seq<Teacher>)
    requires Conforms(s, groups, [room], teachers)
    ensures |s| == |Plan(groups)| && forall k :: 0 <= k < |s| ==> s[k].room == room
  {
    var plan := Plan(groups);
    forall k | 0 <= k < |s|
      ensures s[k].room == room
    {
      assert Realises(s[k], plan[k], [room], teachers);
    }
  }

  /** An admissible list whose sessions all take one room has at most 30
      sessions. */
  lemma OneRoomBound(s: Schedule, room: Room)
    requires Valid(s) && forall k :: 0 <= k < |s| ==> s[k].room == room
    ensures |s| <= 30
  {
    forall i, j | 0 <= i < j < |s|
      ensures s[i].timeSlot != s[j].timeSlot
    {
      assert !Conflict(s[i], s[j]);
    }
    DistinctSlotsBound(s);
  }

  const Maths := Subject("math")

  /** Group A needs 30 math sessions and group B one; both fit the room. */
  const Crowded: seq<Group> := [Group("A", 10, [Requirement(30, Maths)]), Group("B", 10, [Requirement(1, Maths)])]

  const CrowdedRoom := Room(1, 30)

  const MathsTeacher := Teacher("T", [Maths])

  /** The plan holds 31 math instances. */
  lemma CrowdedPlan()
    ensures |Plan(Crowded)| == 31
    ensures forall k :: 0 <= k < |Plan(Crowded)| ==> Plan(Crowded)[k].subject == Maths
  {
    var a, b := Crowded[0], Crowded[1];
    assert Crowded[1..] == [b] && [b][1..] == [];
    assert a.requiredSubjects[1..] == [] && b.requiredSubjects[1..] == [];
    var pa := Repeat(Instance(a, Maths), 30);
    var pb := Repeat(Instance(b, Maths), 1);
    assert RequirementPlan(a, a.requiredSubjects) == pa + [];
    assert RequirementPlan(b, b.requiredSubjects) == pb + [];
    assert Plan([b]) == pb + [] + [];
    assert Plan(Crowded) == pa + [] + (pb + [] + []);
  }

  lemma MathsCandidates()
    ensures TeacherCandidates([MathsTeacher], Maths) == [MathsTeacher]
  {
    assert MathsTeacher.teachableSubjects[0].name == Maths.name;
    assert CanTeach(MathsTeacher, Maths);
    assert [MathsTeacher][1..] == [];
  }

  /** Every instance of the plan has a capable teacher and a room. */
  lemma CrowdedPlaceable()
    ensures !Unplaceable(Crowded, [CrowdedRoom], [MathsTeacher])
  {
    CrowdedPlan();
    MathsCandidates();
  }

  /** The rosters of `Crowded` admit shuffles: the unshuffled lists. */
  lemma CrowdedShuffles()
    ensures ShufflesFit(seq(31, k => Shuffle([MathsTeacher], [CrowdedRoom], AllDays, AllPeriods)),
                        Plan(Crowded), [CrowdedRoom], [MathsTeacher])
  {
    CrowdedPlan();
    MathsCandidates();
  }

  /** The input that shows the rebinding of line 177: for every fitting
      shuffle, the 31st instance finds all 30 slots of the one room taken,
      so the corrected generator returns `None`, while the generator as
      written returns a list that passes its checker and books the room
      twice in one slot. */
  lemma ReachableAlias(shs: seq<Shuffle>)
    requires ShufflesFit(shs, Plan(Crowded), [CrowdedRoom], [MathsTeacher])
    ensures TryGenerate(Crowded, [CrowdedRoom], [MathsTeacher], shs).None?
    ensures !Unplaceable(Crowded, [CrowdedRoom], [MathsTeacher])
    ensures TryGenerateAsWritten(Crowded, [CrowdedRoom], [MathsTeacher], shs).value.Some?
    ensures var s := TryGenerateAsWritten(Crowded, [CrowdedRoom], [MathsTeacher], shs).value.value;
      ValidById(s.0, s.1) && !Valid(s.0)
  {
    CrowdedPlan();
    CrowdedPlaceable();
    OneRoomBlocks(Crowded, CrowdedRoom, [MathsTeacher], shs);
    GenerateAsWrittenWhenBlocked(Crowded, [CrowdedRoom], [MathsTeacher], shs);
  }

  /** A repeated slot counts as -1 window. */
  lemma WindowsRepeated(t: TimeSlot)
    ensures WindowsNumber([t, t]) == -1
  {
    WindowsOneDay([t, t], t.day);
    TimesOnPair(t, t);
    MinMaxPair(t.time as int, t.time as int);
  }

  /** One session listed twice gives its group and its teacher a repeated
      slot each: with the room large enough the penalty is -2, and the score
      `1 / (1 + penalty)` is -1, outside (0, 1]. */
  lemma RepeatedPenalty(x: Session)
    requires x.group.size <= x.room.capacity
    ensures Penalty([x, x]) == -2
    ensures Score([x, x]) == -1.0
  {
    RepeatedRoleWindows(x, ByGroup);
    RepeatedRoleWindows(x, ByTeacher);
    assert [x, x][1..] == [x] && [x][1..] == [];
  }

  lemma RepeatedRoleWindows(x: Session, role: Role)
    ensures RoleWindows([x, x], role) == -1
  {
    var n := Key(role, x);
    assert [x, x][1..] == [x] && [x][1..] == [] && [n][1..] == [];
    assert Names([x], role) == [n];
    assert Names([x, x], role) == [n];
    assert SlotsOf([x], role, n) == [x.timeSlot];
    assert SlotsOf([x, x], role, n) == [x.timeSlot, x.timeSlot];
    WindowsRepeated(x.timeSlot);
    assert SumWindows([x, x], role, [n]) == WindowsNumber([x.timeSlot, x.timeSlot]) + SumWindows([x, x], role, []);
  }
}

=== FILE: constraints.dfy ===
/** The hard constraints: no group, room or teacher is booked twice in one slot. */
module Constraints {
  import opened Entities

  /** Two sessions clash when they share day and period and also share a
      group name, a room identifier or a teacher's full name. */
  predicate Conflict(a: Session, b: Session) {
    && a.timeSlot.day == b.timeSlot.day
    && a.timeSlot.time == b.timeSlot.time
    && (a.group.name == b.group.name || a.room.identifier == b.room.identifier || a.teacher.fullname == b.teacher.fullname)
  }

  /** Reference definition of an admissible schedule: no two sessions at
      distinct positions clash. */
  predicate Valid(s: Schedule) {
    forall i, j :: 0 <= i < |s| && 0 <= j < |s| && i != j ==> !Conflict(s[i], s[j])
  }

  /** Object identity: `ids[k]` names the object held at position `k` of a
      session list, by the position where that object is first listed.  Two
      positions may hold one object, and then they hold equal sessions. */
  predicate Tagged(s: Schedule, ids: seq<nat>) {
    && |ids| == |s|
    && forall k :: 0 <= k < |s| ==> ids[k] <= k && ids[ids[k]] == ids[k] && s[ids[k]] == s[k]
  }

  /** Every position holds an object of its own. */
  function Positions(n: nat): (ids: seq<nat>)
    ensures |ids| == n
    ensures forall k :: 0 <= k < n ==> ids[k] == k
  {
    seq(n, k => k)
  }

  /** What the checker demands: no two sessions that are distinct objects clash. */
  predicate ValidById(s: Schedule, ids: seq<nat>)
    requires |ids| == |s|
  {
    forall i, j :: 0 <= i < |s| && 0 <= j < |s| && ids[i] != ids[j] ==> !Conflict(s[i], s[j])
  }

  /** The pairwise scan of `_check_hard_constraints`: it skips a pair when
      `s1 is s2`, that is when both positions hold one object, and answers
      false at the first clash. */
  method CheckHardConstraints(s: Schedule, ids: seq<nat>) returns (ok: bool)
    requires |ids| == |s|
    ensures ok <==> ValidById(s, ids)
    ensures |s| <= 1 ==> ok
  {
    var i := 0;
    while i < |s|
      invariant 0 <= i <= |s|
      invariant forall a, b :: 0 <= a < i && 0 <= b < |s| && ids[a] != ids[b] ==> !Conflict(s[a], s[b])
    {
      var j := 0;
      while j < |s|
        invariant 0 <= j <= |s|
        invariant forall a, b :: 0 <= a < i && 0 <= b < |s| && ids[a] != ids[b] ==> !Conflict(s[a], s[b])
        invariant forall b :: 0 <= b < j && ids[i] != ids[b] ==> !Conflict(s[i], s[b])
      {
        if ids[i] != ids[j] && s[i].timeSlot.time == s[j].timeSlot.time && s[i].timeSlot.day == s[j].timeSlot.day {
          if s[i].group.name == s[j].group.name || s[i].room.identifier == s[j].room.identifier || s[i].teacher.fullname == s[j].teacher.fullname {
            return false;
          }
        }
        j := j + 1;
      }
      i := i + 1;
    }
    return true;
  }

  /** When no object is listed twice, skipping identical objects is skipping
      identical positions. */
  lemma ValidByIdDistinct(s: Schedule, ids: seq<nat>)
    requires |ids| == |s| && Distinct(ids)
    ensures ValidById(s, ids) <==> Valid(s)
  {
    forall i, j | 0 <= i < |s| && 0 <= j < |s|
      ensures ids[i] != ids[j] <==> i != j
    {
      if i < j {
        assert ids[i] != ids[j];
      } else if j < i {
        assert ids[j] != ids[i];
      }
    }
  }

  /** A session listed twice clashes with itself: the list is not admissible,
      whatever the checker answers. */
  lemma RepeatedNotValid(s: Schedule, ids: seq<nat>, i: nat, j: nat)
    requires Tagged(s, ids) && i < j < |s| && ids[i] == ids[j]
    ensures !Valid(s)
  {
    assert s[i] == s[ids[i]] == s[j];
    assert Conflict(s[i], s[j]);
  }

  /** An admissible tagged list lists no object twice. */
  lemma ValidDistinct(s: Schedule, ids: seq<nat>)
    requires Tagged(s, ids) && Valid(s)
    ensures Distinct(ids)
  {
    forall i, j | 0 <= i < j < |ids|
      ensures ids[i] != ids[j]
    {
      assert !Conflict(s[i], s[j]) && s[ids[i]] == s[i] && s[ids[j]] == s[j];
    }
  }

  /** One object listed twice: the checker skips the pair and accepts the
      list, which is not admissible. */
  lemma RepeatedPasses(x: Session)
    ensures ValidById([x, x], [0, 0]) && Tagged([x, x], [0, 0])
    ensures !Valid([x, x])
  {
    assert Conflict([x, x][0], [x, x][1]);
  }

  /** The generator's per-candidate test: scan the placed sessions, skip those
      in another slot, skip those differing in room, teacher and group, and
      report interference at the first one left. */
  predicate Interferes(placed: Schedule, x: Session)
    decreases |placed|
  {
    if |placed| == 0 then false
    else
      var s := placed[0];
      if !(s.timeSlot.day == x.timeSlot.day && s.timeSlot.time == x.timeSlot.time) then Interferes(placed[1..], x)
      else if s.room.identifier != x.room.identifier && s.teacher.fullname != x.teacher.fullname && s.group.name != x.group.name then Interferes(placed[1..], x)
      else true
  }

  /** The interference test is the De Morgan dual of the checker's clash
      condition, taken against every placed session. */
  lemma {:induction false} InterferesIffConflict(placed: Schedule, x: Session)
    ensures Interferes(placed, x) <==> exists k :: 0 <= k < |placed| && Conflict(placed[k], x)
    decreases |placed|
  {
    if |placed| > 0 {
      InterferesIffConflict(placed[1..], x);
      forall k | 1 <= k < |placed|
        ensures placed[k] == placed[1..][k - 1]
      {
      }
    }
  }

  /** Appending a session keeps a schedule admissible exactly when the
      session does not interfere with any session already placed. */
  lemma ValidAppend(s: Schedule, x: Session)
    ensures Valid(s + [x]) <==> Valid(s) && !Interferes(s, x)
  {
    InterferesIffConflict(s, x);
    var t := s + [x];
    if Valid(t) {
      forall i, j | 0 <= i < |s| && 0 <= j < |s| && i != j
        ensures !Conflict(s[i], s[j])
      {
        assert t[i] == s[i] && t[j] == s[j];
      }
      forall k | 0 <= k < |s|
        ensures !Conflict(s[k], x)
      {
        assert t[k] == s[k] && t[|s|] == x;
      }
    }
    if Valid(s) && !Interferes(s, x) {
      forall i, j | 0 <= i < |t| && 0 <= j < |t| && i != j
        ensures !Conflict(t[i], t[j])
      {
        if i < |s| && j < |s| {
          assert t[i] == s[i] && t[j] == s[j];
        } else if i < |s| {
          assert t[i] == s[i] && t[j] == x;
        } else {
          assert t[j] == s[j] && t[i] == x;
        }
      }
    }
  }

  /** Dropping the first session keeps a schedule admissible. */
  lemma ValidTail(s: Schedule)
    requires Valid(s) && |s| > 0
    ensures Valid(s[1..])
    ensures forall k :: 1 <= k < |s| ==> !Conflict(s[0], s[k])
  {
    var t := s[1..];
    forall i, j | 0 <= i < |t| && 0 <= j < |t| && i != j
      ensures !Conflict(t[i], t[j])
    {
      assert t[i] == s[i + 1] && t[j] == s[j + 1];
    }
  }
}

=== FILE: entities.dfy ===
/** The records the timetable engine reads: only the fields the engine touches
    are modelled.  Every record is an immutable value; "assigning" a field of a
    session is a copy with that one field replaced. */
module Entities {

  /** The five teaching days, in the order the engine scans them. */
  datatype Day = Monday | Tuesday | Wednesday | Thursday | Friday

  const AllDays: seq<Day> := [Monday, Tuesday, Wednesday, Thursday, Friday]

  /** A period of the day; its value is the one windows arithmetic uses. */
  type Period = p: int | 1 <= p <= 6 witness 1

  const AllPeriods: seq<Period> := [1, 2, 3, 4, 5, 6]

  /** Compared and copied by value: two slots are equal iff day and period are. */
  datatype TimeSlot = TimeSlot(day: Day, time: Period)

  /** Subjects are identified by their name. */
  datatype Subject = Subject(name: string)

  datatype Room = Room(identifier: int, capacity: int)

  datatype Teacher = Teacher(fullname: string, teachableSubjects: seq<Subject>)

  /** One `(n_sessions, subject)` pair of a group's weekly requirements. */
  datatype Requirement = Requirement(count: int, subject: Subject)

  datatype Group = Group(name: string, size: int, requiredSubjects: seq<Requirement>)

  datatype Session = Session(room: Room, group: Group, subject: Subject, teacher: Teacher, timeSlot: TimeSlot)

  /** A schedule is its sessions, in generation order. */
  type Schedule = seq<Session>

  datatype Option<T> = None | Some(value: T)

  /** The exceptions the engine can raise, plus `DrawsExhausted`, which marks
      an oracle stream that ran dry in the unbounded breeding loop. */
  datatype Fault = IndexError | AttributeError | AssertionError | DrawsExhausted

  datatype Result<T> = Ok(value: T) | Err(fault: Fault)

  predicate Distinct<T(==)>(xs: seq<T>) {
    forall i, j :: 0 <= i < j < |xs| ==> xs[i] != xs[j]
  }

  /** `subject.name in [s.name for s in teacher.teachable_subjects]` */
  predicate CanTeach(t: Teacher, subject: Subject) {
    exists i :: 0 <= i < |t.teachableSubjects| && t.teachableSubjects[i].name == subject.name
  }

  /** The teachers able to teach `subject`, in roster order. */
  function TeacherCandidates(teachers: seq<Teacher>, subject: Subject): (r: seq<Teacher>)
    ensures forall t :: t in r <==> t in teachers && CanTeach(t, subject)
    ensures |r| <= |teachers|
  {
    if |teachers| == 0 then []
    else
      var rest := TeacherCandidates(teachers[1..], subject);
      if CanTeach(teachers[0], subject) then [teachers[0]] + rest else rest
  }
}

=== FILE: evolution.dfy ===
/** The evolutionary loop of `run` with the GREEDY strategy: seed a
    population, then per generation breed at least `populationSize`
    admissible children, keep the best of parents and children, and track
    the best schedule ever seen.  The parent picks and the mutation draws
    of each breeding iteration come from an oracle stream. */
module Evolution {
  import opened Entities
  import opened Constraints
  import opened Fitness
  import opened Generator
  import opened Seeding
  import opened Variation
  import opened Selection

  /** The draws of one breeding iteration: the two parent picks (reduced
      modulo the population size) and the draws of the two `_mutate` calls. */
  datatype BreedDraw = BreedDraw(a: nat, b: nat, mutA: Mutation, mutB: Mutation)

  /** One line of the progress report printed after each generation. */
  datatype Report = Report(stalls: nat, score: real)

  /** `c` is what some mutation draw makes of some member of `population`. */
  ghost predicate Bred(c: Schedule, population: seq<Schedule>, teachers: seq<Teacher>) {
    exists i, m :: 0 <= i < |population| && Mutate(population[i], teachers, m) == Ok(c)
  }

  /** Some member of `population` admits a failing mutation draw. */
  ghost predicate SomeDrawFails(population: seq<Schedule>, teachers: seq<Teacher>) {
    exists i, m :: 0 <= i < |population| && DrawFails(population[i], teachers, m)
  }

  /** The children of fit parents are fit once the checker admits them. */
  lemma BredFit(c: Schedule, population: seq<Schedule>, groups: seq<Group>, rooms: seq<Room>, teachers: seq<Teacher>)
    requires AllFit(population, groups, rooms, teachers)
    requires Valid(c) && Bred(c, population, teachers)
    ensures Fit(c, groups, rooms, teachers)
  {
    var i, m :| 0 <= i < |population| && Mutate(population[i], teachers, m) == Ok(c);
    assert Fit(population[i], groups, rooms, teachers);
    MutateKeepsConforms(population[i], groups, rooms, teachers, m);
  }

  /** Fit parents only fail a mutation draw when the schedules are empty,
      that is, when no group requires anything. */
  lemma FitDrawFails(population: seq<Schedule>, groups: seq<Group>, rooms: seq<Room>, teachers: seq<Teacher>)
    requires AllFit(population, groups, rooms, teachers)
    requires SomeDrawFails(population, teachers)
    ensures Plan(groups) == []
  {
    var i, m :| 0 <= i < |population| && DrawFails(population[i], teachers, m);
    assert Fit(population[i], groups, rooms, teachers);
    ConformingMutateFails(population[i], groups, rooms, teachers, m);
  }

  /** The children bred so far: at most one more than the population size,
      each admissible and a mutation of a member of `population`. */
  ghost predicate Nursery(children: seq<Schedule>, population: seq<Schedule>, populationSize: int, teachers: seq<Teacher>) {
    && |children| <= Max(populationSize, 0) + 1
    && forall k :: 0 <= k < |children| ==> Valid(children[k]) && Bred(children[k], population, teachers)
  }

  /** The breeding loop of one generation as a fold over the draws from
      `cursor` on, with `children` bred so far: each iteration picks two
      parents, crosses them over, mutates both children and keeps those the
      checker admits, until there are at least `populationSize` children.
      Besides the outcome it gives the cursor after the last draw taken.
      It fails with `DrawsExhausted` only once every draw is taken. */
  function BreedFrom(population: seq<Schedule>, populationSize: int, teachers: seq<Teacher>,
                     draws: seq<BreedDraw>, cursor: nat, children: seq<Schedule>): (r: (Result<seq<Schedule>>, nat))
    requires Nursery(children, population, populationSize, teachers)
    ensures cursor <= r.1 && (cursor <= |draws| ==> r.1 <= |draws|)
    ensures r.0.Ok? ==> populationSize <= |r.0.value| <= Max(populationSize, 0) + 1
    ensures r.0.Ok? ==> forall k :: 0 <= k < |r.0.value| ==> Valid(r.0.value[k]) && Bred(r.0.value[k], population, teachers)
    ensures r.0.Err? ==> r.0.fault == DrawsExhausted || r.0.fault == IndexError
    ensures r.0 == Err(IndexError) ==> |population| == 0 || SomeDrawFails(population, teachers)
    ensures r.0 == Err(DrawsExhausted) ==> r.1 >= |draws|
    ensures |children| >= populationSize ==> r == (Ok(children), cursor)
    decreases |draws| - cursor
  {
    if |children| >= populationSize then (Ok(children), cursor)
    else if |population| == 0 then (Err(IndexError), cursor)
    else if cursor >= |draws| then (Err(DrawsExhausted), cursor)
    else
      var d := draws[cursor];
      var ia, ib := d.a % |population|, d.b % |population|;
      var pair := Crossover(population[ia], population[ib]);
      var ma := Mutate(pair.0, teachers, d.mutA);
      if ma.Err? then
        assert DrawFails(population[ia], teachers, d.mutA);
        (Err(ma.fault), cursor + 1)
      else
        var mb := Mutate(pair.1, teachers, d.mutB);
        if mb.Err? then
          assert DrawFails(population[ib], teachers, d.mutB);
          (Err(mb.fault), cursor + 1)
        else
          var kept := children + (if Valid(ma.value) then [ma.value] else []) + (if Valid(mb.value) then [mb.value] else []);
          BreedFrom(population, populationSize, teachers, draws, cursor + 1, kept)
  }

  /** One iteration of the breeding loop in which both mutations succeed. */
  lemma BreedStep(population: seq<Schedule>, populationSize: int, teachers: seq<Teacher>,
                  draws: seq<BreedDraw>, cursor: nat, children: seq<Schedule>, a: Schedule, b: Schedule)
    requires |children| < populationSize && 0 < |population| && cursor < |draws|
    requires Nursery(children, population, populationSize, teachers)
    requires Mutate(population[draws[cursor].a % |population|], teachers, draws[cursor].mutA) == Ok(a)
    requires Mutate(population[draws[cursor].b % |population|], teachers, draws[cursor].mutB) == Ok(b)
    ensures var grown := children + (if Valid(a) then [a] else []) + (if Valid(b) then [b] else []);
      && Nursery(grown, population, populationSize, teachers)
      && BreedFrom(population, populationSize, teachers, draws, cursor, children)
         == BreedFrom(population, populationSize, teachers, draws, cursor + 1, grown)
  {
  }

  /** The iterations of the breeding loop that end it with an error. */
  lemma BreedHalts(population: seq<Schedule>, populationSize: int, teachers: seq<Teacher>,
                   draws: seq<BreedDraw>, cursor: nat, children: seq<Schedule>)
    requires |children| < populationSize && Nursery(children, population, populationSize, teachers)
    ensures |population| == 0 ==> BreedFrom(population, populationSize, teachers, draws, cursor, children) == (Err(IndexError), cursor)
    ensures 0 < |population| && |draws| <= cursor ==>
      BreedFrom(population, populationSize, teachers, draws, cursor, children) == (Err(DrawsExhausted), cursor)
    ensures 0 < |population| && cursor < |draws| ==>
      var d := draws[cursor];
      var ma := Mutate(population[d.a % |population|], teachers, d.mutA);
      var mb := Mutate(population[d.b % |population|], teachers, d.mutB);
      (ma.Err? ==> BreedFrom(population, populationSize, teachers, draws, cursor, children) == (Err(ma.fault), cursor + 1))
      && (ma.Ok? && mb.Err? ==> BreedFrom(population, populationSize, teachers, draws, cursor, children) == (Err(mb.fault), cursor + 1))
  {
  }

  /** The breeding of one generation from `population`, starting at draw
      `cursor`. */
  function Breeding(population: seq<Schedule>, populationSize: int, teachers: seq<Teacher>,
                    draws: seq<BreedDraw>, cursor: nat): (r: (Result<seq<Schedule>>, nat))
  {
    BreedFrom(population, populationSize, teachers, draws, cursor, [])
  }

  /** One generation's breeding loop: pick two parents, cross them over,
      mutate both children and keep those the checker admits, until there
      are at least `populationSize` children.  The sessions of a bred child
      are distinct objects: seeds list none twice, and a mutation replaces
      a session by a new one. */
  method Breed(population: seq<Schedule>, populationSize: int, teachers: seq<Teacher>, draws: seq<BreedDraw>, start: nat)
    returns (r: Result<seq<Schedule>>, next: nat)
    ensures r.Ok? ==> populationSize <= |r.value| <= Max(populationSize, 0) + 1
    ensures r.Ok? ==> forall k :: 0 <= k < |r.value| ==> Valid(r.value[k]) && Bred(r.value[k], population, teachers)
    ensures r.Err? ==> r.fault == DrawsExhausted || r.fault == IndexError
    ensures r == Err(IndexError) ==> |population| == 0 || SomeDrawFails(population, teachers)
    ensures r == Err(DrawsExhausted) ==> next >= |draws|
    ensures r.Ok? && populationSize <= 0 ==> r.value == [] && next == start
    ensures (r, next) == Breeding(population, populationSize, teachers, draws, start)
  {
    var children: seq<Schedule> := [];
    next := start;
    while |children| < populationSize
      invariant Nursery(children, population, populationSize, teachers)
      invariant BreedFrom(population, populationSize, teachers, draws, next, children) == Breeding(population, populationSize, teachers, draws, start)
      decreases |draws| - next
    {
      BreedHalts(population, populationSize, teachers, draws, next, children);
      if |population| == 0 {
        return Err(IndexError), next;
      }
      if next >= |draws| {
        return Err(DrawsExhausted), next;
      }
      var d := draws[next];
      var ia, ib := d.a % |population|, d.b % |population|;
      var pair := Crossover(population[ia], population[ib]);
      var ma := Mutate(pair.0, teachers, d.mutA);
      if ma.Err? {
        return Err(ma.fault), next + 1;
      }
      var mb := Mutate(pair.1, teachers, d.mutB);
      if mb.Err? {
        return Err(mb.fault), next + 1;
      }
      var okA := CheckHardConstraints(ma.value, Positions(|ma.value|));
      ValidByIdDistinct(ma.value, Positions(|ma.value|));
      var okB := CheckHardConstraints(mb.value, Positions(|mb.value|));
      ValidByIdDistinct(mb.value, Positions(|mb.value|));
      BreedStep(population, populationSize, teachers, draws, next, children, ma.value, mb.value);
      children := children + (if okA then [ma.value] else []) + (if okB then [mb.value] else []);
      next := next + 1;
    }
    r := Ok(children);
  }

  /** The GREEDY step followed by the re-sort of `run`: the merged pool,
      best first, cut to the population size, then sorted again. */
  function NextPopulation(population: seq<Schedule>, children: seq<Schedule>, populationSize: int): (r: seq<Schedule>)
    ensures multiset(r) == multiset(Greedy(population + children, populationSize))
  {
    SortBy(Greedy(population + children, populationSize), Penalty)
  }

  /** The re-sort changes nothing, the next population has the population
      size (or the whole pool, if smaller), and it is as fit as the pool. */
  lemma NextPopulationKeeps(population: seq<Schedule>, children: seq<Schedule>, populationSize: int,
                            groups: seq<Group>, rooms: seq<Room>, teachers: seq<Teacher>)
    requires AllFit(population, groups, rooms, teachers) && AllFit(children, groups, rooms, teachers)
    ensures NextPopulation(population, children, populationSize) == Greedy(population + children, populationSize)
    ensures populationSize >= 0 ==>
      |NextPopulation(population, children, populationSize)| == Min(populationSize, |population| + |children|)
    ensures AllFit(NextPopulation(population, children, populationSize), groups, rooms, teachers)
  {
    var pool := population + children;
    var r := Greedy(pool, populationSize);
    GreedySelects(pool, populationSize);
    SortSortedIsIdentity(r, Penalty);
    forall p | p in r
      ensures Fit(p, groups, rooms, teachers)
    {
      assert p in multiset(pool);
      assert p in population || p in children;
    }
  }

  /** The next population is in ascending penalty order. */
  lemma NextPopulationSorted(population: seq<Schedule>, children: seq<Schedule>, populationSize: int)
    ensures SortedBy(NextPopulation(population, children, populationSize), Penalty)
  {
    SortBySorted(Greedy(population + children, populationSize), Penalty);
  }

  /** The first member of the next population is the best of the pool. */
  lemma NextPopulationHeadBest(population: seq<Schedule>, children: seq<Schedule>, populationSize: int, x: Schedule)
    requires populationSize > 0 && x in population + children
    ensures |NextPopulation(population, children, populationSize)| > 0
    ensures Penalty(NextPopulation(population, children, populationSize)[0]) <= Penalty(x)
  {
    var pool := population + children;
    var sorted := SortBy(pool, Penalty);
    SortBySorted(pool, Penalty);
    assert x in multiset(sorted);
    var j :| 0 <= j < |sorted| && sorted[j] == x;
    var r := NextPopulation(population, children, populationSize);
    var g := Greedy(pool, populationSize);
    GreedySelects(pool, populationSize);
    SortSortedIsIdentity(g, Penalty);
    assert r[0] == sorted[0];
  }

  /** Best-ever tracking: the top of the new population replaces the best
      schedule only when it scores strictly higher; otherwise the count of
      generations without improvement goes up by one. */
  function Track(best: Schedule, stalls: nat, top: Schedule): (r: (Schedule, nat))
    requires Penalty(best) != -1 && Penalty(top) != -1
    ensures Penalty(r.0) != -1
    ensures r.0 == top || r.0 == best
    ensures Score(best) <= Score(r.0) && Score(top) <= Score(r.0)
    ensures r.1 == stalls <==> Score(best) < Score(r.0)
    ensures r.1 == stalls || r.1 == stalls + 1
    ensures Score(top) <= Score(best) ==> r.0 == best
  {
    if Score(top) > Score(best) then (top, stalls) else (best, stalls + 1)
  }

  /** On admissible schedules, tracking improves exactly when the penalty
      drops. */
  lemma TrackByPenalty(best: Schedule, stalls: nat, top: Schedule)
    requires Valid(best) && Valid(top)
    ensures Penalty(best) >= 0 && Penalty(top) >= 0
    ensures Track(best, stalls, top).1 == stalls <==> Penalty(top) < Penalty(best)
    ensures Track(best, stalls, top).0 == if Penalty(top) < Penalty(best) then top else best
  {
    PenaltyTermsNonNegative(best);
    PenaltyTermsNonNegative(top);
    ScoreOrder(best, top);
  }

  /** Consecutive report lines: either the best score rose and the counter
      stayed, or the score stayed and the counter went up by one. */
  predicate Progress(a: Report, b: Report) {
    (a.score < b.score && b.stalls == a.stalls) || (b.score == a.score && b.stalls == a.stalls + 1)
  }

  predicate Reported(log: seq<Report>) {
    forall i :: 0 <= i < |log| - 1 ==> Progress(log[i], log[i + 1])
  }

  lemma ReportedAppend(log: seq<Report>, last: Report, line: Report)
    requires Reported(log) && Progress(last, line)
    requires |log| > 0 ==> log[|log| - 1] == last
    ensures Reported(log + [line])
    ensures |log| > 0 ==> (log + [line])[0] == log[0]
  {
    var l := log + [line];
    forall i | 0 <= i < |l| - 1
      ensures Progress(l[i], l[i + 1])
    {
      if i < |log| - 1 {
        assert l[i] == log[i] && l[i + 1] == log[i + 1];
      }
    }
  }

  /** The best score never decreases, and the counter never goes down. */
  lemma {:induction false} ReportedMonotone(log: seq<Report>, i: nat, j: nat)
    requires Reported(log) && i <= j < |log|
    ensures log[i].score <= log[j].score && log[i].stalls <= log[j].stalls
    decreases j - i
  {
    if i < j {
      ReportedMonotone(log, i + 1, j);
      assert Progress(log[i], log[i + 1]);
    }
  }

  /** The counter counts exactly the generations whose line did not raise
      the score. */
  function Stalled(log: seq<Report>): (n: nat)
    ensures n <= |log|
  {
    if |log| <= 1 then 0
    else Stalled(log[..|log| - 1]) + (if log[|log| - 1].score == log[|log| - 2].score then 1 else 0)
  }

  lemma {:induction false} ReportedCounts(log: seq<Report>)
    requires Reported(log) && |log| > 0
    ensures log[|log| - 1].stalls == log[0].stalls + Stalled(log)
    decreases |log|
  {
    if |log| > 1 {
      var init := log[..|log| - 1];
      assert Reported(init) by {
        forall i | 0 <= i < |init| - 1
          ensures Progress(init[i], init[i + 1])
        {
          assert init[i] == log[i] && init[i + 1] == log[i + 1];
        }
      }
      ReportedCounts(init);
      assert Progress(log[|log| - 2], log[|log| - 1]);
    }
  }

  /** The start of `run`: seed, and stop with `AssertionError` on an empty
      initial population. */
  method Seed(populationSize: int, groups: seq<Group>, rooms: seq<Room>, teachers: seq<Teacher>, attempts: seq<seq<Shuffle>>)
    returns (r: Result<seq<Schedule>>, used: nat)
    requires |attempts| >= populationSize * 100
    requires AttemptsFit(attempts, groups, rooms, teachers)
    ensures r.Ok? ==> 0 < |r.value| <= populationSize && AllFit(r.value, groups, rooms, teachers)
    ensures r.Err? ==> r.fault == AssertionError
    ensures r.Err? <==> populationSize <= 0 || Successes(Outcomes(groups, rooms, teachers, attempts), populationSize * 100) == []
    ensures used <= |attempts|
    ensures r.Ok? ==> r.value == Successes(Outcomes(groups, rooms, teachers, attempts), used)
  {
    var population;
    population, used := GenerateInitialPopulation(populationSize, groups, rooms, teachers, attempts);
    if |population| == 0 {
      return Err(AssertionError), used;
    }
    r := Ok(population);
  }

  /** One generation of `run`: breed, keep the best of parents and
      children, and update the best-ever schedule and the counter.  Besides
      the outcome it returns the children bred. */
  method Generation(population: seq<Schedule>, best: Schedule, stalls: nat, populationSize: int,
                    groups: seq<Group>, rooms: seq<Room>, teachers: seq<Teacher>, draws: seq<BreedDraw>, cursor: nat)
    returns (r: Result<(seq<Schedule>, Schedule, nat)>, children: seq<Schedule>, next: nat)
    requires populationSize > 0 && 0 < |population| && AllFit(population, groups, rooms, teachers)
    requires Fit(best, groups, rooms, teachers) && Penalty(best) >= 0
    ensures r.Ok? ==> populationSize <= |children| <= populationSize + 1
    ensures r.Ok? ==> forall k :: 0 <= k < |children| ==> Valid(children[k]) && Bred(children[k], population, teachers)
    ensures r.Ok? ==> r.value.0 == NextPopulation(population, children, populationSize)
    ensures r.Ok? ==> |r.value.0| == populationSize && AllFit(r.value.0, groups, rooms, teachers)
    ensures r.Ok? ==> Penalty(r.value.0[0]) >= 0 && (r.value.1, r.value.2) == Track(best, stalls, r.value.0[0])
    ensures r.Ok? ==> Fit(r.value.1, groups, rooms, teachers) && Penalty(r.value.1) >= 0
    ensures r.Ok? ==> Progress(Report(stalls, Score(best)), Report(r.value.2, Score(r.value.1)))
    ensures r.Ok? ==> SortedBy(r.value.0, Penalty) && Penalty(r.value.1) <= Penalty(r.value.0[0])
    ensures r.Err? ==> (r.fault == IndexError && Plan(groups) == []) || r.fault == DrawsExhausted
    ensures Breeding(population, populationSize, teachers, draws, cursor) == (if r.Ok? then Ok(children) else Err(r.fault), next)
  {
    var bred, after := Breed(population, populationSize, teachers, draws, cursor);
    next := after;
    if bred.Err? {
      if bred.fault == IndexError {
        FitDrawFails(population, groups, rooms, teachers);
      }
      return Err(bred.fault), [], next;
    }
    children := bred.value;
    forall k | 0 <= k < |children|
      ensures Fit(children[k], groups, rooms, teachers)
    {
      BredFit(children[k], population, groups, rooms, teachers);
    }
    NextPopulationKeeps(population, children, populationSize, groups, rooms, teachers);
    NextPopulationSorted(population, children, populationSize);
    var kept := NextPopulation(population, children, populationSize);
    assert |kept| == populationSize;
    var top := kept[0];
    assert Fit(top, groups, rooms, teachers) by {
      assert top in kept;
    }
    TrackByPenalty(best, stalls, top);
    var tracked := Track(best, stalls, top);
    r := Ok((kept, tracked.0, tracked.1));
  }

  /** The children one generation breeds from `prev`: between
      `populationSize` and `populationSize + 1` of them, each admissible and
      a mutation of a member of `prev`. */
  ghost predicate Brood(prev: seq<Schedule>, children: seq<Schedule>, populationSize: int, teachers: seq<Teacher>) {
    && populationSize <= |children| <= populationSize + 1
    && forall c {:trigger Bred(c, prev, teachers)} :: c in children ==> Valid(c) && Bred(c, prev, teachers)
  }

  /** The population generation `i` starts from. */
  function Before(population: seq<Schedule>, pops: seq<seq<Schedule>>, i: nat): seq<Schedule>
    requires i <= |pops|
  {
    if i == 0 then population else pops[i - 1]
  }

  /** `next` is the GREEDY population of `prev` and `children`. */
  predicate Kept(prev: seq<Schedule>, children: seq<Schedule>, next: seq<Schedule>, populationSize: int) {
    next == NextPopulation(prev, children, populationSize)
  }

  /** Each population of `pops` is the GREEDY population of the one before
      it and of the children of that generation listed in `kids`. */
  predicate Chain(population: seq<Schedule>, kids: seq<seq<Schedule>>, pops: seq<seq<Schedule>>, populationSize: int)
    decreases |pops|
  {
    && |kids| == |pops|
    && (|pops| > 0 ==>
      && Chain(population, kids[..|pops| - 1], pops[..|pops| - 1], populationSize)
      && Kept(Before(population, pops, |pops| - 1), kids[|pops| - 1], pops[|pops| - 1], populationSize))
  }

  /** Each entry of `kids` is a brood of the population before it. */
  ghost predicate Broods(population: seq<Schedule>, kids: seq<seq<Schedule>>, pops: seq<seq<Schedule>>, populationSize: int, teachers: seq<Teacher>)
    decreases |pops|
  {
    && |kids| == |pops|
    && (|pops| > 0 ==>
      && Broods(population, kids[..|pops| - 1], pops[..|pops| - 1], populationSize, teachers)
      && Brood(Before(population, pops, |pops| - 1), kids[|pops| - 1], populationSize, teachers))
  }

  /** The generations of `kids` drew their breeding iterations one after
      another from the start of `draws`: generation `i` starts at draw
      `cursors[i]`, breeds `kids[i]` and stops at draw `cursors[i + 1]`. */
  predicate Drawn(population: seq<Schedule>, kids: seq<seq<Schedule>>, pops: seq<seq<Schedule>>, cursors: seq<nat>,
                  populationSize: int, teachers: seq<Teacher>, draws: seq<BreedDraw>)
    decreases |pops|
  {
    && |kids| == |pops| && |cursors| == |pops| + 1 && cursors[0] == 0 && cursors[|pops|] <= |draws|
    && (|pops| > 0 ==>
      && Drawn(population, kids[..|pops| - 1], pops[..|pops| - 1], cursors[..|pops|], populationSize, teachers, draws)
      && Breeding(Before(population, pops, |pops| - 1), populationSize, teachers, draws, cursors[|pops| - 1])
         == (Ok(kids[|pops| - 1]), cursors[|pops|]))
  }

  /** The breeding the generation after those of `pops` starts: from the
      last population, at the draw where the previous generation stopped. */
  function Pending(population: seq<Schedule>, pops: seq<seq<Schedule>>, cursors: seq<nat>,
                   populationSize: int, teachers: seq<Teacher>, draws: seq<BreedDraw>): (r: (Result<seq<Schedule>>, nat))
    requires |cursors| == |pops| + 1
  {
    Breeding(Before(population, pops, |pops|), populationSize, teachers, draws, cursors[|pops|])
  }

  lemma DrawnAppend(population: seq<Schedule>, kids: seq<seq<Schedule>>, pops: seq<seq<Schedule>>, cursors: seq<nat>,
                    c: seq<Schedule>, p: seq<Schedule>, next: nat,
                    populationSize: int, teachers: seq<Teacher>, draws: seq<BreedDraw>)
    requires Drawn(population, kids, pops, cursors, populationSize, teachers, draws)
    requires Breeding(Before(population, pops, |pops|), populationSize, teachers, draws, cursors[|pops|]) == (Ok(c), next)
    ensures Drawn(population, kids + [c], pops + [p], cursors + [next], populationSize, teachers, draws)
  {
    var ks, q, cs := kids + [c], pops + [p], cursors + [next];
    assert ks[..|q| - 1] == kids && q[..|q| - 1] == pops && cs[..|q|] == cursors;
    assert Before(population, q, |q| - 1) == Before(population, pops, |pops|);
  }

  lemma ChainAppend(population: seq<Schedule>, kids: seq<seq<Schedule>>, pops: seq<seq<Schedule>>,
                    c: seq<Schedule>, populationSize: int, teachers: seq<Teacher>)
    requires Chain(population, kids, pops, populationSize) && Broods(population, kids, pops, populationSize, teachers)
    requires Brood(Before(population, pops, |pops|), c, populationSize, teachers)
    ensures var p := NextPopulation(Before(population, pops, |pops|), c, populationSize);
      && Chain(population, kids + [c], pops + [p], populationSize)
      && Broods(population, kids + [c], pops + [p], populationSize, teachers)
  {
    var p := NextPopulation(Before(population, pops, |pops|), c, populationSize);
    var ks, q := kids + [c], pops + [p];
    assert ks[..|q| - 1] == kids && q[..|q| - 1] == pops;
    assert Before(population, q, |q| - 1) == Before(population, pops, |pops|);
  }

  /** What a run of `|pops|` generations from `population` has produced:
      the GREEDY chain, the broods, and populations of the population size
      whose members are admissible and conform to the plan. */
  ghost predicate Course(population: seq<Schedule>, kids: seq<seq<Schedule>>, pops: seq<seq<Schedule>>, populationSize: int,
                         groups: seq<Group>, rooms: seq<Room>, teachers: seq<Teacher>)
  {
    && Chain(population, kids, pops, populationSize)
    && Broods(population, kids, pops, populationSize, teachers)
    && Sized(pops, populationSize, groups, rooms, teachers)
    && Scored(pops)
  }

  /** One more generation extends the course and the best-ever tracking. */
  lemma CourseAppend(population: seq<Schedule>, kids: seq<seq<Schedule>>, pops: seq<seq<Schedule>>,
                     children: seq<Schedule>, kept: seq<Schedule>, populationSize: int,
                     groups: seq<Group>, rooms: seq<Room>, teachers: seq<Teacher>)
    requires Course(population, kids, pops, populationSize, groups, rooms, teachers)
    requires Brood(Before(population, pops, |pops|), children, populationSize, teachers)
    requires kept == NextPopulation(Before(population, pops, |pops|), children, populationSize)
    requires populationSize > 0 && |kept| == populationSize && AllFit(kept, groups, rooms, teachers) && Penalty(kept[0]) >= 0
    requires |population| > 0 && Penalty(population[0]) >= 0
    ensures Course(population, kids + [children], pops + [kept], populationSize, groups, rooms, teachers)
    ensures var prev := Follow(population[0], 0, pops);
      var t := Track(prev.0, prev.1, kept[0]);
      Follow(population[0], 0, pops + [kept]) == (t.0, t.1, prev.2 + [Report(t.1, Score(t.0))])
  {
    ChainAppend(population, kids, pops, children, populationSize, teachers);
    FollowStep(population[0], pops, kept);
    SizedAppend(pops, kept, populationSize, groups, rooms, teachers);
  }

  /** Every population of `pops` has the population size and admissible
      members that conform to the plan. */
  ghost predicate Sized(pops: seq<seq<Schedule>>, populationSize: int, groups: seq<Group>, rooms: seq<Room>, teachers: seq<Teacher>) {
    forall i :: 0 <= i < |pops| ==> |pops[i]| == populationSize && AllFit(pops[i], groups, rooms, teachers)
  }

  lemma SizedAppend(pops: seq<seq<Schedule>>, kept: seq<Schedule>, populationSize: int,
                    groups: seq<Group>, rooms: seq<Room>, teachers: seq<Teacher>)
    requires Sized(pops, populationSize, groups, rooms, teachers)
    requires |kept| == populationSize && AllFit(kept, groups, rooms, teachers)
    ensures Sized(pops + [kept], populationSize, groups, rooms, teachers)
  {
    var grown := pops + [kept];
    forall i | 0 <= i < |grown|
      ensures |grown[i]| == populationSize && AllFit(grown[i], groups, rooms, teachers)
    {
      if i < |pops| {
        assert grown[i] == pops[i];
      }
    }
  }

  /** Every population of the run has a first member with a defined score. */
  predicate Scored(pops: seq<seq<Schedule>>) {
    forall i :: 0 <= i < |pops| ==> |pops[i]| > 0 && Penalty(pops[i][0]) >= 0
  }

  /** Best-ever tracking across the generations `pops`: the best schedule,
      the counter, and the line printed after each generation. */
  function Follow(best: Schedule, stalls: nat, pops: seq<seq<Schedule>>): (r: (Schedule, nat, seq<Report>))
    requires Penalty(best) >= 0 && Scored(pops)
    ensures Penalty(r.0) >= 0 && |r.2| == |pops|
    ensures Score(best) <= Score(r.0)
    ensures |pops| > 0 ==> r.2[|pops| - 1] == Report(r.1, Score(r.0))
    ensures |pops| == 0 ==> r.1 == stalls
    ensures Reported(r.2) && (|pops| > 0 ==> r.2[0].stalls <= stalls + 1)
    decreases |pops|
  {
    if |pops| == 0 then (best, stalls, [])
    else
      var init := pops[..|pops| - 1];
      assert Scored(init) by {
        assert forall i :: 0 <= i < |init| ==> init[i] == pops[i];
      }
      var prev := Follow(best, stalls, init);
      var t := Track(prev.0, prev.1, pops[|pops| - 1][0]);
      var line := Report(t.1, Score(t.0));
      ReportedAppend(prev.2, Report(prev.1, Score(prev.0)), line);
      (t.0, t.1, prev.2 + [line])
  }

  /** The tracked best scores at least as well as the top of every
      generation. */
  lemma {:induction false} FollowAbove(best: Schedule, stalls: nat, pops: seq<seq<Schedule>>, i: nat)
    requires Penalty(best) >= 0 && Scored(pops) && i < |pops|
    ensures Score(pops[i][0]) <= Score(Follow(best, stalls, pops).0)
    decreases |pops|
  {
    var init := pops[..|pops| - 1];
    assert Scored(init) by {
      assert forall k :: 0 <= k < |init| ==> init[k] == pops[k];
    }
    if i < |pops| - 1 {
      assert init[i] == pops[i];
      FollowAbove(best, stalls, init, i);
    }
  }

  /** The first member of a fit population is fit, so its score is defined. */
  lemma HeadFit(population: seq<Schedule>, groups: seq<Group>, rooms: seq<Room>, teachers: seq<Teacher>)
    requires 0 < |population| && AllFit(population, groups, rooms, teachers)
    ensures Fit(population[0], groups, rooms, teachers) && Penalty(population[0]) >= 0
  {
    assert population[0] in population;
    PenaltyTermsNonNegative(population[0]);
  }

  /** The state of the generation loop after the generations of `pops`:
      `current` is the last population, `best`, `stalls` and `log` are the
      tracking so far, and the course and the draws taken are recorded. */
  ghost predicate Underway(population: seq<Schedule>, current: seq<Schedule>, best: Schedule, stalls: nat, log: seq<Report>,
                           kids: seq<seq<Schedule>>, pops: seq<seq<Schedule>>, cursors: seq<nat>,
                           populationSize: int, groups: seq<Group>, rooms: seq<Room>, teachers: seq<Teacher>, draws: seq<BreedDraw>)
  {
    && 0 < |population| && Penalty(population[0]) >= 0
    && 0 < |current| <= populationSize && AllFit(current, groups, rooms, teachers)
    && current == Before(population, pops, |pops|)
    && Fit(best, groups, rooms, teachers) && Penalty(best) >= 0
    && Course(population, kids, pops, populationSize, groups, rooms, teachers)
    && (best, stalls, log) == Follow(population[0], 0, pops)
    && Drawn(population, kids, pops, cursors, populationSize, teachers, draws)
  }

  /** One pass of the generation loop together with the run so far: the
      generation is recorded in `kids` and `pops`, and its line in `log`. */
  method Advance(population: seq<Schedule>, current: seq<Schedule>, best: Schedule, stalls: nat, log: seq<Report>,
                 kids: seq<seq<Schedule>>, pops: seq<seq<Schedule>>, cursors: seq<nat>,
                 populationSize: int, groups: seq<Group>, rooms: seq<Room>, teachers: seq<Teacher>, draws: seq<BreedDraw>)
    returns (r: Result<(seq<Schedule>, Schedule, nat)>, kids': seq<seq<Schedule>>, pops': seq<seq<Schedule>>,
             log': seq<Report>, cursors': seq<nat>)
    requires |population| <= populationSize
    requires Underway(population, current, best, stalls, log, kids, pops, cursors, populationSize, groups, rooms, teachers, draws)
    ensures r.Err? ==> (r.fault == IndexError && Plan(groups) == []) || r.fault == DrawsExhausted
    ensures r.Err? ==> Pending(population, pops, cursors, populationSize, teachers, draws).0 == Err(r.fault)
    ensures r == Err(DrawsExhausted) ==> Pending(population, pops, cursors, populationSize, teachers, draws).1 == |draws|
    ensures r.Ok? ==> |pops'| == |pops| + 1 && |kids'| == |kids| + 1 && |log'| == |log| + 1 && |r.value.0| == populationSize
    ensures r.Ok? ==> Underway(population, r.value.0, r.value.1, r.value.2, log', kids', pops', cursors',
                               populationSize, groups, rooms, teachers, draws)
  {
    var children, next;
    r, children, next := Generation(current, best, stalls, populationSize, groups, rooms, teachers, draws, cursors[|pops|]);
    if r.Err? {
      return r, kids, pops, log, cursors;
    }
    var kept := r.value.0;
    assert Brood(current, children, populationSize, teachers);
    CourseAppend(population, kids, pops, children, kept, populationSize, groups, rooms, teachers);
    DrawnAppend(population, kids, pops, cursors, children, kept, next, populationSize, teachers, draws);
    kids', pops', log', cursors' := kids + [children], pops + [kept], log + [Report(r.value.2, Score(r.value.1))], cursors + [next];
  }

  /** The generation loop of `run`, from a seeded population.  Besides the
      best schedule and the printed lines it returns the population after
      each generation. */
  method Evolve(population: seq<Schedule>, populationSize: int, nGenerations: int,
                groups: seq<Group>, rooms: seq<Room>, teachers: seq<Teacher>, draws: seq<BreedDraw>)
    returns (r: Result<Schedule>, log: seq<Report>, kids: seq<seq<Schedule>>, pops: seq<seq<Schedule>>, cursors: seq<nat>)
    requires 0 < |population| <= populationSize && AllFit(population, groups, rooms, teachers)
    ensures r.Ok? ==> Fit(r.value, groups, rooms, teachers)
    ensures r.Err? ==> (r.fault == IndexError && Plan(groups) == []) || r.fault == DrawsExhausted
    ensures r.Ok? ==> |log| == Max(nGenerations, 0)
    ensures Reported(log) && (|log| > 0 ==> log[0].stalls <= 1)
    ensures r.Ok? && |log| > 0 ==> Penalty(r.value) >= 0 && log[|log| - 1].score == Score(r.value)
    ensures Chain(population, kids, pops, populationSize) && Broods(population, kids, pops, populationSize, teachers)
    ensures forall i :: 0 <= i < |pops| ==> |pops[i]| == populationSize && AllFit(pops[i], groups, rooms, teachers)
    ensures Penalty(population[0]) >= 0 && Scored(pops)
    ensures log == Follow(population[0], 0, pops).2
    ensures r.Ok? ==> r.value == Follow(population[0], 0, pops).0
    ensures r.Ok? ==> Penalty(r.value) <= Penalty(population[0])
    ensures r.Ok? ==> forall i :: 0 <= i < |pops| ==> Penalty(r.value) <= Penalty(pops[i][0])
    ensures Drawn(population, kids, pops, cursors, populationSize, teachers, draws)
    ensures r.Err? ==> Pending(population, pops, cursors, populationSize, teachers, draws).0 == Err(r.fault)
    ensures r == Err(DrawsExhausted) ==> Pending(population, pops, cursors, populationSize, teachers, draws).1 == |draws|
  {
    log, kids, pops, cursors := [], [], [], [0];
    HeadFit(population, groups, rooms, teachers);
    var current := population;
    var best := population[0];
    var stalls: nat := 0;
    var generation := 0;
    while generation < nGenerations
      invariant generation <= Max(nGenerations, 0) && |log| == generation && |pops| == generation && |kids| == generation
      invariant generation > 0 ==> |current| == populationSize
      invariant Underway(population, current, best, stalls, log, kids, pops, cursors, populationSize, groups, rooms, teachers, draws)
    {
      var step, kids', pops', log', cursors' := Advance(population, current, best, stalls, log, kids, pops, cursors,
                                                       populationSize, groups, rooms, teachers, draws);
      if step.Err? {
        return Err(step.fault), log, kids, pops, cursors;
      }
      current, best, stalls := step.value.0, step.value.1, step.value.2;
      log, kids, pops, cursors := log', kids', pops', cursors';
      generation := generation + 1;
    }
    r := Ok(best);
    FollowBelow(population[0], pops);
  }

  /** In penalty terms: the tracked best is no worse than the seed and than
      the top of every generation. */
  lemma FollowBelow(seed: Schedule, pops: seq<seq<Schedule>>)
    requires Penalty(seed) >= 0 && Scored(pops)
    ensures Penalty(Follow(seed, 0, pops).0) <= Penalty(seed)
    ensures forall i :: 0 <= i < |pops| ==> Penalty(Follow(seed, 0, pops).0) <= Penalty(pops[i][0])
  {
    var best := Follow(seed, 0, pops).0;
    ScoreOrder(seed, best);
    forall i | 0 <= i < |pops|
      ensures Penalty(best) <= Penalty(pops[i][0])
    {
      FollowAbove(seed, 0, pops, i);
      ScoreOrder(pops[i][0], best);
    }
  }

  /** Appending a population to the run is one more tracking step. */
  lemma FollowStep(seed: Schedule, pops: seq<seq<Schedule>>, p: seq<Schedule>)
    requires Penalty(seed) >= 0 && Scored(pops) && |p| > 0 && Penalty(p[0]) >= 0
    ensures Scored(pops + [p])
    ensures var prev := Follow(seed, 0, pops);
      var t := Track(prev.0, prev.1, p[0]);
      Follow(seed, 0, pops + [p]) == (t.0, t.1, prev.2 + [Report(t.1, Score(t.0))])
  {
    var q := pops + [p];
    assert q[..|q| - 1] == pops;
  }

  /** `run` with the GREEDY strategy.  Besides the best schedule it returns
      the progress lines printed after each generation, the seeds and the
      population after each generation. */
  method Run(populationSize: int, nGenerations: int, groups: seq<Group>, rooms: seq<Room>, teachers: seq<Teacher>,
             attempts: seq<seq<Shuffle>>, draws: seq<BreedDraw>)
    returns (r: Result<Schedule>, log: seq<Report>, seeds: seq<Schedule>, used: nat,
             kids: seq<seq<Schedule>>, pops: seq<seq<Schedule>>, cursors: seq<nat>)
    requires |attempts| >= populationSize * 100
    requires AttemptsFit(attempts, groups, rooms, teachers)
    ensures r.Ok? ==> Fit(r.value, groups, rooms, teachers)
    ensures r.Err? ==> r.fault == AssertionError || r.fault == IndexError || r.fault == DrawsExhausted
    ensures r == Err(AssertionError) <==> populationSize <= 0 || Successes(Outcomes(groups, rooms, teachers, attempts), populationSize * 100) == []
    ensures r == Err(IndexError) ==> Plan(groups) == []
    ensures r.Ok? ==> |log| == Max(nGenerations, 0)
    ensures Reported(log) && (|log| > 0 ==> log[0].stalls <= 1)
    ensures r.Ok? && |log| > 0 ==> Penalty(r.value) >= 0 && log[|log| - 1].score == Score(r.value)
    ensures r.Ok? ==> 0 < |seeds| <= populationSize && AllFit(seeds, groups, rooms, teachers)
    ensures r.Ok? ==> used <= |attempts| && seeds == Successes(Outcomes(groups, rooms, teachers, attempts), used)
    ensures r.Ok? ==> Chain(seeds, kids, pops, populationSize) && Broods(seeds, kids, pops, populationSize, teachers)
    ensures r.Ok? ==> Penalty(seeds[0]) >= 0 && Scored(pops) && (r.value, log) == (Follow(seeds[0], 0, pops).0, Follow(seeds[0], 0, pops).2)
    ensures r.Ok? ==> Penalty(r.value) <= Penalty(seeds[0])
    ensures r != Err(AssertionError) ==> Drawn(seeds, kids, pops, cursors, populationSize, teachers, draws)
    ensures r.Err? && r.fault != AssertionError ==> Pending(seeds, pops, cursors, populationSize, teachers, draws).0 == Err(r.fault)
    ensures r == Err(DrawsExhausted) ==> Pending(seeds, pops, cursors, populationSize, teachers, draws).1 == |draws|
  {
    var seeded;
    seeded, used := Seed(populationSize, groups, rooms, teachers, attempts);
    if seeded.Err? {
      return Err(AssertionError), [], [], used, [], [], [0];
    }
    seeds := seeded.value;
    r, log, kids, pops, cursors := Evolve(seeds, populationSize, nGenerations, groups, rooms, teachers, draws);
  }
}

=== FILE: fitness.dfy ===
/** The fitness of a schedule: `1 / (1 + penalty)`, where the penalty adds the
    groups' windows, the teachers' windows and the seats rooms lack. */
module Fitness {
  import opened Entities
  import opened Constraints
  import opened Windows

  /** Windows are counted once per group name and once per teacher name. */
  datatype Role = ByGroup | ByTeacher

  function Key(role: Role, x: Session): string {
    match role
    case ByGroup => x.group.name
    case ByTeacher => x.teacher.fullname
  }

  /** The slots of the sessions whose group (or teacher) is called `name`. */
  function SlotsOf(s: Schedule, role: Role, name: string): (r: seq<TimeSlot>)
    ensures |r| <= |s|
  {
    if |s| == 0 then []
    else (if Key(role, s[0]) == name then [s[0].timeSlot] else []) + SlotsOf(s[1..], role, name)
  }

  /** The names occurring in a schedule, each once; the source collects them
      in a set, and the sums below do not depend on the order. */
  function Names(s: Schedule, role: Role): (r: seq<string>)
    ensures Distinct(r)
    ensures forall n :: n in r <==> exists k :: 0 <= k < |s| && Key(role, s[k]) == n
  {
    if |s| == 0 then []
    else
      var rest := Names(s[1..], role);
      assert forall k :: 1 <= k < |s| ==> s[k] == s[1..][k - 1];
      if Key(role, s[0]) in rest then rest
      else DistinctCons(Key(role, s[0]), rest); [Key(role, s[0])] + rest
  }

  function SumWindows(s: Schedule, role: Role, names: seq<string>): int {
    if |names| == 0 then 0
    else WindowsNumber(SlotsOf(s, role, names[0])) + SumWindows(s, role, names[1..])
  }

  /** Total windows over every distinct group (or teacher) of the schedule. */
  function RoleWindows(s: Schedule, role: Role): int {
    SumWindows(s, role, Names(s, role))
  }

  function GroupWindows(s: Schedule): int {
    RoleWindows(s, ByGroup)
  }

  function TeacherWindows(s: Schedule): int {
    RoleWindows(s, ByTeacher)
  }

  /** Seats lacking: every session adds how far its group outnumbers its room. */
  function SeatsLacking(s: Schedule): (r: int)
    ensures r >= 0
    ensures r == 0 <==> forall k :: 0 <= k < |s| ==> s[k].group.size <= s[k].room.capacity
  {
    if |s| == 0 then 0
    else
      var x := s[0];
      assert forall k :: 1 <= k < |s| ==> s[k] == s[1..][k - 1];
      (if x.group.size - x.room.capacity > 0 then x.group.size - x.room.capacity else 0) + SeatsLacking(s[1..])
  }

  function Penalty(s: Schedule): int {
    GroupWindows(s) + TeacherWindows(s) + SeatsLacking(s)
  }

  /** `_get_score`.  Python would divide by zero when the penalty is -1, which
      only a schedule with double bookings can reach. */
  function Score(s: Schedule): (r: real)
    requires Penalty(s) != -1
    ensures Penalty(s) >= 0 ==> 0.0 < r <= 1.0
    ensures Penalty(s) >= 0 ==> (r == 1.0 <==> Penalty(s) == 0)
  {
    var p := Penalty(s);
    if p >= 0 then ReciprocalBounds(p); Reciprocal(p) else Reciprocal(p)
  }

  lemma ReciprocalBounds(p: int)
    requires p >= 0
    ensures 0.0 < Reciprocal(p) <= 1.0
    ensures Reciprocal(p) == 1.0 <==> p == 0
  {
    var d := (1 + p) as real;
    var r := 1.0 / d;
    assert r * d == 1.0;
  }

  lemma {:induction false} SlotsOfMember(s: Schedule, role: Role, name: string, t: TimeSlot)
    ensures t in SlotsOf(s, role, name) <==> exists k :: 0 <= k < |s| && Key(role, s[k]) == name && s[k].timeSlot == t
    decreases |s|
  {
    if |s| > 0 {
      SlotsOfMember(s[1..], role, name, t);
      assert forall k :: 1 <= k < |s| ==> s[k] == s[1..][k - 1];
    }
  }

  /** In an admissible schedule no group and no teacher holds one slot twice. */
  lemma {:induction false} ValidSlotsDistinct(s: Schedule, role: Role, name: string)
    requires Valid(s)
    ensures Distinct(SlotsOf(s, role, name))
    decreases |s|
  {
    if |s| > 0 {
      var rest := s[1..];
      ValidTail(s);
      ValidSlotsDistinct(rest, role, name);
      if Key(role, s[0]) == name {
        forall k | 0 <= k < |rest| && Key(role, rest[k]) == name
          ensures rest[k].timeSlot != s[0].timeSlot
        {
          assert rest[k] == s[k + 1];
          assert !Conflict(s[0], s[k + 1]);
        }
        SlotsOfMember(rest, role, name, s[0].timeSlot);
        DistinctCons(s[0].timeSlot, SlotsOf(rest, role, name));
      }
    }
  }

  lemma {:induction false} SumWindowsNonNegative(s: Schedule, role: Role, names: seq<string>)
    requires Valid(s)
    ensures SumWindows(s, role, names) >= 0
    decreases |names|
  {
    if |names| > 0 {
      ValidSlotsDistinct(s, role, names[0]);
      WindowsNonNegative(SlotsOf(s, role, names[0]));
      SumWindowsNonNegative(s, role, names[1..]);
    }
  }

  /** Reference count: the idle periods in the weeks of the named groups
      (or teachers). */
  function IdleOfNames(s: Schedule, role: Role, names: seq<string>): nat {
    if |names| == 0 then 0
    else IdleWeek(SlotsOf(s, role, names[0]), AllDays) + IdleOfNames(s, role, names[1..])
  }

  lemma {:induction false} SumWindowsCountsIdle(s: Schedule, role: Role, names: seq<string>)
    requires Valid(s)
    ensures SumWindows(s, role, names) == IdleOfNames(s, role, names)
    decreases |names|
  {
    if |names| > 0 {
      ValidSlotsDistinct(s, role, names[0]);
      WindowsNumberCountsIdle(SlotsOf(s, role, names[0]));
      SumWindowsCountsIdle(s, role, names[1..]);
    }
  }

  /** On an admissible schedule the penalty counts every idle period of
      every group and of every teacher, plus the seats rooms lack. */
  lemma PenaltyCountsIdle(s: Schedule)
    requires Valid(s)
    ensures GroupWindows(s) == IdleOfNames(s, ByGroup, Names(s, ByGroup))
    ensures TeacherWindows(s) == IdleOfNames(s, ByTeacher, Names(s, ByTeacher))
    ensures Penalty(s) == IdleOfNames(s, ByGroup, Names(s, ByGroup)) + IdleOfNames(s, ByTeacher, Names(s, ByTeacher)) + SeatsLacking(s)
  {
    SumWindowsCountsIdle(s, ByGroup, Names(s, ByGroup));
    SumWindowsCountsIdle(s, ByTeacher, Names(s, ByTeacher));
  }

  /** On an admissible schedule every penalty term is non-negative. */
  lemma PenaltyTermsNonNegative(s: Schedule)
    requires Valid(s)
    ensures GroupWindows(s) >= 0 && TeacherWindows(s) >= 0 && SeatsLacking(s) >= 0
    ensures Penalty(s) >= 0
  {
    SumWindowsNonNegative(s, ByGroup, Names(s, ByGroup));
    SumWindowsNonNegative(s, ByTeacher, Names(s, ByTeacher));
  }

  /** The score of an admissible schedule lies in (0, 1], and it is 1 exactly
      when there are no windows and no room is too small. */
  lemma ScoreBounds(s: Schedule)
    requires Valid(s)
    ensures Penalty(s) >= 0
    ensures 0.0 < Score(s) <= 1.0
    ensures Score(s) == 1.0 <==> GroupWindows(s) == 0 && TeacherWindows(s) == 0 && SeatsLacking(s) == 0
  {
    PenaltyTermsNonNegative(s);
  }

  /** `1 / (1 + p)` is strictly decreasing, so ranking by score is ranking by
      penalty, reversed. */
  lemma ScoreOrder(a: Schedule, b: Schedule)
    requires Penalty(a) >= 0 && Penalty(b) >= 0
    ensures Score(a) < Score(b) <==> Penalty(b) < Penalty(a)
    ensures Score(a) == Score(b) <==> Penalty(a) == Penalty(b)
  {
    var pa, pb := Penalty(a), Penalty(b);
    ReciprocalLess(pa, pb);
    ReciprocalSame(pa, pb);
  }

  /** `1 / (1 + p)`. */
  function Reciprocal(p: int): real
    requires p != -1
  {
    1.0 / (1 + p) as real
  }

  lemma ReciprocalLess(pa: int, pb: int)
    requires pa >= 0 && pb >= 0
    ensures Reciprocal(pa) < Reciprocal(pb) <==> pb < pa
  {
    var da, db := (1 + pa) as real, (1 + pb) as real;
    if da < db {
      ReciprocalDecreasing(da, db);
    } else if db < da {
      ReciprocalDecreasing(db, da);
    }
  }

  lemma ReciprocalSame(pa: int, pb: int)
    requires pa >= 0 && pb >= 0
    ensures Reciprocal(pa) == Reciprocal(pb) <==> pa == pb
  {
    var da, db := (1 + pa) as real, (1 + pb) as real;
    if da < db {
      ReciprocalDecreasing(da, db);
    } else if db < da {
      ReciprocalDecreasing(db, da);
    }
  }

  lemma ReciprocalDecreasing(x: real, y: real)
    requires 1.0 <= x < y
    ensures 1.0 / y < 1.0 / x
  {
    InverseOrder(x, y, 1.0 / x, 1.0 / y);
  }

  lemma InverseOrder(x: real, y: real, rx: real, ry: real)
    requires 1.0 <= x < y
    requires rx * x == 1.0 && ry * y == 1.0
    ensures ry < rx
  {
    assert rx > 0.0 && ry > 0.0;
    assert ry * (y - x) > 0.0;
    assert rx * (ry * y - ry * x) > 0.0;
  }

  /** A group of 30 in a room for 25 lacks 5 seats; a large enough room lacks none. */
  lemma SeatsExample(g: Group, subject: Subject, t: Teacher, slot: TimeSlot)
    requires g.size == 30
    ensures SeatsLacking([Session(Room(1, 25), g, subject, t, slot)]) == 5
    ensures SeatsLacking([Session(Room(2, 30), g, subject, t, slot)]) == 0
  {
  }
}

=== FILE: generator.dfy ===
/** The randomized first-fit constructor and the seeding loop built on it.
    The shuffles `random.shuffle` would produce are inputs: one `Shuffle` per
    session to place, each a permutation of that session's candidate lists. */
module Generator {
  import opened Entities
  import opened Constraints

  /** One session still to place: a group and one subject it requires. */
  datatype Instance = Instance(group: Group, subject: Subject)

  /** `for i in range(n)`: no iteration at all when `n` is zero or negative. */
  function Repeat(x: Instance, n: int): (r: seq<Instance>)
    ensures |r| == if n > 0 then n else 0
    ensures forall k :: 0 <= k < |r| ==> r[k] == x
    decreases n
  {
    if n <= 0 then [] else [x] + Repeat(x, n - 1)
  }

  function RequirementPlan(g: Group, reqs: seq<Requirement>): seq<Instance> {
    if |reqs| == 0 then []
    else Repeat(Instance(g, reqs[0].subject), reqs[0].count) + RequirementPlan(g, reqs[1..])
  }

  /** The order in which sessions are placed: each group in turn, each of its
      requirements in turn, `n_sessions` instances of each. */
  function Plan(groups: seq<Group>): seq<Instance> {
    if |groups| == 0 then []
    else RequirementPlan(groups[0], groups[0].requiredSubjects) + Plan(groups[1..])
  }

  // ---------------------------------------------------------------------------
  // Requirement counts

  function CountInstances(plan: seq<Instance>, g: Group, subject: Subject): nat {
    if |plan| == 0 then 0
    else (if plan[0] == Instance(g, subject) then 1 else 0) + CountInstances(plan[1..], g, subject)
  }

  function CountSessions(s: Schedule, g: Group, subject: Subject): nat {
    if |s| == 0 then 0
    else (if s[0].group == g && s[0].subject == subject then 1 else 0) + CountSessions(s[1..], g, subject)
  }

  /** How many sessions of `subject` the requirement list asks for. */
  function RequirementDemand(reqs: seq<Requirement>, subject: Subject): nat {
    if |reqs| == 0 then 0
    else (if reqs[0].subject == subject && reqs[0].count > 0 then reqs[0].count else 0) + RequirementDemand(reqs[1..], subject)
  }

  /** How many sessions of `subject` the rosters ask for group `g`. */
  function Demand(groups: seq<Group>, g: Group, subject: Subject): nat {
    if |groups| == 0 then 0
    else (if groups[0] == g then RequirementDemand(g.requiredSubjects, subject) else 0) + Demand(groups[1..], g, subject)
  }

  lemma {:induction false} CountInstancesAppend(a: seq<Instance>, b: seq<Instance>, g: Group, subject: Subject)
    ensures CountInstances(a + b, g, subject) == CountInstances(a, g, subject) + CountInstances(b, g, subject)
    decreases |a|
  {
    if |a| > 0 {
      assert (a + b)[1..] == a[1..] + b;
      CountInstancesAppend(a[1..], b, g, subject);
    } else {
      assert a + b == b;
    }
  }

  lemma {:induction false} CountRepeat(x: Instance, n: int, g: Group, subject: Subject)
    ensures CountInstances(Repeat(x, n), g, subject) == if x == Instance(g, subject) && n > 0 then n else 0
    decreases n
  {
    if n > 0 {
      CountRepeat(x, n - 1, g, subject);
      assert Repeat(x, n)[1..] == Repeat(x, n - 1);
    }
  }

  lemma {:induction false} CountRequirementPlan(gr: Group, reqs: seq<Requirement>, g: Group, subject: Subject)
    ensures CountInstances(RequirementPlan(gr, reqs), g, subject) == if gr == g then RequirementDemand(reqs, subject) else 0
    decreases |reqs|
  {
    if |reqs| > 0 {
      CountInstancesAppend(Repeat(Instance(gr, reqs[0].subject), reqs[0].count), RequirementPlan(gr, reqs[1..]), g, subject);
      CountRepeat(Instance(gr, reqs[0].subject), reqs[0].count, g, subject);
      CountRequirementPlan(gr, reqs[1..], g, subject);
    }
  }

  /** The plan holds exactly as many instances of (group, subject) as the
      rosters demand. */
  lemma {:induction false} PlanCount(groups: seq<Group>, g: Group, subject: Subject)
    ensures CountInstances(Plan(groups), g, subject) == Demand(groups, g, subject)
    decreases |groups|
  {
    if |groups| > 0 {
      CountInstancesAppend(RequirementPlan(groups[0], groups[0].requiredSubjects), Plan(groups[1..]), g, subject);
      CountRequirementPlan(groups[0], groups[0].requiredSubjects, g, subject);
      PlanCount(groups[1..], g, subject);
    }
  }

  lemma {:induction false} RequirementDemandAbsent(reqs: seq<Requirement>, subject: Subject)
    requires forall i :: 0 <= i < |reqs| ==> reqs[i].subject != subject
    ensures RequirementDemand(reqs, subject) == 0
    decreases |reqs|
  {
    if |reqs| > 0 {
      RequirementDemandAbsent(reqs[1..], subject);
    }
  }

  lemma {:induction false} DemandAbsent(groups: seq<Group>, g: Group, subject: Subject)
    requires g !in groups
    ensures Demand(groups, g, subject) == 0
    decreases |groups|
  {
    if |groups| > 0 {
      DemandAbsent(groups[1..], g, subject);
    }
  }

  /** When a group appears once and names a subject once, the rosters demand
      exactly the count written next to that subject. */
  lemma {:induction false} RequirementDemandUnique(reqs: seq<Requirement>, n: int, subject: Subject)
    requires Requirement(n, subject) in reqs && n >= 0
    requires forall i, j :: 0 <= i < j < |reqs| ==> reqs[i].subject != reqs[j].subject
    ensures RequirementDemand(reqs, subject) == n
    decreases |reqs|
  {
    if reqs[0] == Requirement(n, subject) {
      RequirementDemandAbsent(reqs[1..], subject);
    } else {
      assert reqs[0].subject != subject by {
        var i :| 0 <= i < |reqs| && reqs[i] == Requirement(n, subject);
      }
      RequirementDemandUnique(reqs[1..], n, subject);
    }
  }

  lemma {:induction false} DemandUnique(groups: seq<Group>, g: Group, n: int, subject: Subject)
    requires Distinct(groups) && g in groups
    requires Requirement(n, subject) in g.requiredSubjects && n >= 0
    requires forall i, j :: 0 <= i < j < |g.requiredSubjects| ==> g.requiredSubjects[i].subject != g.requiredSubjects[j].subject
    ensures Demand(groups, g, subject) == n
    decreases |groups|
  {
    if groups[0] == g {
      forall j | 0 <= j < |groups| - 1
        ensures groups[1..][j] != g
      {
        assert groups[1..][j] == groups[j + 1];
      }
      DemandAbsent(groups[1..], g, subject);
      RequirementDemandUnique(g.requiredSubjects, n, subject);
    } else {
      assert Distinct(groups[1..]) by {
        forall i, j | 0 <= i < j < |groups[1..]|
          ensures groups[1..][i] != groups[1..][j]
        {
          assert groups[1..][i] == groups[i + 1] && groups[1..][j] == groups[j + 1];
        }
      }
      DemandUnique(groups[1..], g, n, subject);
    }
  }

  /** A schedule lays out the plan when it has one session per planned
      instance, in plan order, with that instance's group and subject. */
  predicate Follows(s: Schedule, plan: seq<Instance>) {
    && |s| == |plan|
    && forall k :: 0 <= k < |s| ==> s[k].group == plan[k].group && s[k].subject == plan[k].subject
  }

  lemma {:induction false} FollowsCount(s: Schedule, plan: seq<Instance>, g: Group, subject: Subject)
    requires Follows(s, plan)
    ensures CountSessions(s, g, subject) == CountInstances(plan, g, subject)
    decreases |s|
  {
    if |s| > 0 {
      assert Follows(s[1..], plan[1..]) by {
        forall k | 0 <= k < |s| - 1
          ensures s[1..][k].group == plan[1..][k].group && s[1..][k].subject == plan[1..][k].subject
        {
          assert s[1..][k] == s[k + 1] && plan[1..][k] == plan[k + 1];
        }
      }
      FollowsCount(s[1..], plan[1..], g, subject);
    }
  }

  /** A session realises an instance with a capable roster teacher in a roster room. */
  predicate Realises(x: Session, inst: Instance, rooms: seq<Room>, teachers: seq<Teacher>) {
    && x.group == inst.group
    && x.subject == inst.subject
    && x.room in rooms
    && x.teacher in teachers
    && CanTeach(x.teacher, x.subject)
  }

  /** A complete schedule for the rosters: the plan, realised session by session. */
  predicate Conforms(s: Schedule, groups: seq<Group>, rooms: seq<Room>, teachers: seq<Teacher>) {
    var plan := Plan(groups);
    && |s| == |plan|
    && forall k :: 0 <= k < |s| ==> Realises(s[k], plan[k], rooms, teachers)
  }

  /** A conforming schedule meets every requirement exactly: it holds as many
      sessions of (group, subject) as the rosters demand. */
  lemma ConformsMeetsDemand(s: Schedule, groups: seq<Group>, rooms: seq<Room>, teachers: seq<Teacher>, g: Group, subject: Subject)
    requires Conforms(s, groups, rooms, teachers)
    ensures CountSessions(s, g, subject) == Demand(groups, g, subject)
  {
    FollowsCount(s, Plan(groups), g, subject);
    PlanCount(groups, g, subject);
  }

  /** With distinct groups and subjects named once per group, a conforming
      schedule holds exactly `n` sessions for each `(n, subject)` requirement. */
  lemma ConformsMeetsRequirement(s: Schedule, groups: seq<Group>, rooms: seq<Room>, teachers: seq<Teacher>, g: Group, n: int, subject: Subject)
    requires Conforms(s, groups, rooms, teachers)
    requires Distinct(groups) && g in groups
    requires Requirement(n, subject) in g.requiredSubjects && n >= 0
    requires forall i, j :: 0 <= i < j < |g.requiredSubjects| ==> g.requiredSubjects[i].subject != g.requiredSubjects[j].subject
    ensures CountSessions(s, g, subject) == n
  {
    ConformsMeetsDemand(s, groups, rooms, teachers, g, subject);
    DemandUnique(groups, g, n, subject);
  }

  // ---------------------------------------------------------------------------
  // The first-fit scan

  /** `(v, w)` for every `w` of `ys`. */
  function Pair<A, B>(x: A, ys: seq<B>): (r: seq<(A, B)>)
    ensures |r| == |ys|
    ensures forall j :: 0 <= j < |ys| ==> r[j] == (x, ys[j])
  {
    seq(|ys|, j requires 0 <= j < |ys| => (x, ys[j]))
  }

  /** `_all_combinations_helper` on two lists: every pair, the first list
      varying slowest. */
  function Product<A(!new), B(!new)>(xs: seq<A>, ys: seq<B>): (r: seq<(A, B)>)
    ensures forall p :: p in r <==> p.0 in xs && p.1 in ys
  {
    if |xs| == 0 then []
    else
      var head, rest := Pair(xs[0], ys), Product(xs[1..], ys);
      assert forall i :: 1 <= i < |xs| ==> xs[i] == xs[1..][i - 1];
      head + rest
  }

  lemma {:induction false} ProductLength<A(!new), B(!new)>(xs: seq<A>, ys: seq<B>)
    ensures |Product(xs, ys)| == |xs| * |ys|
    decreases |xs|
  {
    if |xs| > 0 {
      ProductLength(xs[1..], ys);
      assert |xs| * |ys| == |ys| + (|xs| - 1) * |ys|;
    }
  }

  /** The pair of the i-th and j-th elements sits at position `i * |ys| + j`:
      the order of the product is lexicographic. */
  lemma {:induction false} ProductOrder<A(!new), B(!new)>(xs: seq<A>, ys: seq<B>, i: int, j: int)
    requires 0 <= i < |xs| && 0 <= j < |ys|
    ensures i * |ys| + j < |Product(xs, ys)|
    ensures Product(xs, ys)[i * |ys| + j] == (xs[i], ys[j])
    decreases i
  {
    var head, rest := Pair(xs[0], ys), Product(xs[1..], ys);
    assert Product(xs, ys) == head + rest;
    ProductLength(xs, ys);
    RowOffset(i, j, |xs|, |ys|);
    if i > 0 {
      ProductOrder(xs[1..], ys, i - 1, j);
      assert xs[1..][i - 1] == xs[i];
    }
  }

  /** Row-major offsets: entry `(i, j)` of an `n` by `m` grid. */
  lemma RowOffset(i: int, j: int, n: int, m: int)
    requires 0 <= i < n && 0 <= j < m
    ensures i * m + j < n * m
    ensures i > 0 ==> i * m + j == m + ((i - 1) * m + j)
  {
    assert i * m <= (n - 1) * m;
  }

  /** A candidate tuple, nested as the recursive helper builds it. */
  type Candidate = (Teacher, (Room, (Day, Period)))

  /** The four-fold product: teacher outermost, then room, then day, then period. */
  function AllCombinations(ts: seq<Teacher>, rs: seq<Room>, ds: seq<Day>, ps: seq<Period>): (r: seq<Candidate>)
    ensures forall c :: c in r <==> c.0 in ts && c.1.0 in rs && c.1.1.0 in ds && c.1.1.1 in ps
  {
    Product(ts, Product(rs, Product(ds, ps)))
  }

  function MakeSession(inst: Instance, c: Candidate): Session {
    Session(c.1.0, inst.group, inst.subject, c.0, TimeSlot(c.1.1.0, c.1.1.1))
  }

  /** The first candidate whose session does not interfere with those placed. */
  function FirstFree(placed: Schedule, inst: Instance, cands: seq<Candidate>): (r: Option<Session>)
    ensures r.Some? ==> !Interferes(placed, r.value)
    ensures r.None? <==> forall i :: 0 <= i < |cands| ==> Interferes(placed, MakeSession(inst, cands[i]))
  {
    if |cands| == 0 then None
    else
      var x := MakeSession(inst, cands[0]);
      if !Interferes(placed, x) then Some(x)
      else
        var r := FirstFree(placed, inst, cands[1..]);
        assert forall i :: 1 <= i < |cands| ==> cands[i] == cands[1..][i - 1];
        r
  }

  /** What the scan returns is the session of the earliest candidate that
      does not interfere: every candidate before it does. */
  lemma {:induction false} FirstFreeIsFirst(placed: Schedule, inst: Instance, cands: seq<Candidate>)
    requires FirstFree(placed, inst, cands).Some?
    ensures exists i :: (0 <= i < |cands| && FirstFree(placed, inst, cands).value == MakeSession(inst, cands[i])
      && forall j :: 0 <= j < i ==> Interferes(placed, MakeSession(inst, cands[j])))
    decreases |cands|
  {
    if Interferes(placed, MakeSession(inst, cands[0])) {
      FirstFreeIsFirst(placed, inst, cands[1..]);
      var i :| 0 <= i < |cands[1..]| && FirstFree(placed, inst, cands[1..]).value == MakeSession(inst, cands[1..][i])
        && forall j :: 0 <= j < i ==> Interferes(placed, MakeSession(inst, cands[1..][j]));
      assert cands[1..][i] == cands[i + 1];
      forall j | 0 <= j < i + 1
        ensures Interferes(placed, MakeSession(inst, cands[j]))
      {
        if j > 0 {
          assert cands[1..][j - 1] == cands[j];
        }
      }
    }
  }

  /** The shuffled candidate lists for one session. */
  datatype Shuffle = Shuffle(teachers: seq<Teacher>, rooms: seq<Room>, days: seq<Day>, times: seq<Period>)

  /** Scan the shuffled product for the first tuple that fits. */
  function FirstFit(placed: Schedule, inst: Instance, sh: Shuffle): Option<Session> {
    FirstFree(placed, inst, Candidates(sh))
  }

  /** The product the scan walks for one session. */
  function Candidates(sh: Shuffle): seq<Candidate> {
    AllCombinations(sh.teachers, sh.rooms, sh.days, sh.times)
  }

  /** A shuffle is a permutation of the capable teachers, of all rooms, of the
      five days and of the six periods. */
  predicate ShuffleFits(sh: Shuffle, subject: Subject, rooms: seq<Room>, teachers: seq<Teacher>) {
    && multiset(sh.teachers) == multiset(TeacherCandidates(teachers, subject))
    && multiset(sh.rooms) == multiset(rooms)
    && multiset(sh.days) == multiset(AllDays)
    && multiset(sh.times) == multiset(AllPeriods)
  }

  predicate ShufflesFit(shs: seq<Shuffle>, plan: seq<Instance>, rooms: seq<Room>, teachers: seq<Teacher>) {
    && |shs| >= |plan|
    && forall k :: 0 <= k < |plan| ==> ShuffleFits(shs[k], plan[k].subject, rooms, teachers)
  }

  lemma SameMembers<T>(a: seq<T>, b: seq<T>)
    requires multiset(a) == multiset(b)
    ensures forall x :: x in a <==> x in b
  {
    assert forall x :: x in a <==> x in multiset(a);
    assert forall x :: x in b <==> x in multiset(b);
  }

  lemma EveryDayListed(d: Day)
    ensures d in AllDays
  {
    match d
    case Monday => assert AllDays[0] == d;
    case Tuesday => assert AllDays[1] == d;
    case Wednesday => assert AllDays[2] == d;
    case Thursday => assert AllDays[3] == d;
    case Friday => assert AllDays[4] == d;
  }

  lemma EveryPeriodListed(p: Period)
    ensures p in AllPeriods
  {
    assert AllPeriods[p - 1] == p;
  }

  /** A fitting shuffle holds every capable teacher, every room, every day
      and every period, and nothing else. */
  lemma ShuffleMembers(sh: Shuffle, subject: Subject, rooms: seq<Room>, teachers: seq<Teacher>)
    requires ShuffleFits(sh, subject, rooms, teachers)
    ensures forall t :: t in sh.teachers <==> t in TeacherCandidates(teachers, subject)
    ensures forall r :: r in sh.rooms <==> r in rooms
    ensures forall d: Day :: d in sh.days
    ensures forall p: Period :: p in sh.times
  {
    SameMembers(sh.teachers, TeacherCandidates(teachers, subject));
    SameMembers(sh.rooms, rooms);
    SameMembers(sh.days, AllDays);
    SameMembers(sh.times, AllPeriods);
    forall d: Day
      ensures d in sh.days
    {
      EveryDayListed(d);
    }
    forall p: Period
      ensures p in sh.times
    {
      EveryPeriodListed(p);
    }
  }

  /** The scan's candidates are exactly the capable teachers, the rooms,
      the days and the periods, combined. */
  lemma CandidatesOfFit(inst: Instance, sh: Shuffle, rooms: seq<Room>, teachers: seq<Teacher>, c: Candidate)
    requires ShuffleFits(sh, inst.subject, rooms, teachers)
    ensures c in AllCombinations(sh.teachers, sh.rooms, sh.days, sh.times) <==>
      c.0 in TeacherCandidates(teachers, inst.subject) && c.1.0 in rooms
  {
    ShuffleMembers(sh, inst.subject, rooms, teachers);
  }

  /** Every capable teacher, room, day and period interferes with `prefix`. */
  predicate Blocked(prefix: Schedule, inst: Instance, rooms: seq<Room>, teachers: seq<Teacher>) {
    forall t, r, d: Day, p: Period | t in TeacherCandidates(teachers, inst.subject) && r in rooms ::
      Interferes(prefix, Session(r, inst.group, inst.subject, t, TimeSlot(d, p)))
  }

  /** Whatever the shuffle, the scan finds nothing exactly when every capable
      teacher, room, day and period interferes with a placed session. */
  lemma FirstFitNoneIff(placed: Schedule, inst: Instance, sh: Shuffle, rooms: seq<Room>, teachers: seq<Teacher>)
    requires ShuffleFits(sh, inst.subject, rooms, teachers)
    ensures FirstFit(placed, inst, sh).None? <==> Blocked(placed, inst, rooms, teachers)
    ensures FirstFit(placed, inst, sh).Some? ==> Realises(FirstFit(placed, inst, sh).value, inst, rooms, teachers)
  {
    if FirstFit(placed, inst, sh).None? {
      NothingFitsBlocked(placed, inst, sh, rooms, teachers);
    } else {
      FitUnblocked(placed, inst, sh, rooms, teachers);
    }
  }

  lemma NothingFitsBlocked(placed: Schedule, inst: Instance, sh: Shuffle, rooms: seq<Room>, teachers: seq<Teacher>)
    requires ShuffleFits(sh, inst.subject, rooms, teachers)
    requires FirstFit(placed, inst, sh).None?
    ensures Blocked(placed, inst, rooms, teachers)
  {
    forall t, r, d: Day, p: Period | t in TeacherCandidates(teachers, inst.subject) && r in rooms
      ensures Interferes(placed, Session(r, inst.group, inst.subject, t, TimeSlot(d, p)))
    {
      NothingFitsAt(placed, inst, sh, rooms, teachers, (t, (r, (d, p))));
    }
  }

  lemma NothingFitsAt(placed: Schedule, inst: Instance, sh: Shuffle, rooms: seq<Room>, teachers: seq<Teacher>, c: Candidate)
    requires ShuffleFits(sh, inst.subject, rooms, teachers)
    requires FirstFit(placed, inst, sh).None?
    requires c.0 in TeacherCandidates(teachers, inst.subject) && c.1.0 in rooms
    ensures Interferes(placed, MakeSession(inst, c))
  {
    CandidatesOfFit(inst, sh, rooms, teachers, c);
    NoneAllInterfere(placed, inst, Candidates(sh), c);
  }

  lemma NoneAllInterfere(placed: Schedule, inst: Instance, cands: seq<Candidate>, c: Candidate)
    requires FirstFree(placed, inst, cands).None? && c in cands
    ensures Interferes(placed, MakeSession(inst, c))
  {
    var i :| 0 <= i < |cands| && cands[i] == c;
  }

  lemma FitUnblocked(placed: Schedule, inst: Instance, sh: Shuffle, rooms: seq<Room>, teachers: seq<Teacher>)
    requires ShuffleFits(sh, inst.subject, rooms, teachers)
    requires FirstFit(placed, inst, sh).Some?
    ensures Realises(FirstFit(placed, inst, sh).value, inst, rooms, teachers)
    ensures !Blocked(placed, inst, rooms, teachers)
  {
    var cands := Candidates(sh);
    var x := FirstFit(placed, inst, sh).value;
    FirstFreeIsFirst(placed, inst, cands);
    var i :| 0 <= i < |cands| && x == MakeSession(inst, cands[i]);
    var c := cands[i];
    CandidatesOfFit(inst, sh, rooms, teachers, c);
    assert c.0 in TeacherCandidates(teachers, inst.subject) && c.1.0 in rooms;
    assert x == Session(c.1.0, inst.group, inst.subject, c.0, TimeSlot(c.1.1.0, c.1.1.1));
    assert !Interferes(placed, x);
  }

  // ---------------------------------------------------------------------------
  // Building a whole schedule

  /** Place the planned instances one by one after `placed`, scanning the
      candidate product `cs[k]` for instance `k`; give up with `None` at the
      first instance no candidate fits, never revisiting earlier choices. */
  function Extend(placed: Schedule, plan: seq<Instance>, cs: seq<seq<Candidate>>): (r: Option<Schedule>)
    requires |cs| >= |plan|
    ensures r.Some? ==> |r.value| == |placed| + |plan| && r.value[..|placed|] == placed
    ensures r.Some? && Valid(placed) ==> Valid(r.value)
    decreases |plan|
  {
    if |plan| == 0 then Some(placed)
    else
      match FirstFree(placed, plan[0], cs[0])
      case None => None
      case Some(x) =>
        var r := Extend(placed + [x], plan[1..], cs[1..]);
        if r.Some? then
          ValidAppend(placed, x);
          var t := r.value;
          assert t[..|placed| + 1] == placed + [x];
          assert t[..|placed|] == t[..|placed| + 1][..|placed|] == (placed + [x])[..|placed|] == placed;
          r
        else r
  }

  /** A built schedule is the first-fit chain: each session is what the scan
      returns against the sessions placed before it. */
  lemma {:induction false} ExtendChain(placed: Schedule, plan: seq<Instance>, cs: seq<seq<Candidate>>, k: int)
    requires |cs| >= |plan| && Extend(placed, plan, cs).Some?
    requires 0 <= k < |plan|
    ensures var s := Extend(placed, plan, cs).value;
      FirstFree(s[..|placed| + k], plan[k], cs[k]) == Some(s[|placed| + k])
    decreases |plan|
  {
    var s := Extend(placed, plan, cs).value;
    var first := FirstFree(placed, plan[0], cs[0]);
    assert first.Some?;
    var x := first.value;
    var rest := Extend(placed + [x], plan[1..], cs[1..]);
    assert rest == Extend(placed, plan, cs);
    assert s[..|placed| + 1] == placed + [x];
    if k == 0 {
      assert s[..|placed|] == placed;
      assert s[|placed|] == x;
    } else {
      ExtendChain(placed + [x], plan[1..], cs[1..], k - 1);
      var j := |placed + [x]| + (k - 1);
      assert j == |placed| + k;
      assert plan[1..][k - 1] == plan[k] && cs[1..][k - 1] == cs[k];
    }
  }

  /** The candidate products of the first `n` shuffles. */
  function CandidateLists(shs: seq<Shuffle>, n: nat): (cs: seq<seq<Candidate>>)
    requires n <= |shs|
    ensures |cs| == n
  {
    if n == 0 then [] else CandidateLists(shs, n - 1) + [Candidates(shs[n - 1])]
  }

  lemma {:induction false} CandidateListsAt(shs: seq<Shuffle>, n: nat, k: nat)
    requires k < n <= |shs|
    ensures CandidateLists(shs, n)[k] == Candidates(shs[k])
  {
    if k < n - 1 {
      CandidateListsAt(shs, n - 1, k);
    }
  }

  /** Construction from scratch with fitting shuffles yields an admissible
      schedule that realises the plan instance by instance. */
  lemma ExtendConforms(plan: seq<Instance>, shs: seq<Shuffle>, rooms: seq<Room>, teachers: seq<Teacher>)
    requires ShufflesFit(shs, plan, rooms, teachers)
    ensures var r := Extend([], plan, CandidateLists(shs, |plan|));
      r.Some? ==> && Valid(r.value) && |r.value| == |plan|
                  && forall k :: 0 <= k < |plan| ==> Realises(r.value[k], plan[k], rooms, teachers)
  {
    var cs := CandidateLists(shs, |plan|);
    var r := Extend([], plan, cs);
    if r.Some? {
      forall k | 0 <= k < |plan|
        ensures Realises(r.value[k], plan[k], rooms, teachers)
      {
        ExtendRealisesAt(plan, shs, rooms, teachers, k);
      }
    }
  }

  lemma ExtendRealisesAt(plan: seq<Instance>, shs: seq<Shuffle>, rooms: seq<Room>, teachers: seq<Teacher>, k: nat)
    requires ShufflesFit(shs, plan, rooms, teachers) && k < |plan|
    requires Extend([], plan, CandidateLists(shs, |plan|)).Some?
    ensures Realises(Extend([], plan, CandidateLists(shs, |plan|)).value[k], plan[k], rooms, teachers)
  {
    var cs := CandidateLists(shs, |plan|);
    var s := Extend([], plan, cs).value;
    ExtendChain([], plan, cs, k);
    CandidateListsAt(shs, |plan|, k);
    FirstFitNoneIff(s[..k], plan[k], shs[k], rooms, teachers);
  }

  /** `_try_generate_valid_schedule`. */
  function TryGenerate(groups: seq<Group>, rooms: seq<Room>, teachers: seq<Teacher>, shs: seq<Shuffle>): (r: Option<Schedule>)
    requires ShufflesFit(shs, Plan(groups), rooms, teachers)
    ensures r.Some? ==> Valid(r.value) && Conforms(r.value, groups, rooms, teachers)
  {
    ExtendConforms(Plan(groups), shs, rooms, teachers);
    Extend([], Plan(groups), CandidateLists(shs, |Plan(groups)|))
  }

  /** The sessions placed before instance `k`, when the first `k` instances
      could all be placed. */
  function Prefix(placed: Schedule, plan: seq<Instance>, cs: seq<seq<Candidate>>, k: nat): Option<Schedule>
    requires k <= |plan| <= |cs|
  {
    Extend(placed, plan[..k], cs)
  }

  /** Instance `k` is where construction stops: everything before it was
      placed, and no candidate for it fits. */
  predicate StuckAt(placed: Schedule, plan: seq<Instance>, cs: seq<seq<Candidate>>, k: nat)
    requires |plan| <= |cs|
  {
    && k < |plan|
    && Prefix(placed, plan, cs, k).Some?
    && FirstFree(Prefix(placed, plan, cs, k).value, plan[k], cs[k]).None?
  }

  /** Construction fails exactly when it gets stuck at some instance. */
  lemma {:induction false} ExtendFailsIffStuck(placed: Schedule, plan: seq<Instance>, cs: seq<seq<Candidate>>)
    requires |plan| <= |cs|
    ensures Extend(placed, plan, cs).None? <==> exists k: nat :: StuckAt(placed, plan, cs, k)
    decreases |plan|
  {
    if |plan| > 0 {
      assert plan[..0] == [];
      match FirstFree(placed, plan[0], cs[0])
      case None =>
        assert StuckAt(placed, plan, cs, 0);
      case Some(x) =>
        assert !StuckAt(placed, plan, cs, 0);
        ExtendFailsIffStuck(placed + [x], plan[1..], cs[1..]);
        forall k: nat | k < |plan| - 1
          ensures StuckAt(placed + [x], plan[1..], cs[1..], k) <==> StuckAt(placed, plan, cs, k + 1)
        {
          assert plan[..k + 1][0] == plan[0];
          assert plan[..k + 1][1..] == plan[1..][..k];
          assert Prefix(placed, plan, cs, k + 1) == Prefix(placed + [x], plan[1..], cs[1..], k);
          assert plan[1..][k] == plan[k + 1] && cs[1..][k] == cs[k + 1];
        }
        if exists k: nat :: StuckAt(placed, plan, cs, k) {
          var k: nat :| StuckAt(placed, plan, cs, k);
          assert k > 0;
          assert StuckAt(placed + [x], plan[1..], cs[1..], k - 1);
        }
    }
  }

  /** Stuck at instance `k` means blocked there, whatever the shuffle. */
  lemma StuckIffBlocked(plan: seq<Instance>, shs: seq<Shuffle>, rooms: seq<Room>, teachers: seq<Teacher>, k: nat)
    requires ShufflesFit(shs, plan, rooms, teachers)
    requires k < |plan| && Prefix([], plan, CandidateLists(shs, |plan|), k).Some?
    ensures var cs := CandidateLists(shs, |plan|);
      StuckAt([], plan, cs, k) <==> Blocked(Prefix([], plan, cs, k).value, plan[k], rooms, teachers)
  {
    var cs := CandidateLists(shs, |plan|);
    var p := Prefix([], plan, cs, k).value;
    CandidateListsAt(shs, |plan|, k);
    assert StuckAt([], plan, cs, k) <==> FirstFit(p, plan[k], shs[k]).None?;
    FirstFitNoneIff(p, plan[k], shs[k], rooms, teachers);
  }

  /** Construction from scratch fails exactly when, for some instance, all
      the instances before it were placed and every capable tuple for it
      clashes with them; whichever order the shuffles put the candidates in. */
  lemma ExtendFailsIffBlocked(plan: seq<Instance>, shs: seq<Shuffle>, rooms: seq<Room>, teachers: seq<Teacher>)
    requires ShufflesFit(shs, plan, rooms, teachers)
    ensures var cs := CandidateLists(shs, |plan|);
      Extend([], plan, cs).None? <==>
        exists k: nat :: k < |plan| && Prefix([], plan, cs, k).Some?
          && Blocked(Prefix([], plan, cs, k).value, plan[k], rooms, teachers)
  {
    var cs := CandidateLists(shs, |plan|);
    ExtendFailsIffStuck([], plan, cs);
    forall k: nat | k < |plan| && Prefix([], plan, cs, k).Some?
      ensures StuckAt([], plan, cs, k) <==> Blocked(Prefix([], plan, cs, k).value, plan[k], rooms, teachers)
    {
      StuckIffBlocked(plan, shs, rooms, teachers, k);
    }
  }

  /** The generator returns `None` exactly when it gets blocked at some instance. */
  lemma GenerateFailsIffBlocked(groups: seq<Group>, rooms: seq<Room>, teachers: seq<Teacher>, shs: seq<Shuffle>)
    requires ShufflesFit(shs, Plan(groups), rooms, teachers)
    ensures var plan := Plan(groups);
      var cs := CandidateLists(shs, |plan|);
      TryGenerate(groups, rooms, teachers, shs).None? <==>
        exists k: nat :: k < |plan| && Prefix([], plan, cs, k).Some?
          && Blocked(Prefix([], plan, cs, k).value, plan[k], rooms, teachers)
  {
    TryGenerateIsExtend(groups, rooms, teachers, shs);
    ExtendFailsIffBlocked(Plan(groups), shs, rooms, teachers);
  }

  lemma TryGenerateIsExtend(groups: seq<Group>, rooms: seq<Room>, teachers: seq<Teacher>, shs: seq<Shuffle>)
    requires ShufflesFit(shs, Plan(groups), rooms, teachers)
    ensures TryGenerate(groups, rooms, teachers, shs) == Extend([], Plan(groups), CandidateLists(shs, |Plan(groups)|))
  {
  }

  /** Some required subject has no capable teacher. */
  predicate NoTeacherFor(groups: seq<Group>, teachers: seq<Teacher>) {
    exists g, q :: g in groups && q in g.requiredSubjects && q.count > 0 && TeacherCandidates(teachers, q.subject) == []
  }

  lemma {:induction false} RequirementPlanCovers(g: Group, reqs: seq<Requirement>, q: Requirement)
    requires q in reqs && q.count > 0
    ensures Instance(g, q.subject) in RequirementPlan(g, reqs)
    decreases |reqs|
  {
    var head := Repeat(Instance(g, reqs[0].subject), reqs[0].count);
    if reqs[0] == q {
      assert head[0] == Instance(g, q.subject);
    } else {
      RequirementPlanCovers(g, reqs[1..], q);
    }
  }

  /** Every instance a group requires at least once appears in the plan. */
  lemma {:induction false} PlanCovers(groups: seq<Group>, g: Group, q: Requirement)
    requires g in groups && q in g.requiredSubjects && q.count > 0
    ensures Instance(g, q.subject) in Plan(groups)
    decreases |groups|
  {
    if groups[0] == g {
      RequirementPlanCovers(g, g.requiredSubjects, q);
    } else {
      PlanCovers(groups[1..], g, q);
    }
  }

  /** A subject nobody can teach makes every generation attempt fail. */
  lemma NoTeacherFails(groups: seq<Group>, rooms: seq<Room>, teachers: seq<Teacher>, shs: seq<Shuffle>)
    requires ShufflesFit(shs, Plan(groups), rooms, teachers)
    requires NoTeacherFor(groups, teachers)
    ensures TryGenerate(groups, rooms, teachers, shs) == None
  {
    var g, q :| g in groups && q in g.requiredSubjects && q.count > 0 && TeacherCandidates(teachers, q.subject) == [];
    PlanCovers(groups, g, q);
    var plan := Plan(groups);
    var k :| 0 <= k < |plan| && plan[k] == Instance(g, q.subject);
    var r := TryGenerate(groups, rooms, teachers, shs);
    if r.Some? {
      assert false;
    }
  }
}

=== FILE: seeding.dfy ===
/** Seeding the first population: repeated generation attempts, each with
    its own shuffles, until enough schedules were produced or the attempt
    budget is spent. */
module Seeding {
  import opened Entities
  import opened Constraints
  import opened Generator

  /** Per attempt, shuffles fitting the plan. */
  predicate AttemptsFit(attempts: seq<seq<Shuffle>>, groups: seq<Group>, rooms: seq<Room>, teachers: seq<Teacher>) {
    forall a :: 0 <= a < |attempts| ==> ShufflesFit(attempts[a], Plan(groups), rooms, teachers)
  }

  /** What each attempt yields, in attempt order. */
  function Outcomes(groups: seq<Group>, rooms: seq<Room>, teachers: seq<Teacher>, attempts: seq<seq<Shuffle>>)
    : (outs: seq<Option<Schedule>>)
    requires AttemptsFit(attempts, groups, rooms, teachers)
    ensures |outs| == |attempts|
  {
    seq(|attempts|, a requires 0 <= a < |attempts| => TryGenerate(groups, rooms, teachers, attempts[a]))
  }

  /** The schedule an attempt yields, as a list of zero or one. */
  function Keep(r: Option<Schedule>): (kept: seq<Schedule>)
    ensures |kept| == if r.Some? then 1 else 0
  {
    if r.Some? then [r.value] else []
  }

  /** The schedules among the first `n` outcomes, failures dropped, in order. */
  function Successes(outs: seq<Option<Schedule>>, n: nat): (r: seq<Schedule>)
    requires n <= |outs|
    ensures |r| <= n
  {
    if n == 0 then [] else Successes(outs, n - 1) + Keep(outs[n - 1])
  }

  /** Free of double bookings and built to the groups' requirements. */
  predicate Fit(p: Schedule, groups: seq<Group>, rooms: seq<Room>, teachers: seq<Teacher>) {
    Valid(p) && Conforms(p, groups, rooms, teachers)
  }

  predicate AllFit(ps: seq<Schedule>, groups: seq<Group>, rooms: seq<Room>, teachers: seq<Teacher>) {
    forall p :: p in ps ==> Fit(p, groups, rooms, teachers)
  }

  predicate Admissible(r: Option<Schedule>, groups: seq<Group>, rooms: seq<Room>, teachers: seq<Teacher>) {
    r.Some? ==> Valid(r.value) && Conforms(r.value, groups, rooms, teachers)
  }

  lemma OutcomesAdmissible(groups: seq<Group>, rooms: seq<Room>, teachers: seq<Teacher>, attempts: seq<seq<Shuffle>>)
    requires AttemptsFit(attempts, groups, rooms, teachers)
    ensures forall a :: 0 <= a < |attempts| ==> Admissible(Outcomes(groups, rooms, teachers, attempts)[a], groups, rooms, teachers)
  {
  }

  lemma {:induction false} SuccessesAdmissible(outs: seq<Option<Schedule>>, n: nat, groups: seq<Group>, rooms: seq<Room>, teachers: seq<Teacher>)
    requires n <= |outs|
    requires forall a :: 0 <= a < n ==> Admissible(outs[a], groups, rooms, teachers)
    ensures forall p :: p in Successes(outs, n) ==> Valid(p) && Conforms(p, groups, rooms, teachers)
  {
    if n > 0 {
      SuccessesAdmissible(outs, n - 1, groups, rooms, teachers);
    }
  }

  lemma SeedsAdmissible(groups: seq<Group>, rooms: seq<Room>, teachers: seq<Teacher>, attempts: seq<seq<Shuffle>>, n: nat)
    requires n <= |attempts| && AttemptsFit(attempts, groups, rooms, teachers)
    ensures forall p :: p in Successes(Outcomes(groups, rooms, teachers, attempts), n) ==> Valid(p) && Conforms(p, groups, rooms, teachers)
  {
    OutcomesAdmissible(groups, rooms, teachers, attempts);
    SuccessesAdmissible(Outcomes(groups, rooms, teachers, attempts), n, groups, rooms, teachers);
  }

  lemma ShortBeforeLast(outs: seq<Option<Schedule>>, n: nat, populationSize: int)
    requires n <= |outs|
    requires n > 0 ==> |Successes(outs, n - 1)| < populationSize
    ensures |Successes(outs, n)| <= populationSize || n == 0
  {
  }

  /** One call of the generator, on the shuffles of attempt `a`. */
  method Attempt(groups: seq<Group>, rooms: seq<Room>, teachers: seq<Teacher>, attempts: seq<seq<Shuffle>>, a: nat)
    returns (r: Option<Schedule>)
    requires a < |attempts| && AttemptsFit(attempts, groups, rooms, teachers)
    ensures r == Outcomes(groups, rooms, teachers, attempts)[a]
  {
    r := TryGenerate(groups, rooms, teachers, attempts[a]);
  }

  method GenerateInitialPopulation(populationSize: int, groups: seq<Group>, rooms: seq<Room>, teachers: seq<Teacher>,
                                   attempts: seq<seq<Shuffle>>)
    returns (population: seq<Schedule>, used: nat)
    requires |attempts| >= populationSize * 100
    requires AttemptsFit(attempts, groups, rooms, teachers)
    ensures used <= |attempts| && used <= (if populationSize < 0 then 0 else populationSize * 100)
    ensures population == Successes(Outcomes(groups, rooms, teachers, attempts), used)
    ensures |population| <= populationSize || populationSize <= 0
    ensures |population| < populationSize ==> used == populationSize * 100
    ensures AllFit(population, groups, rooms, teachers)
    ensures population == [] <==> populationSize <= 0 || Successes(Outcomes(groups, rooms, teachers, attempts), populationSize * 100) == []
  {
    ghost var outs := Outcomes(groups, rooms, teachers, attempts);
    population := [];
    used := 0;
    while |population| < populationSize && used < populationSize * 100
      invariant used <= |attempts| && used <= (if populationSize < 0 then 0 else populationSize * 100)
      invariant population == Successes(outs, used)
      invariant used > 0 ==> |Successes(outs, used - 1)| < populationSize
    {
      var schedule := Attempt(groups, rooms, teachers, attempts, used);
      population := population + Keep(schedule);
      used := used + 1;
    }
    ShortBeforeLast(outs, used, populationSize);
    SeedsAdmissible(groups, rooms, teachers, attempts, used);
    if populationSize > 0 {
      SuccessesPrefix(outs, used, populationSize * 100);
    }
  }

  lemma OutcomesFail(groups: seq<Group>, rooms: seq<Room>, teachers: seq<Teacher>, attempts: seq<seq<Shuffle>>)
    requires AttemptsFit(attempts, groups, rooms, teachers)
    requires NoTeacherFor(groups, teachers)
    ensures forall a :: 0 <= a < |attempts| ==> Outcomes(groups, rooms, teachers, attempts)[a].None?
  {
    forall a | 0 <= a < |attempts|
      ensures Outcomes(groups, rooms, teachers, attempts)[a].None?
    {
      NoTeacherFails(groups, rooms, teachers, attempts[a]);
    }
  }

  lemma {:induction false} NoSuccesses(outs: seq<Option<Schedule>>, n: nat)
    requires n <= |outs|
    requires forall a :: 0 <= a < n ==> outs[a].None?
    ensures Successes(outs, n) == []
  {
    if n > 0 {
      NoSuccesses(outs, n - 1);
    }
  }

  /** When some required subject has no capable teacher, seeding produces nothing. */
  lemma NoTeacherNoSeeds(groups: seq<Group>, rooms: seq<Room>, teachers: seq<Teacher>, attempts: seq<seq<Shuffle>>, n: nat)
    requires n <= |attempts| && AttemptsFit(attempts, groups, rooms, teachers)
    requires NoTeacherFor(groups, teachers)
    ensures Successes(Outcomes(groups, rooms, teachers, attempts), n) == []
  {
    OutcomesFail(groups, rooms, teachers, attempts);
    NoSuccesses(Outcomes(groups, rooms, teachers, attempts), n);
  }

  /** A schedule is among the successes exactly when one of the first `n`
      attempts yielded it. */
  lemma {:induction false} SuccessesMembers(outs: seq<Option<Schedule>>, n: nat, p: Schedule)
    requires n <= |outs|
    ensures p in Successes(outs, n) <==> exists a :: 0 <= a < n && outs[a] == Some(p)
  {
    if n > 0 {
      SuccessesMembers(outs, n - 1, p);
    }
  }

  /** No schedule at all exactly when every one of the first `n` attempts failed. */
  lemma {:induction false} SuccessesEmpty(outs: seq<Option<Schedule>>, n: nat)
    requires n <= |outs|
    ensures |Successes(outs, n)| == 0 <==> forall a :: 0 <= a < n ==> outs[a].None?
  {
    if n > 0 {
      SuccessesEmpty(outs, n - 1);
      assert |Successes(outs, n)| == |Successes(outs, n - 1)| + |Keep(outs[n - 1])|;
    }
  }

  /** More attempts never lose a schedule: the successes of a shorter run
      are a prefix of those of a longer one. */
  lemma {:induction false} SuccessesPrefix(outs: seq<Option<Schedule>>, m: nat, n: nat)
    requires m <= n <= |outs|
    ensures Successes(outs, m) <= Successes(outs, n)
    decreases n - m
  {
    if m < n {
      SuccessesPrefix(outs, m, n - 1);
    }
  }
}

=== FILE: selection.dfy ===
/** GREEDY selection: sort the merged pool best first and keep the first
    `populationSize`.  Python's `sorted(..., reverse=True, key=score)` is a
    stable sort on descending score; on admissible schedules that is the
    stable sort on ascending penalty (`ScoreOrder`), which is what is sorted
    here, so that the keys are exact integers. */
module Selection {
  import opened Entities
  import opened Constraints
  import opened Fitness

  predicate SortedBy<T>(xs: seq<T>, key: T -> int) {
    forall i, j :: 0 <= i < j < |xs| ==> key(xs[i]) <= key(xs[j])
  }

  /** The elements of `xs` whose key is `v`, in their order in `xs`. */
  function WithKey<T>(xs: seq<T>, key: T -> int, v: int): (r: seq<T>)
    ensures |r| <= |xs|
  {
    if |xs| == 0 then []
    else (if key(xs[0]) == v then [xs[0]] else []) + WithKey(xs[1..], key, v)
  }

  /** Place `x` before the first element whose key is not smaller. */
  function Insert<T>(x: T, ys: seq<T>, key: T -> int): (r: seq<T>)
    ensures multiset(r) == multiset(ys) + multiset{x}
    ensures |r| == |ys| + 1
  {
    if |ys| == 0 || key(x) <= key(ys[0]) then [x] + ys
    else
      var rest := Insert(x, ys[1..], key);
      assert ys == [ys[0]] + ys[1..];
      [ys[0]] + rest
  }

  /** Insertion sort from the back: each element goes in front of every
      element after it whose key is not smaller. */
  function SortBy<T>(xs: seq<T>, key: T -> int): (r: seq<T>)
    ensures multiset(r) == multiset(xs)
    ensures |r| == |xs|
  {
    if |xs| == 0 then []
    else
      var rest := SortBy(xs[1..], key);
      assert xs == [xs[0]] + xs[1..];
      Insert(xs[0], rest, key)
  }

  lemma SortedTail<T>(xs: seq<T>, key: T -> int)
    requires |xs| > 0 && SortedBy(xs, key)
    ensures SortedBy(xs[1..], key)
  {
    forall i, j | 0 <= i < j < |xs| - 1
      ensures key(xs[1..][i]) <= key(xs[1..][j])
    {
      assert xs[1..][i] == xs[i + 1] && xs[1..][j] == xs[j + 1];
    }
  }

  /** A head no larger than anything after it extends a sorted sequence. */
  lemma SortedCons<T>(h: T, rest: seq<T>, key: T -> int)
    requires SortedBy(rest, key)
    requires forall k :: 0 <= k < |rest| ==> key(h) <= key(rest[k])
    ensures SortedBy([h] + rest, key)
  {
    var r := [h] + rest;
    forall i, j | 0 <= i < j < |r|
      ensures key(r[i]) <= key(r[j])
    {
      assert r[j] == rest[j - 1];
      if i > 0 {
        assert r[i] == rest[i - 1];
      }
    }
  }

  /** Every element of a sorted sequence is at least its head. */
  lemma HeadLeast<T>(ys: seq<T>, key: T -> int, y: T)
    requires SortedBy(ys, key) && y in multiset(ys)
    ensures key(ys[0]) <= key(y)
  {
    var j :| 0 <= j < |ys| && ys[j] == y;
  }

  lemma {:induction false} InsertSorted<T>(x: T, ys: seq<T>, key: T -> int)
    requires SortedBy(ys, key)
    ensures SortedBy(Insert(x, ys, key), key)
    decreases |ys|
  {
    if |ys| > 0 && key(x) > key(ys[0]) {
      var rest := Insert(x, ys[1..], key);
      SortedTail(ys, key);
      InsertSorted(x, ys[1..], key);
      forall k | 0 <= k < |rest|
        ensures key(ys[0]) <= key(rest[k])
      {
        assert rest[k] in multiset(rest);
        if rest[k] != x {
          assert ys == [ys[0]] + ys[1..];
          HeadLeast(ys, key, rest[k]);
        }
      }
      SortedCons(ys[0], rest, key);
    } else {
      SortedCons(x, ys, key);
    }
  }

  /** The sorted sequence is ordered by ascending key. */
  lemma {:induction false} SortBySorted<T>(xs: seq<T>, key: T -> int)
    ensures SortedBy(SortBy(xs, key), key)
    decreases |xs|
  {
    if |xs| > 0 {
      SortBySorted(xs[1..], key);
      InsertSorted(xs[0], SortBy(xs[1..], key), key);
    }
  }

  lemma {:induction false} WithKeyInsert<T>(x: T, ys: seq<T>, key: T -> int, v: int)
    ensures WithKey(Insert(x, ys, key), key, v) == (if key(x) == v then [x] else []) + WithKey(ys, key, v)
    decreases |ys|
  {
    if |ys| == 0 || key(x) <= key(ys[0]) {
      assert ([x] + ys)[1..] == ys;
    } else {
      var rest := Insert(x, ys[1..], key);
      WithKeyInsert(x, ys[1..], key, v);
      assert ([ys[0]] + rest)[1..] == rest;
    }
  }

  /** Stability: among elements with one key, the sort keeps their order. */
  lemma {:induction false} SortByStable<T>(xs: seq<T>, key: T -> int, v: int)
    ensures WithKey(SortBy(xs, key), key, v) == WithKey(xs, key, v)
    decreases |xs|
  {
    if |xs| > 0 {
      SortByStable(xs[1..], key, v);
      WithKeyInsert(xs[0], SortBy(xs[1..], key), key, v);
    }
  }

  /** Sorting what is already sorted changes nothing: the re-sort after
      selection is the identity. */
  lemma {:induction false} SortSortedIsIdentity<T>(xs: seq<T>, key: T -> int)
    requires SortedBy(xs, key)
    ensures SortBy(xs, key) == xs
    decreases |xs|
  {
    if |xs| > 0 {
      SortedTail(xs, key);
      SortSortedIsIdentity(xs[1..], key);
      if |xs| > 1 {
        assert key(xs[0]) <= key(xs[1..][0]);
      }
      assert [xs[0]] + xs[1..] == xs;
    }
  }

  /** Python's `xs[:n]`: a negative `n` counts from the end. */
  function Take<T>(xs: seq<T>, n: int): (r: seq<T>)
    ensures r <= xs
    ensures |r| == if n >= 0 then Min(n, |xs|) else Max(|xs| + n, 0)
  {
    if n >= 0 then xs[..Min(n, |xs|)] else xs[..Max(|xs| + n, 0)]
  }

  function Min(a: int, b: int): int { if a <= b then a else b }

  function Max(a: int, b: int): int { if a >= b then a else b }

  /** GREEDY: the merged pool, best first, cut to the population size. */
  function Greedy(pool: seq<Schedule>, populationSize: int): (r: seq<Schedule>)
    ensures r <= SortBy(pool, Penalty)
    ensures populationSize >= 0 ==> |r| == Min(populationSize, |pool|)
  {
    Take(SortBy(pool, Penalty), populationSize)
  }

  /** The selected schedules come from the pool, in ascending penalty order. */
  lemma GreedySelects(pool: seq<Schedule>, populationSize: int)
    ensures multiset(Greedy(pool, populationSize)) <= multiset(pool)
    ensures SortedBy(Greedy(pool, populationSize), Penalty)
  {
    var sorted := SortBy(pool, Penalty);
    var r := Greedy(pool, populationSize);
    SortBySorted(pool, Penalty);
    assert sorted == r + sorted[|r|..];
    assert multiset(sorted) == multiset(r) + multiset(sorted[|r|..]);
  }

  /** In a sorted sequence, nothing after position `n` has a smaller key
      than anything before it. */
  lemma PrefixBeatsRest<T>(xs: seq<T>, key: T -> int, n: nat, x: T, y: T)
    requires SortedBy(xs, key) && n <= |xs|
    requires x in xs[..n] && y in multiset(xs[n..])
    ensures key(x) <= key(y)
  {
    var i :| 0 <= i < n && xs[..n][i] == x;
    var j :| 0 <= j < |xs| - n && xs[n..][j] == y;
    assert xs[i] == x && xs[n + j] == y;
  }

  /** Cutting a sorted sequence keeps nothing worse than what it drops. */
  lemma TakeKeepsBest<T>(xs: seq<T>, key: T -> int, n: int, x: T, y: T)
    requires x in Take(SortBy(xs, key), n)
    requires y in multiset(xs) - multiset(Take(SortBy(xs, key), n))
    ensures key(x) <= key(y)
  {
    var sorted := SortBy(xs, key);
    var r := Take(sorted, n);
    SortBySorted(xs, key);
    assert sorted == r + sorted[|r|..];
    assert multiset(sorted) == multiset(r) + multiset(sorted[|r|..]);
    assert r == sorted[..|r|];
    PrefixBeatsRest(sorted, key, |r|, x, y);
  }

  /** No schedule left out beats one that was kept. */
  lemma GreedyKeepsBest(pool: seq<Schedule>, populationSize: int, x: Schedule, y: Schedule)
    requires x in Greedy(pool, populationSize)
    requires y in multiset(pool) - multiset(Greedy(pool, populationSize))
    ensures Penalty(x) <= Penalty(y)
  {
    TakeKeepsBest(pool, Penalty, populationSize, x, y);
  }

  /** `x` scores at least as high as `y`, both scores being defined. */
  predicate ScoresAtLeast(x: Schedule, y: Schedule) {
    Penalty(x) >= 0 && Penalty(y) >= 0 && Score(y) <= Score(x)
  }

  /** On admissible pools the order kept is the source's: non-increasing score. */
  lemma GreedyByScore(pool: seq<Schedule>, populationSize: int)
    requires forall k :: 0 <= k < |pool| ==> Valid(pool[k])
    ensures var r := Greedy(pool, populationSize);
      forall i, j :: 0 <= i < j < |r| ==> ScoresAtLeast(r[i], r[j])
  {
    var r := Greedy(pool, populationSize);
    forall i, j | 0 <= i < j < |r|
      ensures ScoresAtLeast(r[i], r[j])
    {
      GreedyPairByScore(pool, populationSize, i, j);
    }
  }

  lemma GreedyPairByScore(pool: seq<Schedule>, populationSize: int, i: nat, j: nat)
    requires forall k :: 0 <= k < |pool| ==> Valid(pool[k])
    requires i < j < |Greedy(pool, populationSize)|
    ensures ScoresAtLeast(Greedy(pool, populationSize)[i], Greedy(pool, populationSize)[j])
  {
    var r := Greedy(pool, populationSize);
    GreedySelects(pool, populationSize);
    var x, y := r[i], r[j];
    assert Penalty(x) <= Penalty(y);
    assert x in multiset(r) && y in multiset(r);
    AdmissibleMember(pool, x);
    AdmissibleMember(pool, y);
    ScoreAtMost(x, y);
  }

  lemma ScoreAtMost(x: Schedule, y: Schedule)
    requires Valid(x) && Valid(y) && Penalty(x) <= Penalty(y)
    ensures ScoresAtLeast(x, y)
  {
    PenaltyTermsNonNegative(x);
    PenaltyTermsNonNegative(y);
    ScoreOrder(x, y);
  }

  lemma AdmissibleMember(pool: seq<Schedule>, x: Schedule)
    requires forall k :: 0 <= k < |pool| ==> Valid(pool[k])
    requires x in multiset(pool)
    ensures Valid(x)
  {
    var k :| 0 <= k < |pool| && pool[k] == x;
  }
}

=== FILE: variation.dfy ===
/** The variation operators: crossover, which hands both parents back, and
    mutation, which changes one session of a copy.  The random draws are an
    input: a `Mutation` records what `random.random`, `random.choice` and
    `random.choices` returned for one call. */
module Variation {
  import opened Entities
  import opened Constraints
  import opened Generator

  /** The draws of one `_mutate` call.  `Skip` is the draw below the skip
      threshold.  Session and teacher indices are the oracle's picks, reduced
      modulo the length of the list drawn from. */
  datatype Mutation =
    | Skip
    | ChangeTimeSlot(index: nat, slot: TimeSlot)
    | ChangeTeacher(index: nat, pick: nat)
    | Swap(first: nat, second: nat)

  /** `_crossover`: both children are the parents, unchanged. */
  function Crossover(a: Schedule, b: Schedule): (children: (Schedule, Schedule))
    ensures children.0 == a && children.1 == b
  {
    (a, b)
  }

  /** The fields a mutation never touches. */
  predicate Keeps(x: Session, y: Session) {
    y.group == x.group && y.subject == x.subject && y.room == x.room
  }

  /** The error `_mutate` raises before it changes anything: drawing from an
      empty list of sessions, or from an empty list of teacher candidates. */
  predicate DrawFails(s: Schedule, teachers: seq<Teacher>, m: Mutation) {
    && !m.Skip?
    && (|s| == 0 || (m.ChangeTeacher? && TeacherCandidates(teachers, s[m.index % |s|].subject) == []))
  }

  /** `_mutate`, with each property assignment read as "copy the session with
      that one field replaced" (see `MutateAsWritten` for the code as it
      stands).  SWAP is modelled as written: the second session takes the
      first one's slot, then the first takes the (already overwritten) slot
      of the second, so both end with the first one's slot. */
  function Mutate(s: Schedule, teachers: seq<Teacher>, m: Mutation): (r: Result<Schedule>)
    ensures m.Skip? ==> r == Ok(s)
    ensures r.Err? <==> DrawFails(s, teachers, m)
    ensures r.Err? ==> r.fault == IndexError
    ensures r.Ok? ==> |r.value| == |s| && forall k :: 0 <= k < |s| ==> Keeps(s[k], r.value[k])
  {
    match m
    case Skip => Ok(s)
    case ChangeTimeSlot(i, slot) =>
      if |s| == 0 then Err(IndexError)
      else
        var k := i % |s|;
        Ok(s[k := s[k].(timeSlot := slot)])
    case ChangeTeacher(i, pick) =>
      if |s| == 0 then Err(IndexError)
      else
        var k := i % |s|;
        var candidates := TeacherCandidates(teachers, s[k].subject);
        if |candidates| == 0 then Err(IndexError)
        else Ok(s[k := s[k].(teacher := candidates[pick % |candidates|])])
    case Swap(i1, i2) =>
      if |s| == 0 then Err(IndexError)
      else
        var a, b := i1 % |s|, i2 % |s|;
        var t := s[b := s[b].(timeSlot := s[a].timeSlot)];
        Ok(t[a := t[a].(timeSlot := t[b].timeSlot)])
  }

  /** CHANGE_TIME_SLOT replaces the slot of the drawn session and nothing else. */
  lemma ChangeTimeSlotTouchesOne(s: Schedule, teachers: seq<Teacher>, i: nat, slot: TimeSlot)
    requires |s| > 0
    ensures var r := Mutate(s, teachers, ChangeTimeSlot(i, slot)).value;
      var k := i % |s|;
      && r[k] == s[k].(timeSlot := slot)
      && forall j :: 0 <= j < |s| && j != k ==> r[j] == s[j]
  {
  }

  /** CHANGE_TEACHER replaces the teacher of the drawn session by a roster
      teacher able to teach its subject, and changes nothing else. */
  lemma ChangeTeacherTouchesOne(s: Schedule, teachers: seq<Teacher>, i: nat, pick: nat)
    requires Mutate(s, teachers, ChangeTeacher(i, pick)).Ok?
    ensures var r := Mutate(s, teachers, ChangeTeacher(i, pick)).value;
      var k := i % |s|;
      && r[k] == s[k].(teacher := r[k].teacher)
      && r[k].teacher in teachers && CanTeach(r[k].teacher, r[k].subject)
      && forall j :: 0 <= j < |s| && j != k ==> r[j] == s[j]
  {
    var k := i % |s|;
    var candidates := TeacherCandidates(teachers, s[k].subject);
    assert candidates[pick % |candidates|] in candidates;
  }

  /** SWAP as written: both drawn sessions end with the first one's original
      slot; every other field and every other session stays as it was. */
  lemma SwapAsWritten(s: Schedule, teachers: seq<Teacher>, i1: nat, i2: nat)
    requires |s| > 0
    ensures var r := Mutate(s, teachers, Swap(i1, i2)).value;
      var a, b := i1 % |s|, i2 % |s|;
      && r[a] == s[a]
      && r[b] == s[b].(timeSlot := s[a].timeSlot)
      && forall j :: 0 <= j < |s| && j != a && j != b ==> r[j] == s[j]
  {
  }

  /** SWAP is not an exchange: when the two slots differ, the first session
      does not receive the second one's slot. */
  lemma SwapIsNotExchange(s: Schedule, teachers: seq<Teacher>, i1: nat, i2: nat)
    requires |s| > 0 && s[i1 % |s|].timeSlot != s[i2 % |s|].timeSlot
    ensures Mutate(s, teachers, Swap(i1, i2)).value[i1 % |s|].timeSlot != s[i2 % |s|].timeSlot
  {
    SwapAsWritten(s, teachers, i1, i2);
  }

  /** Swapping two distinct sessions that share a group, a room or a teacher
      puts them in one slot: the child is a double booking, which the checker
      then rejects. */
  lemma SwapSharedBreaksValidity(s: Schedule, teachers: seq<Teacher>, i1: nat, i2: nat)
    requires |s| > 0
    requires var a, b := i1 % |s|, i2 % |s|;
      a != b && (s[a].group.name == s[b].group.name || s[a].room.identifier == s[b].room.identifier
                 || s[a].teacher.fullname == s[b].teacher.fullname)
    ensures !Valid(Mutate(s, teachers, Swap(i1, i2)).value)
  {
    var r := Mutate(s, teachers, Swap(i1, i2)).value;
    SwapAsWritten(s, teachers, i1, i2);
    assert Conflict(r[i1 % |s|], r[i2 % |s|]);
  }

  /** Pointwise kept group and subject keep every requirement count. */
  lemma {:induction false} KeptCounts(s: Schedule, t: Schedule, g: Group, subject: Subject)
    requires |t| == |s| && forall k :: 0 <= k < |s| ==> Keeps(s[k], t[k])
    ensures CountSessions(t, g, subject) == CountSessions(s, g, subject)
    decreases |s|
  {
    if |s| > 0 {
      assert Keeps(s[0], t[0]);
      forall k | 0 <= k < |s| - 1
        ensures Keeps(s[1..][k], t[1..][k])
      {
        assert s[1..][k] == s[k + 1] && t[1..][k] == t[k + 1];
      }
      KeptCounts(s[1..], t[1..], g, subject);
    }
  }

  /** A mutated child holds as many sessions of every (group, subject) as its parent. */
  lemma MutateKeepsCounts(s: Schedule, teachers: seq<Teacher>, m: Mutation, g: Group, subject: Subject)
    requires Mutate(s, teachers, m).Ok?
    ensures CountSessions(Mutate(s, teachers, m).value, g, subject) == CountSessions(s, g, subject)
  {
    KeptCounts(s, Mutate(s, teachers, m).value, g, subject);
  }

  /** Mutating a conforming schedule yields a conforming schedule: groups,
      subjects and rooms stay, and a new teacher is a capable roster teacher. */
  lemma MutateKeepsConforms(s: Schedule, groups: seq<Group>, rooms: seq<Room>, teachers: seq<Teacher>, m: Mutation)
    requires Conforms(s, groups, rooms, teachers) && Mutate(s, teachers, m).Ok?
    ensures Conforms(Mutate(s, teachers, m).value, groups, rooms, teachers)
  {
    var r := Mutate(s, teachers, m).value;
    var plan := Plan(groups);
    if m.ChangeTeacher? {
      ChangeTeacherTouchesOne(s, teachers, m.index, m.pick);
    } else if m.ChangeTimeSlot? {
      ChangeTimeSlotTouchesOne(s, teachers, m.index, m.slot);
    } else if m.Swap? {
      SwapAsWritten(s, teachers, m.first, m.second);
    }
    forall k | 0 <= k < |r|
      ensures Realises(r[k], plan[k], rooms, teachers)
    {
      assert Realises(s[k], plan[k], rooms, teachers);
    }
  }

  /** On a conforming schedule, the only failing draw is one from an empty
      schedule: every session's own teacher is a candidate for its subject. */
  lemma ConformingMutateFails(s: Schedule, groups: seq<Group>, rooms: seq<Room>, teachers: seq<Teacher>, m: Mutation)
    requires Conforms(s, groups, rooms, teachers)
    ensures Mutate(s, teachers, m).Err? <==> !m.Skip? && |s| == 0
  {
    if !m.Skip? && |s| > 0 && m.ChangeTeacher? {
      var k := m.index % |s|;
      assert Realises(s[k], Plan(groups)[k], rooms, teachers);
      assert s[k].teacher in TeacherCandidates(teachers, s[k].subject);
    }
  }

  /** `_mutate` as the code stands: `Session` exposes its fields as read-only
      properties, so each assignment raises `AttributeError` once the draws
      before it have succeeded. */
  function MutateAsWritten(s: Schedule, teachers: seq<Teacher>, m: Mutation): (r: Result<Schedule>)
    ensures r.Ok? <==> m.Skip?
  {
    match m
    case Skip => Ok(s)
    case ChangeTimeSlot(_, _) =>
      if |s| == 0 then Err(IndexError) else Err(AttributeError)
    case ChangeTeacher(i, _) =>
      if |s| == 0 || |TeacherCandidates(teachers, s[i % |s|].subject)| == 0 then Err(IndexError)
      else Err(AttributeError)
    case Swap(_, _) =>
      if |s| == 0 then Err(IndexError) else Err(AttributeError)
  }

  /** Every mutation the corrected operator performs is an `AttributeError`
      in the code as written; the two agree on skips and on failed draws. */
  lemma MutateAsWrittenRaises(s: Schedule, teachers: seq<Teacher>, m: Mutation)
    ensures Mutate(s, teachers, m).Ok? && !m.Skip? ==> MutateAsWritten(s, teachers, m) == Err(AttributeError)
    ensures Mutate(s, teachers, m).Err? || m.Skip? ==> MutateAsWritten(s, teachers, m) == Mutate(s, teachers, m)
  {
  }

  /** The smallest witness: one session, a CHANGE_TIME_SLOT draw. */
  lemma MutateAsWrittenExample(x: Session, teachers: seq<Teacher>)
    ensures MutateAsWritten([x], teachers, ChangeTimeSlot(0, TimeSlot(Friday, 6))) == Err(AttributeError)
    ensures Mutate([x], teachers, ChangeTimeSlot(0, TimeSlot(Friday, 6))) == Ok([x.(timeSlot := TimeSlot(Friday, 6))])
  {
    assert [x][0 := x.(timeSlot := TimeSlot(Friday, 6))] == [x.(timeSlot := TimeSlot(Friday, 6))];
  }
}

=== FILE: windows.dfy ===
/** Idle "windows" in one entity's week: for each day with at least two
    classes, the periods strictly between the earliest and the latest class
    that hold no class. */
module Windows {
  import opened Entities

  /** The periods of the slots that fall on day `d`, in order. */
  function TimesOn(slots: seq<TimeSlot>, d: Day): (r: seq<int>)
    ensures |r| <= |slots|
    ensures forall k :: 0 <= k < |r| ==> 1 <= r[k] <= 6
  {
    if |slots| == 0 then []
    else (if slots[0].day == d then [slots[0].time as int] else []) + TimesOn(slots[1..], d)
  }

  function MinOf(xs: seq<int>): (r: int)
    requires |xs| > 0
    ensures r in xs && forall k :: 0 <= k < |xs| ==> r <= xs[k]
  {
    if |xs| == 1 then xs[0]
    else
      var m := MinOf(xs[1..]);
      if xs[0] <= m then xs[0] else m
  }

  function MaxOf(xs: seq<int>): (r: int)
    requires |xs| > 0
    ensures r in xs && forall k :: 0 <= k < |xs| ==> xs[k] <= r
  {
    if |xs| == 1 then xs[0]
    else
      var m := MaxOf(xs[1..]);
      if xs[0] >= m then xs[0] else m
  }

  /** The contribution of one day, as `_calculate_windows_number` computes it. */
  function DayWindows(slots: seq<TimeSlot>, d: Day): int {
    var ts := TimesOn(slots, d);
    if |ts| > 1 then (MaxOf(ts) - MinOf(ts)) - |ts| + 1 else 0
  }

  function SumDays(slots: seq<TimeSlot>, days: seq<Day>): int {
    if |days| == 0 then 0 else DayWindows(slots, days[0]) + SumDays(slots, days[1..])
  }

  /** `_calculate_windows_number`: the day contributions summed over Monday to Friday. */
  function WindowsNumber(slots: seq<TimeSlot>): int {
    SumDays(slots, AllDays)
  }

  /** The idle periods of a day: strictly between the first and the last
      class, with no class. */
  function Gaps(ts: seq<int>): set<int>
    requires |ts| > 0
  {
    set p | MinOf(ts) < p < MaxOf(ts) && p !in ts
  }

  lemma {:induction false} TimesOnMember(slots: seq<TimeSlot>, d: Day, t: int)
    ensures t in TimesOn(slots, d) <==> exists k :: 0 <= k < |slots| && slots[k].day == d && slots[k].time == t
    decreases |slots|
  {
    if |slots| > 0 {
      TimesOnMember(slots[1..], d, t);
      forall k | 1 <= k < |slots|
        ensures slots[k] == slots[1..][k - 1]
      {
      }
    }
  }

  lemma DistinctCons<T>(x: T, xs: seq<T>)
    ensures Distinct([x] + xs) <==> x !in xs && Distinct(xs)
  {
    var ys := [x] + xs;
    if x !in xs && Distinct(xs) {
      forall i, j | 0 <= i < j < |ys|
        ensures ys[i] != ys[j]
      {
        if i > 0 {
          assert ys[i] == xs[i - 1] && ys[j] == xs[j - 1];
        } else {
          assert ys[j] == xs[j - 1];
        }
      }
    }
    if Distinct(ys) {
      forall i, j | 0 <= i < j < |xs|
        ensures xs[i] != xs[j]
      {
        assert xs[i] == ys[i + 1] && xs[j] == ys[j + 1];
      }
      forall k | 0 <= k < |xs|
        ensures xs[k] != x
      {
        assert ys[0] == x && xs[k] == ys[k + 1];
      }
    }
  }

  /** Pairwise distinct slots give pairwise distinct periods on any one day. */
  lemma {:induction false} DistinctTimesOn(slots: seq<TimeSlot>, d: Day)
    requires Distinct(slots)
    ensures Distinct(TimesOn(slots, d))
    decreases |slots|
  {
    if |slots| > 0 {
      var rest := slots[1..];
      assert Distinct(rest) by {
        forall i, j | 0 <= i < j < |rest|
          ensures rest[i] != rest[j]
        {
          assert rest[i] == slots[i + 1] && rest[j] == slots[j + 1];
        }
      }
      DistinctTimesOn(rest, d);
      if slots[0].day == d {
        var t := slots[0].time as int;
        forall k | 0 <= k < |rest|
          ensures !(rest[k].day == d && rest[k].time == t)
        {
          assert rest[k] == slots[k + 1] && slots[0] != slots[k + 1];
        }
        TimesOnMember(rest, d, t);
        DistinctCons(t, TimesOn(rest, d));
      } else {
        assert TimesOn(slots, d) == TimesOn(rest, d);
      }
    }
  }

  /** The integers from `lo` to `hi`, both included. */
  function Range(lo: int, hi: int): (r: set<int>)
    ensures forall p :: p in r <==> lo <= p <= hi
    ensures lo <= hi + 1 ==> |r| == hi - lo + 1
    decreases hi - lo
  {
    if hi < lo then {} else Range(lo, hi - 1) + {hi}
  }

  lemma {:induction false} DistinctSetSize(xs: seq<int>)
    requires Distinct(xs)
    ensures |set x | x in xs| == |xs|
    decreases |xs|
  {
    if |xs| > 0 {
      DistinctCons(xs[0], xs[1..]);
      assert xs == [xs[0]] + xs[1..];
      DistinctSetSize(xs[1..]);
      assert (set x | x in xs) == {xs[0]} + (set x | x in xs[1..]);
    }
  }

  /** The occupied periods of a day and its idle periods together fill the
      span from the first to the last class, without overlap. */
  lemma SpanSplits(ts: seq<int>)
    requires |ts| > 0
    ensures var all := Range(MinOf(ts), MaxOf(ts));
      && (set x | x in ts) <= all
      && all - (set x | x in ts) == Gaps(ts)
  {
    var lo, hi := MinOf(ts), MaxOf(ts);
    var occupied := set x | x in ts;
    var all := Range(lo, hi);
    forall x | x in occupied
      ensures x in all
    {
      var k :| 0 <= k < |ts| && ts[k] == x;
    }
    forall p | p in all - occupied
      ensures p in Gaps(ts)
    {
      assert p != lo && p != hi;
    }
  }

  /** For distinct periods, the span minus the occupied periods counts the
      idle ones. */
  lemma GapsCount(ts: seq<int>)
    requires Distinct(ts) && |ts| > 0
    ensures (MaxOf(ts) - MinOf(ts)) - |ts| + 1 == |Gaps(ts)|
  {
    var occupied := set x | x in ts;
    var all := Range(MinOf(ts), MaxOf(ts));
    DistinctSetSize(ts);
    SpanSplits(ts);
    SubsetSplit(all, occupied);
  }

  lemma SubsetSplit(a: set<int>, b: set<int>)
    requires b <= a
    ensures |a| == |b| + |a - b|
  {
    assert a == b + (a - b);
  }

  /** With distinct slots, a day's contribution is exactly the number of its
      idle periods; in particular it is never negative. */
  lemma DayWindowsCountsGaps(slots: seq<TimeSlot>, d: Day)
    requires Distinct(slots)
    requires |TimesOn(slots, d)| > 1
    ensures DayWindows(slots, d) == |Gaps(TimesOn(slots, d))|
    ensures DayWindows(slots, d) >= 0
  {
    DistinctTimesOn(slots, d);
    GapsCount(TimesOn(slots, d));
  }

  lemma DayWindowsNonNegative(slots: seq<TimeSlot>, d: Day)
    requires Distinct(slots)
    ensures DayWindows(slots, d) >= 0
  {
    if |TimesOn(slots, d)| > 1 {
      DayWindowsCountsGaps(slots, d);
    }
  }

  /** Reference count of one day: the number of idle periods, none on a day
      without classes. */
  function IdleOn(slots: seq<TimeSlot>, d: Day): nat {
    var ts := TimesOn(slots, d);
    if |ts| == 0 then 0 else |Gaps(ts)|
  }

  /** Reference count of a week: the idle periods of each listed day. */
  function IdleWeek(slots: seq<TimeSlot>, days: seq<Day>): nat {
    if |days| == 0 then 0 else IdleOn(slots, days[0]) + IdleWeek(slots, days[1..])
  }

  lemma {:induction false} SumDaysCountsIdle(slots: seq<TimeSlot>, days: seq<Day>)
    requires Distinct(slots)
    ensures SumDays(slots, days) == IdleWeek(slots, days)
    decreases |days|
  {
    if |days| > 0 {
      var ts := TimesOn(slots, days[0]);
      if |ts| > 0 {
        DistinctTimesOn(slots, days[0]);
        GapsCount(ts);
      }
      SumDaysCountsIdle(slots, days[1..]);
    }
  }

  /** For an entity whose slots are pairwise distinct, the window count is
      the number of idle periods between its first and last class of each
      day, summed over the week. */
  lemma WindowsNumberCountsIdle(slots: seq<TimeSlot>)
    requires Distinct(slots)
    ensures WindowsNumber(slots) == IdleWeek(slots, AllDays)
  {
    SumDaysCountsIdle(slots, AllDays);
  }

  /** An entity whose slots are pairwise distinct never has a negative
      window count. */
  lemma {:induction false} SumDaysNonNegative(slots: seq<TimeSlot>, days: seq<Day>)
    requires Distinct(slots)
    ensures SumDays(slots, days) >= 0
    decreases |days|
  {
    if |days| > 0 {
      DayWindowsNonNegative(slots, days[0]);
      SumDaysNonNegative(slots, days[1..]);
    }
  }

  lemma WindowsNonNegative(slots: seq<TimeSlot>)
    requires Distinct(slots)
    ensures WindowsNumber(slots) >= 0
  {
    SumDaysNonNegative(slots, AllDays);
  }

  /** Slots that all fall on day `d` contribute nothing on any other day. */
  lemma {:induction false} TimesOnOtherDay(slots: seq<TimeSlot>, d: Day, e: Day)
    requires forall k :: 0 <= k < |slots| ==> slots[k].day == d
    requires e != d
    ensures TimesOn(slots, e) == []
    decreases |slots|
  {
    if |slots| > 0 {
      TimesOnOtherDay(slots[1..], d, e);
    }
  }

  lemma {:induction false} SumDaysOneDay(slots: seq<TimeSlot>, d: Day, days: seq<Day>)
    requires forall k :: 0 <= k < |slots| ==> slots[k].day == d
    ensures Distinct(days) ==> SumDays(slots, days) == (if d in days then DayWindows(slots, d) else 0)
    decreases |days|
  {
    if |days| > 0 {
      SumDaysOneDay(slots, d, days[1..]);
      if days[0] != d {
        TimesOnOtherDay(slots, d, days[0]);
      }
      if Distinct(days) {
        DistinctCons(days[0], days[1..]);
        assert days == [days[0]] + days[1..];
      }
    }
  }

  /** A week whose classes all fall on one day has that day's windows. */
  lemma WindowsOneDay(slots: seq<TimeSlot>, d: Day)
    requires forall k :: 0 <= k < |slots| ==> slots[k].day == d
    ensures WindowsNumber(slots) == DayWindows(slots, d)
  {
    SumDaysOneDay(slots, d, AllDays);
  }

  lemma TimesOnPair(x: TimeSlot, y: TimeSlot)
    requires x.day == y.day
    ensures TimesOn([x, y], x.day) == [x.time as int, y.time as int]
  {
    assert [x, y][1..] == [y];
  }

  lemma MinMaxPair(a: int, b: int)
    requires a <= b
    ensures MinOf([a, b]) == a && MaxOf([a, b]) == b
  {
    assert [a, b][1..] == [b];
  }

  /** Periods 1 and 3 on Monday leave one window. */
  lemma WindowsOneGap()
    ensures WindowsNumber([TimeSlot(Monday, 1), TimeSlot(Monday, 3)]) == 1
  {
    var a := [TimeSlot(Monday, 1), TimeSlot(Monday, 3)];
    WindowsOneDay(a, Monday);
    TimesOnPair(a[0], a[1]);
    MinMaxPair(1, 3);
  }

  lemma ContiguousTimes(b: seq<TimeSlot>)
    requires b == [TimeSlot(Monday, 1), TimeSlot(Monday, 2), TimeSlot(Monday, 3)]
    ensures TimesOn(b, Monday) == [1, 2, 3]
  {
    assert b[1..] == [TimeSlot(Monday, 2), TimeSlot(Monday, 3)];
    TimesOnPair(b[1], b[2]);
  }

  lemma ContiguousSpan(ts: seq<int>)
    requires ts == [1, 2, 3]
    ensures MinOf(ts) == 1 && MaxOf(ts) == 3
  {
    assert ts[1..] == [2, 3];
    MinMaxPair(2, 3);
  }

  /** Periods 1, 2 and 3 on Monday leave none. */
  lemma WindowsContiguous()
    ensures WindowsNumber([TimeSlot(Monday, 1), TimeSlot(Monday, 2), TimeSlot(Monday, 3)]) == 0
  {
    var b := [TimeSlot(Monday, 1), TimeSlot(Monday, 2), TimeSlot(Monday, 3)];
    WindowsOneDay(b, Monday);
    ContiguousTimes(b);
    ContiguousSpan(TimesOn(b, Monday));
  }

  /** A lone class on a day leaves none. */
  lemma WindowsLoneClass(t: TimeSlot)
    ensures WindowsNumber([t]) == 0
  {
    WindowsOneDay([t], t.day);
  }

  /** A doubly booked slot drives the count to -1. */
  lemma WindowsDuplicate()
    ensures WindowsNumber([TimeSlot(Monday, 2), TimeSlot(Monday, 2)]) == -1
  {
    var e := [TimeSlot(Monday, 2), TimeSlot(Monday, 2)];
    WindowsOneDay(e, Monday);
    TimesOnPair(e[0], e[1]);
    MinMaxPair(2, 2);
  }
}
